=== FILE: README.md ===
# GAB Financial Solutions ledger, modelled in Dafny

GAB Financial Solutions is a single-user bookkeeping application. It keeps three collections: accounts, transactions and inventory items (tyres held at five stock locations). Administrators and location users change them through a handful of handlers. This project models those handlers and the derived figures as pure functions over immutable records held in sequences:

- **Movements.** A sale or purchase appends one transaction, moves one location's stock and adjusts one account balance by the Asset/Liability sign table (`Movement`). The form that submits it validates the quantity and the stock at the location (`SaleForm`).
- **Stores.** Upsert by id, deletion (an account's deletion cascades to its transactions), and first-write-wins merging (`Store`, `App`).
- **Reconciliation.** Bank accounts, the selected account's transactions in date order, toggling the cleared flag, the cleared balance and the exact-equality reconciled test (`Reconciliation`).
- **Reports.** The date window, report-type selection, group keys, quantity recovered as amount ÷ *current* price, first-seen-order grouping, and the average, profit and margin columns (`Reports`, `Grouping`).
- **Dashboard and account totals.** Net worth, income, expenses, cash flow and inventory value, and how each moves under a recorded movement or a toggle (`Dashboard`, `Accounts`).
- **CSV.** Export and import of accounts, inventory and transactions, with quote-on-comma escaping, a quote-aware split, header-driven field lookup, per-row validation and the merge (`Csv`, `Accounts`, `Inventory`, `Transactions`). For each entity an export followed by an import gives the records back, provided the host prints each exported number so that `parseFloat` reads it back.
- **The transaction form.** The record it builds on add or edit, which keeps the id and the cleared flag and drops the inventory link (`TransactionForm`).

Money (balances, amounts, prices) is `real`, and stock quantities are `int`. A transaction's date is the ISO text the application stores. Everything that reads a date, a number or the clock comes from the host and is a parameter:

- `Host.Host` bundles `parseFloat`, `String(number)` and `new Date(x).toISOString()`.
- `Host.Importer` adds the generator of imported ids.
- Orderings and reports take `time: string -> int`.
- `parseInt` itself is modelled concretely (`Text.ParseInt`, `Text.ParseInt10`).

Export/import round trips assume `Host.PrintsBack` for each exported number: `parseFloat` reads back what `String` wrote for that value. This is a condition on each value, not on the host, because no host prints a value like 1/3 exactly. `Host.WholeHost` is a concrete host that meets it for every whole number.

## Model

| member | source | states |
|---|---|---|
| App.SaveTransaction | App.tsx:73-80 | only transactions change; an edit keeps the length; an add appends the record at the end |
| App.SaveAccount | App.tsx:91-98 | only accounts change; an edit keeps the length; an add appends the record at the end |
| App.SaveItem | App.tsx:111-118 | only inventory changes; an edit keeps the length; an add appends the record at the end |
| Store.SaveEditInPlace | App.tsx:74-75 | an edit replaces every record with the saved id in place, leaves the others alone, and makes lookups of that id find the saved record while lookups of other ids are unchanged |
| Store.SaveNewAppends | App.tsx:76-77 | an add makes a fresh id find the new record; an already-present id still finds the old one |
| App.DeleteAccount | App.tsx:100-103 | the account disappears along with exactly the transactions posted to it (count equals the number with that accountId); inventory and other accounts are untouched |
| App.DeleteTransaction | App.tsx:82-84 | removes exactly the transactions with that id; no account balance and no inventory changes |
| App.DeleteItem | App.tsx:120-122 | removes exactly the items with that id; accounts and transactions untouched |
| Store.RemoveKeyLookups | App.tsx:82-84 | after deletion the id no longer resolves, and every other id resolves as before |
| Store.RemoveKey | App.tsx:82-84 | keeps exactly the records whose key differs, and its length drops by the number of records with the key |
| Store.RemoveKeyAppend | App.tsx:82-84 | the delete filter keeps the survivors in collection order: deleting from a concatenation deletes from each part, in turn |
| Store.RemoveKeyOne | App.tsx:100-103 | a single record survives a delete iff its key differs |
| App.Login | App.tsx:60-67 | signs in the first user in the list whose username and password both match (no earlier user matches both); fails iff no user matches both |
| App.Rendered | App.tsx:194-215 | no user shows the login screen; a location user always sees the inventory; an administrator sees the selected page |
| App.SignInLanding | App.tsx:37-43 | after sign-in an administrator lands on the dashboard, a location user on the inventory, and a failed sign-in stays on the login screen |
| Movement.Record | App.tsx:134-191 | an unresolved item or account id changes nothing; otherwise one transaction is appended, the first matching item's price is used, the stock moves and the balance moves by the sign table |
| Movement.MovementTransaction | App.tsx:150-167 | amount = quantity × (sale price for a sale, cost price for a purchase); Income/Sales or Expense/Purchases by mode; cleared iff the account is not a bank account; item and location attached |
| Movement.MoveStock | App.tsx:170-176 | every item with the id moves by the delta at the chosen location only; other locations, fields and items unchanged |
| Movement.MoveBalance | App.tsx:179-190 | every account with the id moves by the sign table for its own type; everything else unchanged |
| Movement.Apply | App.tsx:150-190 | the three coordinated changes for a resolved item and account |
| SaleForm.InitialLocation | components/SalePurchaseModal.tsx:25 | a location user with a bound location starts at that location; everyone else at Capital |
| SaleForm.InitialForm | components/SalePurchaseModal.tsx:30-44 | reopening clears item and quantity, sets today's date and the user's location, and picks the first account or none |
| SaleForm.PickLocation | components/SalePurchaseModal.tsx:99-103 | a location user's choice is ignored; an administrator's choice is taken |
| SaleForm.LocationLocked | components/SalePurchaseModal.tsx:35-36 | whatever a bound location user picks, the form's location stays the binding |
| SaleForm.AvailableStock | components/SalePurchaseModal.tsx:69 | the selected item's stock at the chosen location, 0 when no item has the id |
| SaleForm.Submit | components/SalePurchaseModal.tsx:58-78 | rejects a missing item or account and an empty, unparseable or non-positive quantity; a sale is accepted only within the available stock and a rejection reports that stock; a purchase has no upper bound; acceptance passes the parsed quantity with the form's item, location, account and date |
| SaleForm.SaleStockCheck | components/SalePurchaseModal.tsx:68-74 | for a complete form, a sale is rejected iff the quantity exceeds the stock at the location; an unknown item rejects every sale with available stock 0 |
| SaleForm.SubmitAccepts | components/SalePurchaseModal.tsx:76 | a complete form within stock (or any purchase) is accepted with exactly the form's values and the parsed quantity |
| SaleForm.SubmitRejectsForStock | components/SalePurchaseModal.tsx:70-72 | an over-stock sale is rejected with the available quantity |
| SaleForm.Preview | components/SalePurchaseModal.tsx:47 | the mode's price times `parseFloat(quantity or "0")` for the selected item, 0 with no item, undefined (NaN) when the text does not parse |
| SaleForm.PreviewMatchesRecorded | components/SalePurchaseModal.tsx:47-76 | for an accepted form whose item and account exist, when `parseFloat` reads the quantity text as the whole number `parseInt(…, 10)` read, the preview equals the amount of the transaction the movement records |
| SaleForm.FractionPreviewDiffers | components/SalePurchaseModal.tsx:47-61 | the handler accepts the quantity text "3.5" as a movement of 3 (recorded at 60) while the preview, reading 3.5, shows 70; only the browser's step check of the number input (line 95) stands in the way |
| SaleForm.AcceptedSaleKeepsStock | components/SalePurchaseModal.tsx:68-76 | with distinct item ids and non-negative stock, recording an accepted sale leaves every location non-negative |
| SaleForm.DuplicateIdsDefeatStockCheck | App.tsx:170-176 | with two items sharing an id, the check reads the first while the movement updates both, driving the second negative (-2) |
| SaleForm.MockSaleOfThree | constants.tsx:4-22 | the sample data's sale of 3 Wireless Mouse at Capital to the checking account is accepted and gives amount 90, not cleared, Capital stock 7, balance 15090 |
| SaleForm.MockSaleOfFifteen | constants.tsx:22 | a sale of 15 of the same item at Capital is rejected with 10 available |
| Dashboard.RecordCashFlow | App.tsx:150-167 | a recorded movement moves cash flow up by its total for a sale and down for a purchase |
| Dashboard.BalanceMovedNetWorth | App.tsx:179-190 | the sign table moves the signed balance sum by the total once per account with the id, up for a sale and down for a purchase |
| Dashboard.RecordNetWorth | App.tsx:179-190 | with distinct account ids, a movement moves net worth by +total for a sale and -total for a purchase, whatever the account's type |
| Dashboard.StockMovedValue | App.tsx:170-176 | with distinct item ids, moving one location by delta moves inventory value by delta × cost price |
| Dashboard.RecordInventoryValue | components/Dashboard.tsx:51-54 | a recorded movement moves inventory value by the stock delta at the item's cost price |
| Dashboard.CashFlowSigned | components/Dashboard.tsx:41-49 | cash flow (all income minus all expenses, cleared or not) is the sum of the transactions' signed effects |
| Dashboard.ToggleKeepsCashFlow | components/Reconciliation.tsx:22-28 | toggling the cleared flag never changes the dashboard's cash flow |
| Accounts.Partition | components/Accounts.tsx:44-45 | assets are exactly the Asset accounts and liabilities exactly the Liability accounts, together a permutation of all accounts |
| Accounts.NetWorthSigned | components/Accounts.tsx:47-49 | total assets minus total liabilities is the sum of the balances signed by type |
| Accounts.NetWorthPermutation | components/Dashboard.tsx:31-39 | net worth does not depend on the order of the accounts |
| Accounts.Decode | components/Accounts.tsx:105-115 | a row is kept iff the name is non-empty and the balance parses; type is Asset iff the cell is "Asset"; isBank iff "true"; a missing id is replaced by a generated one |
| Accounts.Import | components/Accounts.tsx:81-125 | at most one non-blank line changes nothing; existing accounts stay first and unchanged; every appended record is a decoded row of the file and never reuses an existing id; every decoded row with a new id is appended |
| Accounts.RowFields | components/Accounts.tsx:53-64 | an exported line holds the id, name, type text, `String(balance)` and `true`/`false` under their headers |
| Accounts.DecodeFields | components/Accounts.tsx:94-115 | an exported account's line decodes back to the same account |
| Accounts.ExportImport | components/Accounts.tsx:53-125 | importing an export whose ids are new appends exactly those accounts, in order |
| Csv.Escape | components/Accounts.tsx:60 | a value is wrapped in double quotes iff it contains a comma |
| Csv.Unquote | components/Accounts.tsx:99-101 | one surrounding quote pair is stripped; anything else is left as is |
| Csv.UnquoteEscape | components/Accounts.tsx:99-101 | stripping undoes the comma quoting for a value without quotes |
| Csv.SplitCells | components/Accounts.tsx:95 | the split on commas outside quotes; joining its pieces with commas gives the line back |
| Csv.SplitCellsJoin | components/Accounts.tsx:95 | the split loses nothing: its pieces rejoin to the line |
| Csv.SplitJoinCells | components/Accounts.tsx:95 | cells with balanced quotes and commas only inside quotes split back to the same cells |
| Csv.EncodeRowSplit | components/Accounts.tsx:58-63 | an encoded line of quote-free values splits back into the escaped values |
| Csv.Lines | components/Accounts.tsx:88 | every line is a piece of `split('\n')`, and every non-blank piece is a line: the lines of the text with blank lines dropped |
| Csv.LinesAppend | components/Accounts.tsx:88 | the lines of two texts joined by a line break are the lines of the first followed by the lines of the second |
| Csv.LinesOne | components/Accounts.tsx:88 | a text without a line break is one line if it is not blank and none otherwise |
| Text.SplitAppend | components/Accounts.tsx:88 | `split('\n')` of two texts joined by the separator is the split of the first followed by the split of the second |
| Csv.HeaderNames | components/Accounts.tsx:91 | the header line split on every comma, each name trimmed |
| Csv.HeaderRoundTrip | components/Accounts.tsx:54-55 | an exported header line reads back as the same header names |
| Csv.Field | components/Accounts.tsx:97-103 | the cell under a header, unquoted; an absent header gives no value |
| Csv.FieldRoundTrip | components/Accounts.tsx:97-103 | under an exported row each header finds exactly the field written for it |
| Csv.RowsOf | components/Accounts.tsx:89-103 | fewer than two lines give no rows; otherwise one row per data line, numbered from 1 |
| Csv.Collect | components/Accounts.tsx:105-115 | only decoded rows are kept, in order, and every row that decodes contributes its record; when none decode the result is empty |
| Csv.CollectAppend | components/Accounts.tsx:105-115 | the per-row loop pushes in row order: collecting from a concatenation collects from each part, in turn |
| Csv.CollectOne | components/Accounts.tsx:105-115 | a single row contributes its decoded record iff it decodes, and nothing otherwise |
| Csv.ExportLines | components/Accounts.tsx:54-64 | the export is the header line followed by one line per record, in collection order |
| Csv.ExportDecode | components/Accounts.tsx:53-115 | decoding an export gives the records back when each record's line decodes to it |
| Store.Merge | components/Accounts.tsx:121-125 | existing records stay first and unchanged; every appended record comes from the file and never reuses an existing id; every incoming record with a new id is appended |
| Store.MergeAppend | components/Accounts.tsx:121-125 | merging a concatenated file appends the first part's new records, then the second part's, in file order |
| Store.MergeOne | components/Accounts.tsx:121-125 | a single incoming record is appended iff its id is not already present |
| Store.MergeFirstWriteWins | components/Transactions.tsx:97-101 | an id already present still resolves to the existing record after the merge |
| Store.MergeDisjoint | components/Inventory.tsx:93-97 | incoming records with new ids are all appended in file order, duplicates within the file included |
| Inventory.Search | components/Inventory.tsx:105-108 | keeps exactly the items whose lower-cased name or size contains the lower-cased term, in order |
| Inventory.SearchEmpty | components/Inventory.tsx:105-108 | the empty term keeps every item |
| Inventory.SearchAppend | components/Inventory.tsx:105-108 | the search keeps collection order: the matches of a concatenation are the matches of each part, in turn |
| Inventory.SearchOne | components/Inventory.tsx:105-108 | a single item is kept iff it matches the term |
| Inventory.StockCell | components/Inventory.tsx:77-81 | a location cell imports as its `parseInt` value, 0 when missing or unparseable |
| Inventory.StockCellText | components/Inventory.tsx:77-81 | an exported quantity reads back as itself |
| Inventory.Decode | components/Inventory.tsx:72-87 | kept iff the name is non-empty and both prices parse; the five locations come from their cells; a missing id is generated |
| Inventory.Import | components/Inventory.tsx:48-97 | at most one non-blank line changes nothing; existing items stay first and unchanged; every appended record is a decoded row of the file and never reuses an existing id; every decoded row with a new id is appended |
| Inventory.RowFields | components/Inventory.tsx:20-31 | an exported line holds each field's text under its header |
| Inventory.ExportImport | components/Inventory.tsx:20-97 | importing an export whose ids are new appends exactly those items, in order |
| Transactions.DisplayOrder | components/Transactions.tsx:110 | a permutation of the transactions in descending date order |
| Transactions.DisplayStable | components/Transactions.tsx:110 | transactions with the same time keep their collection order |
| Transactions.Decode | components/Transactions.tsx:75-91 | kept iff the date is valid, the description and account are non-empty and the amount parses; Income iff the cell is "Income"; cleared iff "true"; empty links become absent; a missing id is generated |
| Transactions.DateCell | components/Transactions.tsx:78 | a missing date cell is an invalid date, which skips the row |
| Transactions.Link | components/Transactions.tsx:85-86 | an empty or missing link cell becomes an absent link |
| Transactions.Import | components/Transactions.tsx:50-101 | at most one non-blank line changes nothing; existing transactions stay first and unchanged; every appended record is a decoded row of the file and never reuses an existing id; every decoded row with a new id is appended |
| Transactions.RowCells | components/Transactions.tsx:26-31 | an exported line holds each field under its header; an uncleared flag and an absent link export as the empty cell |
| Transactions.ExportImport | components/Transactions.tsx:22-101 | with the amount always written, importing an export whose ids are new appends exactly those transactions, the cleared flag included |
| Transactions.ExportAgrees | components/Transactions.tsx:29 | when no amount is 0, the export as written equals the corrected export |
| Transactions.ZeroAmountLost | components/Transactions.tsx:29 | a transaction with amount 0, exported as written and re-imported, is lost |
| Ordering.SortBy | components/Transactions.tsx:110 | a permutation of the input ordered by the key |
| Ordering.SortStable | components/Reconciliation.tsx:19 | elements with equal keys keep their input order |
| Reconciliation.BankAccounts | components/Reconciliation.tsx:12 | exactly the bank accounts |
| Reconciliation.InitialSelection | components/Reconciliation.tsx:13 | the first bank account's id, none iff there is no bank account |
| Reconciliation.AccountTransactions | components/Reconciliation.tsx:16-20 | exactly the transactions of the selected account, in ascending date order |
| Reconciliation.Toggle | components/Reconciliation.tsx:22-28 | every transaction with the id becomes itself with the cleared flag negated; every other transaction is unchanged; the length is kept |
| Reconciliation.ToggleCleared | components/Reconciliation.tsx:22-28 | toggling writes only transactions: accounts, balances and inventory are unchanged |
| Reconciliation.ToggleTwice | components/Reconciliation.tsx:25 | toggling twice restores the transactions |
| Reconciliation.ToggleAbsent | components/Reconciliation.tsx:24-26 | toggling an id no transaction has changes nothing |
| Reconciliation.ToggleTail | components/Reconciliation.tsx:22-28 | the map treats each transaction on its own: the first is flipped iff it has the id, and the rest are toggled as a list of their own |
| Reconciliation.ClearedEffect | components/Reconciliation.tsx:32-35 | an uncleared transaction adds 0; a cleared income adds its amount; a cleared expense subtracts it |
| Reconciliation.ClearedBalanceSplit | components/Reconciliation.tsx:31-36 | the cleared balance is cleared income minus cleared expenses |
| Reconciliation.ClearedBalancePermutation | components/Reconciliation.tsx:31-36 | the cleared balance does not depend on the listing order |
| Reconciliation.ClearedBalanceShown | components/Reconciliation.tsx:16-36 | the balance over the sorted listing equals the cleared total of the selected account over the whole collection |
| Reconciliation.ToggleMovesCleared | components/Reconciliation.tsx:22-36 | with distinct transaction ids, toggling one moves the selected account's cleared balance by its signed amount (added when it becomes cleared, removed otherwise) and not at all for another account |
| Reconciliation.StatementValue | components/Reconciliation.tsx:37 | a statement that does not parse counts as 0 |
| Reconciliation.Reconciled | components/Reconciliation.tsx:115-119 | the `difference === 0` test: true iff the statement value (0 when it does not parse) equals the cleared balance exactly; the banner it controls appears only while an account is selected |
| Reports.ItemFor | components/Reports.tsx:28-30 | an item with the id such that no later item has it (the last one wins); none iff no item has it |
| Reports.LocationGroup | components/Reports.tsx:32-38 | each location key maps to its label; no location gives "Unknown Location" |
| Reports.GroupKey | components/Reports.tsx:54-63 | item groups by name and size by size, each with its "Unknown" fallback; location groups by label |
| Reports.Selected | components/Reports.tsx:46-49 | exactly the transactions in the window, linked to an item, of the report's type (Income/Sales or Expense/Purchases) and whose item still exists, in order; the others are skipped rather than counted as unknown |
| Reports.SelectedAppend | components/Reports.tsx:46-49 | selection keeps collection order and multiplicity: selecting from a concatenation selects from each part, in turn |
| Reports.SelectedOne | components/Reports.tsx:46-49 | a single transaction is selected iff it contributes to the report |
| Reports.RecoveryExact | components/Reports.tsx:77 | the quantity recovered at the current price equals the movement's quantity iff the price is unchanged |
| Reports.EntryFor | components/Reports.tsx:72-81 | a transaction adds its amount, quantity × price = amount, and for profitability cogs = quantity × cost price |
| Reports.Entries | components/Reports.tsx:107-120 | one entry per selected transaction, in order |
| Reports.Report | components/Reports.tsx:66-84 | the rows have pairwise distinct keys |
| Reports.ReportTotal | components/Reports.tsx:78-84 | the amounts over all rows add up to the amounts of the selected transactions |
| Reports.ReportGroups | components/Reports.tsx:114-119 | rows appear in first-seen order of their keys, and each row's quantity, revenue and cogs are the totals over its entries |
| Reports.Average | components/Reports.tsx:84 | undefined (NaN) iff the quantity is 0; otherwise average × quantity = revenue |
| Reports.Margin | components/Reports.tsx:122-126 | 0 unless revenue is positive; then margin × revenue = 100 × profit; at most 100 when cogs are non-negative |
| Grouping.AddEntry | components/Reports.tsx:78-81 | a new key is appended; a present key's row is combined in place; keys stay distinct |
| Grouping.Group | components/Reports.tsx:66-82 | distinct keys, exactly the keys of the entries |
| Grouping.GroupOrder | components/Reports.tsx:84 | the row keys are the entry keys with repeats removed, in first-seen order |
| Grouping.GroupTotals | components/Reports.tsx:116-118 | each row's additive column is the sum over the entries with its key |
| Grouping.GroupPreservesSum | components/Reports.tsx:78-84 | grouping preserves the column total |
| TransactionForm.Build | components/TransactionModal.tsx:40-54 | built iff amount and date parse; an edit keeps the id and the cleared flag, a new record gets a fresh id and starts uncleared; form fields are copied; the item link and location are dropped |
| TransactionForm.EditDropsFromReports | components/TransactionModal.tsx:42-51 | saving an edit of a movement transaction unlinks it, so no report selects it any more |
| Domain.LocationFromKey | types.ts:60 | the five location keys read back as their locations, anything else as none |
| Domain.WithStock | App.tsx:172-173 | sets one location's stock and keeps every other location and field |
| Domain.TotalAfterRestock | components/Inventory.tsx:163 | replacing one location's stock moves the total quantity by the difference |
| Domain.CashEffect | components/Reconciliation.tsx:33 | income counts its amount and expense the negated amount |
| Text.ParseIntToString | components/Inventory.tsx:77-81 | `parseInt` reads the decimal text of any integer back as that integer |
| Text.ParseIntEmpty | components/SalePurchaseModal.tsx:62-63 | `parseInt` of the empty text is NaN |
| Text.BlankIff | components/Accounts.tsx:88 | a line is blank after trimming iff all of it is white space |
| Host.ParseNumber | components/Accounts.tsx:110 | a missing cell is NaN; otherwise the host's `parseFloat` of the cell |
| Host.WholeHostPrintsBack | components/Accounts.tsx:110 | a host whose `String` writes whole numbers in decimal and whose `parseFloat` reads them reads back every whole number it prints and rejects the empty text, so the round-trip hypotheses can be met |

## Left out

- Persistence: `localStorage` and `useStickyState` are the load and store boundary. The model's state is the three collections.
- File plumbing: Blob, download link and FileReader in the export/import handlers. The model starts from the file's text and ends at the merged collection.
- The service worker: cache and fetch I/O, with no ledger logic.
- Presentation: the sidebar, the login screen's form, the account and inventory modals, React state and effect scheduling, currency formatting, and the dashboard's monthly chart.
  - The modals copy fields through `parseFloat`/`parseInt` with the defaulting the CSV import already shows.
- Host functions: `parseFloat`, `String(number)` and `new Date(...)` are host parameters, not implementations.
  - `parseInt` is implemented, but only for ASCII digits and `0x` hex.
  - `toLowerCase` is implemented for ASCII letters only.
- Generated ids: ids made from the clock (`txn-…`, `imported-…`, the transaction form's timestamp) are parameters.
- Dates: a date's time is a total function of its text, so invalid (NaN) dates in the orderings and report windows are not modelled.
  - The report window is given directly as the start-of-day and end-of-day times.
  - The locale's day and month group labels are uninterpreted parameters.
- Numbers: IEEE-754 rounding, infinities and NaN are not modelled. Money is exact `real`, and NaN is `None` where the code tests `isNaN`. The model also does not carry the `|| 0` fallbacks that guard against `undefined` location fields, because every stored quantity is a number.
- Reports.EntryFor: with a zero price the code divides by zero (Infinity or NaN). The model takes the recovered quantity as 0 there, so `quantity × price = amount` is stated only for non-zero prices.
- Reports.GroupKey: a location text outside the five keys has no label of its own in the code. `locationNameMap[t.location]` (components/Reports.tsx:59) reads a plain object literal (components/Reports.tsx:32-38). An unknown text such as `bogus` gives `undefined`. A name the literal inherits from `Object.prototype` (`toString`, `constructor`, `hasOwnProperty`, ...) gives that inherited function instead, each forming a group of its own, and `__proto__` gives `Object.prototype` itself, which the table cannot render. A CSV import can store any such text (components/Transactions.tsx:86). The model folds all of these into the single `None` key, one group for every off-map text.
- TransactionForm.Build: the browser's `required` and number constraints are not modelled. An amount or date that does not parse yields no record, where the code would save NaN or throw.
- SaleForm.Submit: the quantity input's browser constraints (`required`, `min="1"` and the default step of 1, components/SalePurchaseModal.tsx:95) are not modelled; only the handler's own checks are.
- Dashboard.RecordNetWorth: requires distinct ids, because the handlers update every record with the id; SaleForm.DuplicateIdsDefeatStockCheck shows what goes wrong otherwise, and a CSV file with duplicate ids can create that state.
- Dashboard.RecordInventoryValue: requires distinct ids, because the handlers update every record with the id; SaleForm.DuplicateIdsDefeatStockCheck shows what goes wrong otherwise, and a CSV file with duplicate ids can create that state.
- Dashboard.StockMovedValue: requires distinct ids, because the handlers update every record with the id; SaleForm.DuplicateIdsDefeatStockCheck shows what goes wrong otherwise, and a CSV file with duplicate ids can create that state.
- Reconciliation.ToggleMovesCleared: requires distinct ids, because the handlers update every record with the id; SaleForm.DuplicateIdsDefeatStockCheck shows what goes wrong otherwise, and a CSV file with duplicate ids can create that state.
- SaleForm.AcceptedSaleKeepsStock: requires distinct ids, because the handlers update every record with the id; SaleForm.DuplicateIdsDefeatStockCheck shows what goes wrong otherwise, and a CSV file with duplicate ids can create that state.
- Accounts.ExportImport: holds only for accounts with a non-empty id and name free of double quotes and line breaks, and a balance for which `Host.PrintsBack` holds. A double quote in a field is written unescaped, so the quote-aware split of the re-import shifts the columns; a balance the host cannot print exactly comes back as a nearby value.
- Inventory.ExportImport: holds only for items with a non-empty id and name, an id, name and size without double quotes or line breaks, and prices for which `Host.PrintsBack` holds. A double quote in a field is written unescaped, so the quote-aware split of the re-import shifts the columns; a price the host cannot print exactly comes back as a nearby value.
- Transactions.ExportImport: holds only for transactions with a non-empty id, description and account id, a date the host reads back as itself, links that are absent or non-empty, texts without double quotes or line breaks, and an amount for which `Host.PrintsBack` holds. A double quote in a field is written unescaped, so the quote-aware split of the re-import shifts the columns; an amount the host cannot print exactly comes back as a nearby value.
- Reports.GroupKey: the "Unknown Item" fallback of `getGroupKey` (components/Reports.tsx:57) is never reached for a missing item, because every report handler returns early when the item is missing (components/Reports.tsx:75, 93 and 110). The model therefore skips such a transaction in `Reports.Selected`; the fallback only applies to an item whose name is empty.
- Reports.Average: the average column divides revenue by quantity with no guard (components/Reports.tsx:84). The model gives no value (NaN) for a zero quantity rather than a number.
- Inventory.Decode: a file without a `size` column, or a data line with fewer cells than there are headers, gives the imported item a size of `undefined` in the code (components/Inventory.tsx:62-70, 76). The model stores the empty text instead. With `undefined` the code would fail in three places: the search throws on `item.size.toLowerCase()` (components/Inventory.tsx:107), the export writes the text "undefined" (components/Inventory.tsx:27), and a recorded movement's description reads "(undefined)" (App.tsx:157).
- Transactions.Decode: a file without a `category` column, or a data line too short to reach it, gives `undefined` in the code (components/Transactions.tsx:82). The model stores the empty text, which only the report filters read (and neither matches it); the export writes both as the empty cell.

## Findings

| source | as written | input that shows it | evidently intended | confidence | as-written member | corrected member |
|---|---|---|---|---|---|---|
| components/Transactions.tsx:29 | the export writes any falsy value as the empty cell, so an amount of 0 is exported as "" and the re-import rejects the row because `parseFloat("")` is NaN | a transaction with amount 0 (any other fields), exported and then imported | an exported transaction imports back unchanged | medium, not executed | Transactions.ZeroAmountLost | Transactions.ExportImport |

=== FILE: accounts.dfy ===
/** The accounts page: the asset/liability split with its totals and net worth, and the CSV
    export and import of accounts. */
module Accounts {
  import opened Wrappers
  import opened Domain
  import opened Host
  import Seqs
  import Store
  import Csv

  predicate IsAsset(a: Account) { a.kind == Asset }
  predicate IsLiability(a: Account) { a.kind == Liability }
  function Balance(a: Account): real { a.balance }

  /** `accounts.filter(a => a.type === ASSET)` */
  function Assets(accounts: seq<Account>): seq<Account> {
    Seqs.Filter(accounts, IsAsset)
  }

  /** `accounts.filter(a => a.type === LIABILITY)` */
  function Liabilities(accounts: seq<Account>): seq<Account> {
    Seqs.Filter(accounts, IsLiability)
  }

  /** Every account lands in exactly one of the two lists, according to its type. */
  lemma Partition(accounts: seq<Account>)
    ensures forall i | 0 <= i < |Assets(accounts)| :: Assets(accounts)[i].kind == Asset
    ensures forall i | 0 <= i < |Liabilities(accounts)| :: Liabilities(accounts)[i].kind == Liability
    ensures multiset(Assets(accounts)) + multiset(Liabilities(accounts)) == multiset(accounts)
  {
    Seqs.FilterPartitionCount(accounts, IsAsset, IsLiability);
  }

  function TotalAssets(accounts: seq<Account>): real {
    Seqs.Sum(Assets(accounts), Balance)
  }

  function TotalLiabilities(accounts: seq<Account>): real {
    Seqs.Sum(Liabilities(accounts), Balance)
  }

  /** `totalAssets - totalLiabilities` (the dashboard computes the same figure). */
  function NetWorth(accounts: seq<Account>): real {
    TotalAssets(accounts) - TotalLiabilities(accounts)
  }

  /** An account's contribution to net worth: its balance, negated for a liability. */
  function Signed(a: Account): real {
    if a.kind == Asset then a.balance else -a.balance
  }

  /** Net worth is the sum of the signed balances, so it does not depend on the accounts' order. */
  lemma {:induction false} NetWorthSigned(accounts: seq<Account>)
    ensures NetWorth(accounts) == Seqs.Sum(accounts, Signed)
  {
    if |accounts| > 0 {
      NetWorthSigned(accounts[1..]);
      NetWorthStep(accounts);
    }
  }

  /** The first account moves net worth by its signed balance. */
  lemma NetWorthStep(accounts: seq<Account>)
    requires |accounts| > 0
    ensures NetWorth(accounts) == Signed(accounts[0]) + NetWorth(accounts[1..])
  {
    Seqs.SumFilterHead(accounts, IsAsset, Balance);
    Seqs.SumFilterHead(accounts, IsLiability, Balance);
  }

  /** Reordering the accounts does not change net worth. */
  lemma NetWorthPermutation(a: seq<Account>, b: seq<Account>)
    requires multiset(a) == multiset(b)
    ensures NetWorth(a) == NetWorth(b)
  {
    NetWorthSigned(a);
    NetWorthSigned(b);
    Seqs.SumPermutation(a, b, Signed);
  }

  // ---------------------------------------------------------------------------
  // CSV

  const headers := ["id", "name", "type", "balance", "isBank"]

  /** The exported texts of one account, in header order: `String` of every field. */
  function Fields(h: Host, a: Account): (fs: seq<string>)
    ensures |fs| == |headers|
  {
    [a.id, a.name, a.kind.Text(), h.numberText(a.balance), if a.isBank then "true" else "false"]
  }

  /** `handleExport` */
  function Export(h: Host, accounts: seq<Account>): string {
    Csv.Export(headers, Fields, h, accounts)
  }

  /** One import row: kept iff the name is non-empty and the balance parses; a missing id is
      replaced by `freshId` of the row's position; the type is Asset iff the cell is exactly
      `Asset`; the bank flag is set iff the cell is exactly `true`. */
  function Decode(env: Importer, row: Csv.Row): (r: Option<Account>)
    ensures r.Some? <==>
      Csv.Field(row, "name").Some? && Csv.Field(row, "name").value != ""
      && ParseNumber(env.host, Csv.Field(row, "balance")).Some?
    ensures r.Some? ==>
      && r.value.name == Csv.Field(row, "name").value
      && r.value.balance == ParseNumber(env.host, Csv.Field(row, "balance")).value
      && (r.value.kind == Asset <==> Csv.Field(row, "type") == Some("Asset"))
      && (r.value.isBank <==> Csv.Field(row, "isBank") == Some("true"))
      && r.value.id == (if Csv.Field(row, "id").Some? && Csv.Field(row, "id").value != ""
                        then Csv.Field(row, "id").value else env.freshId(row.number))
  {
    var id := Csv.Field(row, "id");
    var name := Csv.Field(row, "name");
    var balance := ParseNumber(env.host, Csv.Field(row, "balance"));
    if name.None? || name.value == "" || balance.None? then None
    else
      Some(Account(
        id := if id.Some? && id.value != "" then id.value else env.freshId(row.number),
        name := name.value,
        kind := if Csv.Field(row, "type") == Some("Asset") then Asset else Liability,
        balance := balance.value,
        isBank := Csv.Field(row, "isBank") == Some("true")))
  }

  /** `handleFileImport`: the accepted rows appended after the existing accounts, skipping any
      whose id is already taken (first write wins; repeats within the file are kept). */
  function Import(existing: seq<Account>, text: string, env: Importer): (r: seq<Account>)
    ensures |Csv.Lines(text)| <= 1 ==> r == existing
    ensures |r| >= |existing| && r[..|existing|] == existing
    ensures forall i | |existing| <= i < |r| :: !Store.HasKey(existing, AccountId, r[i].id)
    ensures forall i | |existing| <= i < |r| :: r[i] in Csv.Decode(text, Decode, env)
    ensures forall x | x in Csv.Decode(text, Decode, env) && !Store.HasKey(existing, AccountId, x.id) :: x in r[|existing|..]
  {
    Store.Merge(existing, Csv.Decode(text, Decode, env), AccountId)
  }

  /** What an account needs to survive export and import unchanged: a non-empty id and name,
      no double quote or line break in either, and a balance the host prints back. */
  predicate Portable(h: Host, a: Account) {
    && a.id != "" && a.name != ""
    && '"' !in a.id && '\n' !in a.id && '"' !in a.name && '\n' !in a.name
    && PrintsBack(h, a.balance)
  }

  /** The values an exported account's line holds under each header. */
  lemma RowFields(h: Host, a: Account, n: nat)
    requires Portable(h, a)
    ensures var row := Csv.Row(headers, Csv.EscapeAll(Fields(h, a)), n);
      && Csv.Field(row, "id") == Some(a.id)
      && Csv.Field(row, "name") == Some(a.name)
      && Csv.Field(row, "type") == Some(a.kind.Text())
      && Csv.Field(row, "balance") == Some(h.numberText(a.balance))
      && Csv.Field(row, "isBank") == Some(if a.isBank then "true" else "false")
  {
    var fs := Fields(h, a);
    HeadersGood();
    assert Csv.GoodFields(headers, fs);
    Csv.FieldRoundTrip(headers, fs, n, 0);
    Csv.FieldRoundTrip(headers, fs, n, 1);
    Csv.FieldRoundTrip(headers, fs, n, 2);
    Csv.FieldRoundTrip(headers, fs, n, 3);
    Csv.FieldRoundTrip(headers, fs, n, 4);
  }

  /** An exported account's line decodes back to the account. */
  lemma DecodeFields(env: Importer, a: Account, n: nat)
    requires Portable(env.host, a)
    ensures Decode(env, Csv.Row(headers, Csv.EscapeAll(Fields(env.host, a)), n)) == Some(a)
  {
    RowFields(env.host, a, n);
    DecodeOf(env, Csv.Row(headers, Csv.EscapeAll(Fields(env.host, a)), n), a);
  }

  lemma DecodeOf(env: Importer, row: Csv.Row, a: Account)
    requires Portable(env.host, a)
    requires Csv.Field(row, "id") == Some(a.id)
    requires Csv.Field(row, "name") == Some(a.name)
    requires Csv.Field(row, "type") == Some(a.kind.Text())
    requires Csv.Field(row, "balance") == Some(env.host.numberText(a.balance))
    requires Csv.Field(row, "isBank") == Some(if a.isBank then "true" else "false")
    ensures Decode(env, row) == Some(a)
  {
    assert ParseNumber(env.host, Csv.Field(row, "balance")) == Some(a.balance);
    var r := Decode(env, row);
    assert r.Some?;
    var b := r.value;
    assert b.id == a.id && b.name == a.name && b.balance == a.balance;
    assert b.kind == a.kind;
    assert b.isBank == a.isBank;
  }

  lemma HeadersGood()
    ensures Csv.GoodHeaders(headers)
  {
  }

  /** Exporting accounts and importing the file into a collection that holds none of their ids
      appends exactly those accounts. */
  lemma ExportImport(existing: seq<Account>, accounts: seq<Account>, env: Importer)
    requires forall i | 0 <= i < |accounts| :: Portable(env.host, accounts[i])
    requires forall i | 0 <= i < |accounts| :: !Store.HasKey(existing, AccountId, accounts[i].id)
    ensures Import(existing, Export(env.host, accounts), env) == existing + accounts
  {
    HeadersGood();
    forall i | 0 <= i < |accounts| ensures Csv.GoodFields(headers, Fields(env.host, accounts[i])) {
    }
    forall i | 0 <= i < |accounts|
      ensures Decode(env, Csv.Row(headers, Csv.EscapeAll(Fields(env.host, accounts[i])), i + 1)) == Some(accounts[i])
    {
      DecodeFields(env, accounts[i], i + 1);
    }
    Csv.ExportDecode(headers, Fields, env.host, accounts, Decode, env);
    Store.MergeDisjoint(existing, accounts, AccountId);
  }
}

=== FILE: app.dfy ===
/** The application root: the three collections it owns, its save and delete handlers, the
    credential check and the view routing. Persistence to browser storage is left out: the
    collections are plain values handed from one handler to the next. */
module App {
  import opened Wrappers
  import opened Domain
  import Store

  /** The entity store: the three collections of record. */
  datatype Ledger = Ledger(accounts: seq<Account>, transactions: seq<Transaction>, inventory: seq<InventoryItem>)

  /** `handleSaveTransaction`: replace in place when editing, else append. */
  function SaveTransaction(l: Ledger, t: Transaction, editing: bool): (r: Ledger)
    ensures r.accounts == l.accounts && r.inventory == l.inventory
    ensures editing ==> |r.transactions| == |l.transactions|
    ensures !editing ==> r.transactions == l.transactions + [t]
  {
    l.(transactions := Store.Save(l.transactions, TxnId, t, editing))
  }

  /** `handleSaveAccount`: replace in place when editing, else append. */
  function SaveAccount(l: Ledger, a: Account, editing: bool): (r: Ledger)
    ensures r.transactions == l.transactions && r.inventory == l.inventory
    ensures editing ==> |r.accounts| == |l.accounts|
    ensures !editing ==> r.accounts == l.accounts + [a]
  {
    l.(accounts := Store.Save(l.accounts, AccountId, a, editing))
  }

  /** `handleSaveInventoryItem`: replace in place when editing, else append. */
  function SaveItem(l: Ledger, i: InventoryItem, editing: bool): (r: Ledger)
    ensures r.accounts == l.accounts && r.transactions == l.transactions
    ensures editing ==> |r.inventory| == |l.inventory|
    ensures !editing ==> r.inventory == l.inventory + [i]
  {
    l.(inventory := Store.Save(l.inventory, ItemId, i, editing))
  }

  /** `handleDeleteAccount`: the only cascading delete. The account goes, and so does every
      transaction posted to it; the inventory is untouched. */
  function DeleteAccount(l: Ledger, id: string): (r: Ledger)
    ensures r.inventory == l.inventory
    ensures forall i | 0 <= i < |r.accounts| :: r.accounts[i].id != id && r.accounts[i] in l.accounts
    ensures forall i | 0 <= i < |l.accounts| && l.accounts[i].id != id :: l.accounts[i] in r.accounts
    ensures forall i | 0 <= i < |r.transactions| :: r.transactions[i].accountId != id && r.transactions[i] in l.transactions
    ensures forall i | 0 <= i < |l.transactions| && l.transactions[i].accountId != id :: l.transactions[i] in r.transactions
    ensures |r.transactions| == |l.transactions| - Store.CountKey(l.transactions, TxnAccountId, id)
  {
    Ledger(Store.RemoveKey(l.accounts, AccountId, id),
           Store.RemoveKey(l.transactions, TxnAccountId, id),
           l.inventory)
  }

  /** `handleDeleteTransaction`: no cascade, and no account balance is repaired. */
  function DeleteTransaction(l: Ledger, id: string): (r: Ledger)
    ensures r.accounts == l.accounts && r.inventory == l.inventory
    ensures forall i | 0 <= i < |r.transactions| :: r.transactions[i].id != id && r.transactions[i] in l.transactions
    ensures forall i | 0 <= i < |l.transactions| && l.transactions[i].id != id :: l.transactions[i] in r.transactions
  {
    l.(transactions := Store.RemoveKey(l.transactions, TxnId, id))
  }

  /** `handleDeleteInventoryItem`: no cascade; transactions that name the item keep naming it. */
  function DeleteItem(l: Ledger, id: string): (r: Ledger)
    ensures r.accounts == l.accounts && r.transactions == l.transactions
    ensures forall i | 0 <= i < |r.inventory| :: r.inventory[i].id != id && r.inventory[i] in l.inventory
    ensures forall i | 0 <= i < |l.inventory| && l.inventory[i].id != id :: l.inventory[i] in r.inventory
  {
    l.(inventory := Store.RemoveKey(l.inventory, ItemId, id))
  }

  /** `handleLogin`: the first user whose username and password both match, compared verbatim. */
  function Login(users: seq<User>, username: string, password: string): (r: Option<User>)
    ensures r.Some? ==> r.value in users && r.value.username == username && r.value.password == password
    ensures r.None? <==> forall i | 0 <= i < |users| :: users[i].username != username || users[i].password != password
    ensures r.Some? ==> exists k | 0 <= k < |users| :: users[k] == r.value
                          && forall j | 0 <= j < k :: users[j].username != username || users[j].password != password
  {
    if |users| == 0 then None
    else if users[0].username == username && users[0].password == password then Some(users[0])
    else
      var r := Login(users[1..], username, password);
      assert forall i | 1 <= i < |users| :: users[i] == users[1..][i - 1];
      assert r.Some? ==> exists k | 1 <= k < |users| :: users[k] == r.value
                           && forall j | 0 <= j < k :: users[j].username != username || users[j].password != password;
      r
  }

  datatype View = Dashboard | Transactions | Accounts | Inventory | Reconciliation | Reports

  /** What the root shows: the login screen, or one page of the signed-in layout. */
  datatype Screen = LoginScreen | Page(view: View)

  /** What the root renders for the signed-in user (if any) and the selected view: the login
      screen when nobody is signed in, the inventory for every location user whatever view is
      selected, and the selected view for an administrator. */
  function Rendered(user: Option<User>, selected: View): (r: Screen)
    ensures r == LoginScreen <==> user.None?
    ensures user.Some? && user.value.role == LocationUser ==> r == Page(Inventory)
    ensures user.Some? && user.value.role == Admin ==> r == Page(selected)
  {
    match user
    case None => LoginScreen
    case Some(u) => if u.role == LocationUser then Page(Inventory) else Page(selected)
  }

  /** The view selected whenever the signed-in user changes. */
  function LandingView(user: Option<User>): View {
    if user.Some? && user.value.role == LocationUser then Inventory else Dashboard
  }

  /** Signing in with matching credentials lands an administrator on the dashboard and a
      location user on the inventory; failing credentials leave the login screen up. */
  lemma SignInLanding(users: seq<User>, username: string, password: string)
    ensures var u := Login(users, username, password);
      && (u.None? ==> Rendered(u, LandingView(u)) == LoginScreen)
      && (u.Some? && u.value.role == Admin ==> Rendered(u, LandingView(u)) == Page(Dashboard))
      && (u.Some? && u.value.role == LocationUser ==> Rendered(u, LandingView(u)) == Page(Inventory))
  {
  }
}

=== FILE: csv.dfy ===
/** The CSV dialect shared by the three export/import pairs (accounts, inventory,
    transactions). Export writes a fixed header line and one line per record, joined with
    `\n`, each field wrapped in double quotes when it contains a comma (inner quotes are not
    escaped). Import splits the text on `\n`, drops blank lines, does nothing when at most one
    line remains, reads the header names from the first line (`split(',')` then `trim`) and
    splits every other line on the commas followed by an even number of double quotes (the
    regular expression `,(?=(?:(?:[^"]*"){2})*[^"]*$)`), stripping one surrounding quote pair
    from a value. */
module Csv {
  import opened Wrappers
  import Text
  import Seqs

  // ---------------------------------------------------------------------------
  // quote-aware splitting of one line

  /** The number of double quotes in `s`. */
  function QuoteCount(s: string): nat {
    if |s| == 0 then 0 else (if s[0] == '"' then 1 else 0) + QuoteCount(s[1..])
  }

  lemma {:induction false} QuoteCountAppend(a: string, b: string)
    ensures QuoteCount(a + b) == QuoteCount(a) + QuoteCount(b)
  {
    if |a| > 0 {
      assert (a + b)[0] == a[0];
      assert (a + b)[1..] == a[1..] + b;
      QuoteCountAppend(a[1..], b);
    } else {
      assert a + b == b;
    }
  }

  lemma {:induction false} QuoteFreeCount(s: string)
    requires '"' !in s
    ensures QuoteCount(s) == 0
  {
    if |s| > 0 {
      assert s[0] in s;
      assert forall c | c in s[1..] :: c in s;
      QuoteFreeCount(s[1..]);
    }
  }

  /** `line.split(/,(?=(?:(?:[^"]*"){2})*[^"]*$)/)`: the line cut at every comma that is
      followed by an even number of double quotes, i.e. every comma outside a quoted region. */
  function SplitCells(s: string): (r: seq<string>)
    ensures |r| >= 1
  {
    if |s| == 0 then [""]
    else
      var rest := SplitCells(s[1..]);
      if s[0] == ',' && QuoteCount(s[1..]) % 2 == 0 then [""] + rest
      else [[s[0]] + rest[0]] + rest[1..]
  }

  /** Splitting loses nothing: joining the values with commas gives the line back. */
  lemma {:induction false} SplitCellsJoin(s: string)
    ensures Text.Join(SplitCells(s), ',') == s
  {
    if |s| > 0 {
      var rest := SplitCells(s[1..]);
      SplitCellsJoin(s[1..]);
      if s[0] == ',' && QuoteCount(s[1..]) % 2 == 0 {
        assert ([""] + rest)[1..] == rest;
      } else {
        var r := [[s[0]] + rest[0]] + rest[1..];
        assert r[1..] == rest[1..];
        if |rest| == 1 {
          assert rest[0] == s[1..];
        } else {
          assert Text.Join(rest, ',') == rest[0] + [','] + Text.Join(rest[1..], ',');
        }
      }
      assert s == [s[0]] + s[1..];
    }
  }

  /** Splitting a line whose first part holds no comma that the split would cut at. */
  lemma {:induction false} SplitCellsPrefix(a: string, t: string)
    requires forall j | 0 <= j < |a| && a[j] == ',' :: (QuoteCount(a[j + 1..]) + QuoteCount(t)) % 2 == 1
    ensures SplitCells(a + t) == [a + SplitCells(t)[0]] + SplitCells(t)[1..]
  {
    if |a| == 0 {
      assert a + t == t;
      assert a + SplitCells(t)[0] == SplitCells(t)[0];
      assert SplitCells(t) == [SplitCells(t)[0]] + SplitCells(t)[1..];
    } else {
      assert (a + t)[0] == a[0];
      assert (a + t)[1..] == a[1..] + t;
      forall j | 0 <= j < |a[1..]| && a[1..][j] == ','
        ensures (QuoteCount(a[1..][j + 1..]) + QuoteCount(t)) % 2 == 1
      {
        assert a[1..][j + 1..] == a[j + 2..];
      }
      SplitCellsPrefix(a[1..], t);
      if a[0] == ',' {
        QuoteCountAppend(a[1..], t);
      }
      assert [a[0]] + (a[1..] + SplitCells(t)[0]) == a + SplitCells(t)[0];
    }
  }

  /** A value that survives the split: an even number of quotes, and an odd number after each
      of its commas. */
  predicate CellOk(c: string) {
    && QuoteCount(c) % 2 == 0
    && forall j | 0 <= j < |c| && c[j] == ',' :: QuoteCount(c[j + 1..]) % 2 == 1
  }

  /** Joining well-formed values with commas and splitting the line gives the values back. */
  lemma {:induction false} SplitJoinCells(cells: seq<string>)
    requires |cells| >= 1
    requires forall i | 0 <= i < |cells| :: CellOk(cells[i])
    ensures SplitCells(Text.Join(cells, ',')) == cells
    ensures QuoteCount(Text.Join(cells, ',')) % 2 == 0
  {
    var c := cells[0];
    if |cells| == 1 {
      SplitCellsPrefix(c, "");
      assert c + "" == c;
      assert cells == [c];
    } else {
      var tail := Text.Join(cells[1..], ',');
      SplitJoinCells(cells[1..]);
      assert Text.Join(cells, ',') == c + ([','] + tail);
      SplitJoinStep(c, tail);
      assert cells == [c] + cells[1..];
    }
  }

  /** One step of the join: a well-formed value, a comma, then a line with balanced quotes. */
  lemma SplitJoinStep(c: string, tail: string)
    requires CellOk(c) && QuoteCount(tail) % 2 == 0
    ensures SplitCells(c + ([','] + tail)) == [c] + SplitCells(tail)
    ensures QuoteCount(c + ([','] + tail)) % 2 == 0
  {
    var t := [','] + tail;
    CommaLine(tail);
    forall j | 0 <= j < |c| && c[j] == ','
      ensures (QuoteCount(c[j + 1..]) + QuoteCount(t)) % 2 == 1
    {
      assert QuoteCount(c[j + 1..]) % 2 == 1;
    }
    SplitCellsPrefix(c, t);
    assert SplitCells(t)[0] == "" && SplitCells(t)[1..] == SplitCells(tail);
    assert c + "" == c;
    QuoteCountAppend(c, t);
  }

  /** A comma in front of a line with balanced quotes is a cut. */
  lemma CommaLine(tail: string)
    requires QuoteCount(tail) % 2 == 0
    ensures QuoteCount([','] + tail) == QuoteCount(tail)
    ensures SplitCells([','] + tail) == [""] + SplitCells(tail)
  {
    var t := [','] + tail;
    assert t[0] == ',' && t[1..] == tail;
  }

  // ---------------------------------------------------------------------------
  // field escaping

  /** The export encoding of one field: quoted when it contains a comma. */
  function Escape(v: string): (e: string)
    ensures ',' in v ==> e == "\"" + v + "\""
    ensures ',' !in v ==> e == v
  {
    if ',' in v then "\"" + v + "\"" else v
  }

  /** The import decoding of one value: one surrounding quote pair stripped. */
  function Unquote(v: string): (u: string)
    ensures |v| >= 2 && v[0] == '"' && v[|v| - 1] == '"' ==> "\"" + u + "\"" == v
    ensures !(|v| >= 2 && v[0] == '"' && v[|v| - 1] == '"') ==> u == v
  {
    if |v| >= 2 && v[0] == '"' && v[|v| - 1] == '"' then v[1..|v| - 1] else v
  }

  /** A field without double quotes reads back as written. */
  lemma UnquoteEscape(v: string)
    requires '"' !in v
    ensures Unquote(Escape(v)) == v
  {
    if ',' !in v && |v| >= 2 {
      assert v[0] in v;
    }
  }

  /** The escaped form of a field without double quotes survives the split. */
  lemma EscapeOk(v: string)
    requires '"' !in v
    ensures CellOk(Escape(v))
  {
    QuoteFreeCount(v);
    if ',' in v {
      var e := Escape(v);
      assert e == "\"" + (v + "\"");
      QuoteCountAppend("\"", v + "\"");
      QuoteCountAppend(v, "\"");
      forall j | 0 <= j < |e| && e[j] == ',' ensures QuoteCount(e[j + 1..]) % 2 == 1 {
        assert 1 <= j <= |v|;
        assert e[j + 1..] == v[j..] + "\"";
        assert forall c | c in v[j..] :: c in v;
        QuoteFreeCount(v[j..]);
        QuoteCountAppend(v[j..], "\"");
      }
    } else {
      assert forall j | 0 <= j < |v| :: v[j] in v;
    }
  }

  /** The fields of one record, escaped. */
  function EscapeAll(fields: seq<string>): (r: seq<string>)
    ensures |r| == |fields|
    ensures forall i | 0 <= i < |fields| :: r[i] == Escape(fields[i])
  {
    seq(|fields|, i requires 0 <= i < |fields| => Escape(fields[i]))
  }

  /** One exported line: the escaped fields joined with commas. */
  function EncodeRow(fields: seq<string>): string {
    Text.Join(EscapeAll(fields), ',')
  }

  /** A line of fields without quotes splits back into the escaped fields. */
  lemma EncodeRowSplit(fields: seq<string>)
    requires |fields| >= 1
    requires forall i | 0 <= i < |fields| :: '"' !in fields[i]
    ensures SplitCells(EncodeRow(fields)) == EscapeAll(fields)
  {
    var cells := EscapeAll(fields);
    forall i | 0 <= i < |cells| ensures CellOk(cells[i]) {
      EscapeOk(fields[i]);
    }
    SplitJoinCells(cells);
  }

  // ---------------------------------------------------------------------------
  // documents

  /** The whole export: the header line, then one line per record. */
  function Export<C, T>(headers: seq<string>, fields: (C, T) -> seq<string>, ctx: C, records: seq<T>): string {
    Text.Join([Text.Join(headers, ',')] + RowLines(fields, ctx, records), '\n')
  }

  function RowLines<C, T>(fields: (C, T) -> seq<string>, ctx: C, records: seq<T>): (r: seq<string>)
    ensures |r| == |records|
    ensures forall i | 0 <= i < |records| :: r[i] == EncodeRow(fields(ctx, records[i]))
  {
    seq(|records|, i requires 0 <= i < |records| => EncodeRow(fields(ctx, records[i])))
  }

  /** `row.trim() !== ''` */
  predicate NonBlank(line: string) {
    !Text.IsBlank(line)
  }

  /** `text.split('\n').filter(row => row.trim() !== '')` */
  function Lines(text: string): (r: seq<string>)
    ensures forall i | 0 <= i < |r| :: NonBlank(r[i]) && '\n' !in r[i]
    ensures forall i | 0 <= i < |r| :: r[i] in Text.SplitOn(text, '\n')
    ensures forall i | 0 <= i < |Text.SplitOn(text, '\n')| && NonBlank(Text.SplitOn(text, '\n')[i]) ::
      Text.SplitOn(text, '\n')[i] in r
  {
    Seqs.Filter(Text.SplitOn(text, '\n'), NonBlank)
  }

  /** The lines of two texts joined by a line break are the lines of the first followed by the
      lines of the second. */
  lemma LinesAppend(a: string, b: string)
    ensures Lines(a + "\n" + b) == Lines(a) + Lines(b)
  {
    Text.SplitAppend(a, b, '\n');
    Seqs.FilterAppend(Text.SplitOn(a, '\n'), Text.SplitOn(b, '\n'), NonBlank);
  }

  /** A text without a line break is one line, kept when it is not blank. */
  lemma LinesOne(line: string)
    requires '\n' !in line
    ensures Lines(line) == if NonBlank(line) then [line] else []
  {
    Text.SplitPrefix(line, "", '\n');
    assert line + "" == line;
    assert Text.SplitOn(line, '\n') == [line];
    assert [line][1..] == [];
  }

  /** `rows[0].split(',').map(h => h.trim())` */
  function HeaderNames(line: string): (r: seq<string>)
    ensures |r| == |Text.SplitOn(line, ',')|
    ensures forall i | 0 <= i < |r| :: r[i] == Text.Trim(Text.SplitOn(line, ',')[i])
  {
    var parts := Text.SplitOn(line, ',');
    seq(|parts|, i requires 0 <= i < |parts| => Text.Trim(parts[i]))
  }

  /** One data line of an import: the header names, the raw split values, and the line's
      position among the non-blank lines (1 for the first data line). */
  datatype Row = Row(headers: seq<string>, values: seq<string>, number: nat)

  /** The position of the LAST header called `name`: the object the importers fill assigns
      header by header, so a repeated header keeps its last value. */
  function LastIndex(headers: seq<string>, name: string): (r: Option<nat>)
    ensures r.None? <==> name !in headers
    ensures r.Some? ==>
      && r.value < |headers| && headers[r.value] == name
      && forall j | r.value < j < |headers| :: headers[j] != name
  {
    if |headers| == 0 then None
    else if headers[|headers| - 1] == name then Some(|headers| - 1)
    else
      var r := LastIndex(headers[..|headers| - 1], name);
      assert forall j | 0 <= j < |headers| - 1 :: headers[..|headers| - 1][j] == headers[j];
      r
  }

  /** `data[name]` after the header loop: `None` (undefined) when no header is called `name` or
      the line has too few values; otherwise the value with one quote pair stripped. */
  function Field(row: Row, name: string): (r: Option<string>)
    ensures name !in row.headers ==> r.None?
    ensures r.Some? ==> exists i | 0 <= i < |row.values| && i < |row.headers| ::
      row.headers[i] == name && r.value == Unquote(row.values[i])
  {
    match LastIndex(row.headers, name)
    case None => None
    case Some(i) => if i < |row.values| then Some(Unquote(row.values[i])) else None
  }

  /** The data lines of an import, each split into values; none when the text holds at most
      one non-blank line. */
  function Rows(text: string): seq<Row> {
    RowsOf(Lines(text))
  }

  function RowsOf(lines: seq<string>): (r: seq<Row>)
    ensures |lines| <= 1 ==> r == []
    ensures |lines| > 1 ==> |r| == |lines| - 1
    ensures forall i | 0 <= i < |r| :: r[i] == Row(HeaderNames(lines[0]), SplitCells(lines[i + 1]), i + 1)
  {
    if |lines| <= 1 then []
    else seq(|lines| - 1, i requires 0 <= i < |lines| - 1 => Row(HeaderNames(lines[0]), SplitCells(lines[i + 1]), i + 1))
  }

  /** The records that `decode` accepts, in line order; a rejected line is skipped. */
  function Collect<D, T>(rows: seq<Row>, decode: (D, Row) -> Option<T>, env: D): (r: seq<T>)
    ensures |r| <= |rows|
    ensures forall i | 0 <= i < |r| :: exists j | 0 <= j < |rows| :: decode(env, rows[j]) == Some(r[i])
    ensures (forall j | 0 <= j < |rows| :: decode(env, rows[j]).None?) ==> r == []
    ensures forall j | 0 <= j < |rows| && decode(env, rows[j]).Some? :: decode(env, rows[j]).value in r
  {
    if |rows| == 0 then []
    else
      var rest := Collect(rows[1..], decode, env);
      match decode(env, rows[0])
      case Some(x) => [x] + rest
      case None => rest
  }

  /** Collecting goes through the rows in order: the records of `a + b` are those of `a`
      followed by those of `b`. */
  lemma {:induction false} CollectAppend<D, T>(a: seq<Row>, b: seq<Row>, decode: (D, Row) -> Option<T>, env: D)
    ensures Collect(a + b, decode, env) == Collect(a, decode, env) + Collect(b, decode, env)
  {
    if |a| == 0 {
      assert a + b == b;
    } else {
      assert (a + b)[0] == a[0];
      assert (a + b)[1..] == a[1..] + b;
      CollectAppend(a[1..], b, decode, env);
    }
  }

  /** A single row gives its record when `decode` accepts it and nothing otherwise. */
  lemma CollectOne<D, T>(row: Row, decode: (D, Row) -> Option<T>, env: D)
    ensures Collect([row], decode, env) == if decode(env, row).Some? then [decode(env, row).value] else []
  {
    assert [row][1..] == [];
  }

  /** The records an import reads from `text`. */
  function Decode<D, T>(text: string, decode: (D, Row) -> Option<T>, env: D): seq<T> {
    Collect(Rows(text), decode, env)
  }

  // ---------------------------------------------------------------------------
  // export then import

  /** What the export needs of the header names to read back: at least two (so every line holds
      a comma and none is blank), distinct, non-empty, and free of commas, quotes, line breaks and
      surrounding white space. */
  predicate GoodHeaders(headers: seq<string>) {
    && |headers| >= 2
    && (forall i, j | 0 <= i < j < |headers| :: headers[i] != headers[j])
    && forall i | 0 <= i < |headers| ::
         |headers[i]| > 0 && ',' !in headers[i] && '\n' !in headers[i]
         && !Text.IsSpace(headers[i][0]) && !Text.IsSpace(headers[i][|headers[i]| - 1])
  }

  /** What the export needs of one record's fields to read back: one per header, none holding a
      double quote or a line break. */
  predicate GoodFields(headers: seq<string>, fields: seq<string>) {
    && |fields| == |headers|
    && forall i | 0 <= i < |fields| :: '"' !in fields[i] && '\n' !in fields[i]
  }

  lemma {:induction false} CollectAll<D, T>(rows: seq<Row>, decode: (D, Row) -> Option<T>, env: D, records: seq<T>)
    requires |rows| == |records|
    requires forall i | 0 <= i < |rows| :: decode(env, rows[i]) == Some(records[i])
    ensures Collect(rows, decode, env) == records
  {
    if |rows| > 0 {
      CollectAll(rows[1..], decode, env, records[1..]);
      assert records == [records[0]] + records[1..];
    }
  }

  /** A joined line of at least two parts holds the separator, so it is not blank. */
  lemma JoinNonBlank(parts: seq<string>)
    requires |parts| >= 2
    ensures NonBlank(Text.Join(parts, ','))
  {
    var s := Text.Join(parts, ',');
    assert s[|parts[0]|] == ',';
    Text.BlankIff(s);
  }

  lemma {:induction false} JoinNoBreak(parts: seq<string>, sep: char)
    requires sep != '\n'
    requires forall i | 0 <= i < |parts| :: '\n' !in parts[i]
    ensures '\n' !in Text.Join(parts, sep)
  {
    if |parts| > 1 {
      JoinNoBreak(parts[1..], sep);
    }
  }

  /** The header line reads back as the header names. */
  lemma HeaderRoundTrip(headers: seq<string>)
    requires GoodHeaders(headers)
    ensures HeaderNames(Text.Join(headers, ',')) == headers
  {
    Text.SplitJoin(headers, ',');
    forall i | 0 <= i < |headers| ensures Text.Trim(headers[i]) == headers[i] {
      Text.TrimNoop(headers[i]);
    }
  }

  /** The value of a header in an exported line is the field written under it. */
  lemma FieldRoundTrip(headers: seq<string>, fields: seq<string>, number: nat, k: nat)
    requires GoodHeaders(headers) && GoodFields(headers, fields) && k < |headers|
    ensures Field(Row(headers, EscapeAll(fields), number), headers[k]) == Some(fields[k])
  {
    var li := LastIndex(headers, headers[k]);
    assert li == Some(k);
    UnquoteEscape(fields[k]);
  }

  /** Lines that are neither blank nor hold a line break read back from their join. */
  lemma LinesOfJoin(lines: seq<string>)
    requires |lines| >= 1
    requires forall i | 0 <= i < |lines| :: '\n' !in lines[i] && NonBlank(lines[i])
    ensures Lines(Text.Join(lines, '\n')) == lines
  {
    Text.SplitJoin(lines, '\n');
    Seqs.FilterAll(lines, NonBlank);
  }

  /** A line of at least two comma-joined parts, none with a line break, is a good line. */
  lemma GoodLine(parts: seq<string>)
    requires |parts| >= 2
    requires forall i | 0 <= i < |parts| :: '\n' !in parts[i]
    ensures '\n' !in Text.Join(parts, ',') && NonBlank(Text.Join(parts, ','))
  {
    JoinNoBreak(parts, ',');
    JoinNonBlank(parts);
  }

  /** An exported record line of at least two fields without line breaks is a good line. */
  lemma RecordLineGood(headers: seq<string>, fs: seq<string>)
    requires |headers| >= 2 && GoodFields(headers, fs)
    ensures '\n' !in EncodeRow(fs) && NonBlank(EncodeRow(fs))
  {
    var cells := EscapeAll(fs);
    forall k | 0 <= k < |cells| ensures '\n' !in cells[k] {
      assert cells[k] == Escape(fs[k]);
      if ',' in fs[k] {
        assert cells[k] == "\"" + fs[k] + "\"";
      }
    }
    GoodLine(cells);
  }

  /** Every record line of an export is a good line. */
  lemma RecordLinesGood<C, T>(headers: seq<string>, fields: (C, T) -> seq<string>, ctx: C, records: seq<T>)
    requires GoodHeaders(headers)
    requires forall i | 0 <= i < |records| :: GoodFields(headers, fields(ctx, records[i]))
    ensures forall i | 0 <= i < |records| ::
      '\n' !in RowLines(fields, ctx, records)[i] && NonBlank(RowLines(fields, ctx, records)[i])
  {
    forall i | 0 <= i < |records|
      ensures '\n' !in RowLines(fields, ctx, records)[i] && NonBlank(RowLines(fields, ctx, records)[i])
    {
      RecordLineGood(headers, fields(ctx, records[i]));
    }
  }

  /** A good first line followed by good lines reads back from their join. */
  lemma LinesOfHeaded(first: string, rest: seq<string>)
    requires '\n' !in first && NonBlank(first)
    requires forall i | 0 <= i < |rest| :: '\n' !in rest[i] && NonBlank(rest[i])
    ensures Lines(Text.Join([first] + rest, '\n')) == [first] + rest
  {
    var lines := [first] + rest;
    forall i | 0 <= i < |lines| ensures '\n' !in lines[i] && NonBlank(lines[i]) {
      if i > 0 {
        assert lines[i] == rest[i - 1];
      }
    }
    LinesOfJoin(lines);
  }

  /** The non-blank lines of an export are its header line and its record lines. */
  lemma ExportLines<C, T>(headers: seq<string>, fields: (C, T) -> seq<string>, ctx: C, records: seq<T>)
    requires GoodHeaders(headers)
    requires forall i | 0 <= i < |records| :: GoodFields(headers, fields(ctx, records[i]))
    ensures Lines(Export(headers, fields, ctx, records)) == [Text.Join(headers, ',')] + RowLines(fields, ctx, records)
  {
    GoodLine(headers);
    RecordLinesGood(headers, fields, ctx, records);
    LinesOfHeaded(Text.Join(headers, ','), RowLines(fields, ctx, records));
  }

  /** The rows an import reads from an export: one per record, holding the record's escaped
      fields under the exported headers, numbered from 1. */
  lemma ExportRows<C, T>(headers: seq<string>, fields: (C, T) -> seq<string>, ctx: C, records: seq<T>)
    requires GoodHeaders(headers)
    requires forall i | 0 <= i < |records| :: GoodFields(headers, fields(ctx, records[i]))
    ensures |Rows(Export(headers, fields, ctx, records))| == |records|
    ensures forall i | 0 <= i < |records| ::
      Rows(Export(headers, fields, ctx, records))[i] == Row(headers, EscapeAll(fields(ctx, records[i])), i + 1)
  {
    var lines := [Text.Join(headers, ',')] + RowLines(fields, ctx, records);
    ExportLines(headers, fields, ctx, records);
    HeaderRoundTrip(headers);
    var rows := RowsOf(lines);
    assert |rows| == |records|;
    forall i | 0 <= i < |rows| ensures rows[i] == Row(headers, EscapeAll(fields(ctx, records[i])), i + 1) {
      assert lines[i + 1] == EncodeRow(fields(ctx, records[i]));
      EncodeRowSplit(fields(ctx, records[i]));
    }
  }

  /** Export followed by import reads back exactly the exported records, provided the headers
      and fields are well formed and `decode` inverts `fields` on every exported line. */
  lemma ExportDecode<C, D, T>(headers: seq<string>, fields: (C, T) -> seq<string>, ctx: C, records: seq<T>, decode: (D, Row) -> Option<T>, env: D)
    requires GoodHeaders(headers)
    requires forall i | 0 <= i < |records| :: GoodFields(headers, fields(ctx, records[i]))
    requires forall i | 0 <= i < |records| ::
      decode(env, Row(headers, EscapeAll(fields(ctx, records[i])), i + 1)) == Some(records[i])
    ensures Decode(Export(headers, fields, ctx, records), decode, env) == records
  {
    ExportRows(headers, fields, ctx, records);
    CollectAll(Rows(Export(headers, fields, ctx, records)), decode, env, records);
  }
}

=== FILE: dashboard.dfy ===
/** The dashboard's summary figures: net worth, total income and expenses, cash flow and the
    value of the stock on hand, and how the ledger's operations move them. */
module Dashboard {
  import opened Domain
  import opened App
  import Seqs
  import Store
  import Accounts
  import Movement
  import Reconciliation

  predicate IsIncome(t: Transaction) { t.kind == Income }
  predicate IsExpense(t: Transaction) { t.kind == Expense }
  function Amount(t: Transaction): real { t.amount }

  /** `totalIncome`: the amounts of all income transactions, cleared or not. */
  function TotalIncome(ts: seq<Transaction>): real {
    Seqs.Sum(Seqs.Filter(ts, IsIncome), Amount)
  }

  /** `totalExpenses`: the amounts of all expense transactions, cleared or not. */
  function TotalExpenses(ts: seq<Transaction>): real {
    Seqs.Sum(Seqs.Filter(ts, IsExpense), Amount)
  }

  /** `cashFlow` */
  function CashFlow(ts: seq<Transaction>): real {
    TotalIncome(ts) - TotalExpenses(ts)
  }

  /** Cash flow is the sum of the transactions' cash effects. */
  lemma {:induction false} CashFlowSigned(ts: seq<Transaction>)
    ensures CashFlow(ts) == Seqs.Sum(ts, CashEffect)
  {
    if |ts| > 0 {
      CashFlowSigned(ts[1..]);
      Seqs.SumFilterHead(ts, IsIncome, Amount);
      Seqs.SumFilterHead(ts, IsExpense, Amount);
    }
  }

  lemma {:induction false} ToggleKeepsEffects(ts: seq<Transaction>, id: string)
    ensures Seqs.Sum(Reconciliation.Toggle(ts, id), CashEffect) == Seqs.Sum(ts, CashEffect)
  {
    if |ts| > 0 {
      var r := Reconciliation.Toggle(ts, id);
      assert r[1..] == Reconciliation.Toggle(ts[1..], id);
      ToggleKeepsEffects(ts[1..], id);
    }
  }

  /** Clearing or un-clearing a transaction does not move the dashboard's cash flow: the
      dashboard counts every transaction, cleared or not. */
  lemma ToggleKeepsCashFlow(ts: seq<Transaction>, id: string)
    ensures CashFlow(Reconciliation.Toggle(ts, id)) == CashFlow(ts)
  {
    CashFlowSigned(ts);
    CashFlowSigned(Reconciliation.Toggle(ts, id));
    ToggleKeepsEffects(ts, id);
  }

  /** One item's stock at cost: its total quantity times its cost price. */
  function StockValue(i: InventoryItem): real {
    AtPrice(TotalQuantity(i), i.costPrice)
  }

  /** `inventoryValue`: the stock at cost over all items. */
  function InventoryValue(items: seq<InventoryItem>): real {
    Seqs.Sum(items, StockValue)
  }

  /** A recorded movement moves cash flow by its total: up for a sale, down for a purchase. */
  lemma RecordCashFlow(l: Ledger, mode: Movement.Mode, req: Movement.Request, txnId: string)
    requires Movement.Resolves(l, req)
    ensures var item := Store.FindFirst(l.inventory, ItemId, req.itemId).value;
      var total := Movement.Total(item, mode, req.quantity);
      CashFlow(Movement.Record(l, mode, req, txnId).transactions)
        == CashFlow(l.transactions) + (if mode == Movement.Sale then total else -total)
  {
    var r := Movement.Record(l, mode, req, txnId);
    var t := r.transactions[|l.transactions|];
    assert r.transactions == l.transactions + [t];
    CashFlowSigned(l.transactions);
    CashFlowSigned(r.transactions);
    Seqs.SumAppend(l.transactions, [t], CashEffect);
    assert [t][1..] == [];
  }

  /** A quantity valued at a price. */
  function AtPrice(q: int, price: real): real {
    q as real * price
  }

  lemma AtPriceSucc(n: int, d: real)
    ensures AtPrice(n + 1, d) == d + AtPrice(n, d)
  {
  }

  /** Net worth after a balance movement: every account carrying the id contributes the
      movement's net-worth direction once. */
  lemma {:induction false} BalanceMovedNetWorth(before: seq<Account>, after: seq<Account>, id: string, mode: Movement.Mode, total: real)
    requires Movement.BalanceMoved(before, after, id, mode, total)
    ensures Seqs.Sum(after, Accounts.Signed)
         == Seqs.Sum(before, Accounts.Signed)
            + AtPrice(Store.CountKey(before, AccountId, id), if mode == Movement.Sale then total else -total)
  {
    var d := if mode == Movement.Sale then total else -total;
    if |before| > 0 {
      assert Movement.BalanceMoved(before[1..], after[1..], id, mode, total) by {
        forall k | 0 <= k < |before| - 1 && before[1..][k].id != id ensures after[1..][k] == before[1..][k] {
          assert before[k + 1].id != id;
        }
        forall k | 0 <= k < |before| - 1 && before[1..][k].id == id
          ensures after[1..][k] == before[1..][k].(balance := before[1..][k].balance
                                   + Movement.BalanceEffect(before[1..][k].kind, mode, total))
        {
          assert before[k + 1].id == id;
        }
      }
      BalanceMovedNetWorth(before[1..], after[1..], id, mode, total);
      var n := Store.CountKey(before[1..], AccountId, id);
      if before[0].id == id {
        Movement.SignedEffect(before[0].kind, mode, total);
        assert Accounts.Signed(after[0]) == Accounts.Signed(before[0]) + d;
        AtPriceSucc(n, d);
      } else {
        assert after[0] == before[0];
      }
    } else {
      assert AtPrice(0, d) == 0.0;
    }
  }

  /** A recorded movement against an account whose id is unique moves net worth by its total:
      up for a sale, down for a purchase, whatever the account's type. */
  lemma RecordNetWorth(l: Ledger, mode: Movement.Mode, req: Movement.Request, txnId: string)
    requires Movement.Resolves(l, req) && Store.UniqueKeys(l.accounts, AccountId)
    ensures var item := Store.FindFirst(l.inventory, ItemId, req.itemId).value;
      var total := Movement.Total(item, mode, req.quantity);
      Accounts.NetWorth(Movement.Record(l, mode, req, txnId).accounts)
        == Accounts.NetWorth(l.accounts) + (if mode == Movement.Sale then total else -total)
  {
    var r := Movement.Record(l, mode, req, txnId);
    var item := Store.FindFirst(l.inventory, ItemId, req.itemId).value;
    BalanceMovedNetWorth(l.accounts, r.accounts, req.accountId, mode, Movement.Total(item, mode, req.quantity));
    Store.CountKeyUnique(l.accounts, AccountId, req.accountId);
    assert AtPrice(1, if mode == Movement.Sale then Movement.Total(item, mode, req.quantity) else -Movement.Total(item, mode, req.quantity))
        == if mode == Movement.Sale then Movement.Total(item, mode, req.quantity) else -Movement.Total(item, mode, req.quantity);
    Accounts.NetWorthSigned(l.accounts);
    Accounts.NetWorthSigned(r.accounts);
  }

  /** Inventory value after a stock movement of an item whose id is unique: the moved quantity
      at that item's cost price. */
  lemma {:induction false} StockMovedValue(before: seq<InventoryItem>, after: seq<InventoryItem>, k: nat, loc: Location, delta: int)
    requires k < |before| && Store.UniqueKeys(before, ItemId)
    requires Movement.StockMoved(before, after, before[k].id, loc, delta)
    ensures InventoryValue(after) == InventoryValue(before) + AtPrice(delta, before[k].costPrice)
  {
    var id := before[k].id;
    assert Movement.StockMoved(before[1..], after[1..], id, loc, delta) by {
      forall j | 0 <= j < |before| - 1 && before[1..][j].id != id ensures after[1..][j] == before[1..][j] {
        assert before[j + 1].id != id;
      }
    }
    if k == 0 {
      MovedItemValue(before[0], after[0], loc, delta);
      assert forall j | 0 <= j < |before| - 1 :: before[1..][j].id != id by {
        forall j | 0 <= j < |before| - 1 ensures before[1..][j].id != id {
          assert ItemId(before[0]) != ItemId(before[j + 1]);
        }
      }
      assert after[1..] == before[1..];
    } else {
      assert before[0].id != id by {
        assert ItemId(before[0]) != ItemId(before[k]);
      }
      assert Store.UniqueKeys(before[1..], ItemId) by {
        forall i, j | 0 <= i < j < |before| - 1 ensures ItemId(before[1..][i]) != ItemId(before[1..][j]) {
          assert ItemId(before[i + 1]) != ItemId(before[j + 1]);
        }
      }
      assert before[1..][k - 1] == before[k];
      StockMovedValue(before[1..], after[1..], k - 1, loc, delta);
    }
  }

  /** One moved item's value changes by the moved quantity at its cost price. */
  lemma MovedItemValue(a: InventoryItem, b: InventoryItem, loc: Location, delta: int)
    requires b.costPrice == a.costPrice
    requires Stock(b, loc) == Stock(a, loc) + delta
    requires forall other: Location | other != loc :: Stock(b, other) == Stock(a, other)
    ensures StockValue(b) == StockValue(a) + AtPrice(delta, a.costPrice)
  {
    assert TotalQuantity(b) == TotalQuantity(a) + delta by {
      match loc
      case Capital =>
        assert Stock(b, WorldTyre) == Stock(a, WorldTyre) && Stock(b, Universal) == Stock(a, Universal);
        assert Stock(b, Store1) == Stock(a, Store1) && Stock(b, Store2) == Stock(a, Store2);
      case WorldTyre =>
        assert Stock(b, Capital) == Stock(a, Capital) && Stock(b, Universal) == Stock(a, Universal);
        assert Stock(b, Store1) == Stock(a, Store1) && Stock(b, Store2) == Stock(a, Store2);
      case Universal =>
        assert Stock(b, Capital) == Stock(a, Capital) && Stock(b, WorldTyre) == Stock(a, WorldTyre);
        assert Stock(b, Store1) == Stock(a, Store1) && Stock(b, Store2) == Stock(a, Store2);
      case Store1 =>
        assert Stock(b, Capital) == Stock(a, Capital) && Stock(b, WorldTyre) == Stock(a, WorldTyre);
        assert Stock(b, Universal) == Stock(a, Universal) && Stock(b, Store2) == Stock(a, Store2);
      case Store2 =>
        assert Stock(b, Capital) == Stock(a, Capital) && Stock(b, WorldTyre) == Stock(a, WorldTyre);
        assert Stock(b, Universal) == Stock(a, Universal) && Stock(b, Store1) == Stock(a, Store1);
    }
    assert (TotalQuantity(a) + delta) as real * a.costPrice
        == TotalQuantity(a) as real * a.costPrice + delta as real * a.costPrice;
    assert AtPrice(TotalQuantity(b), b.costPrice) == AtPrice(TotalQuantity(a), a.costPrice) + AtPrice(delta, a.costPrice);
  }

  /** A recorded movement of an item whose id is unique moves the inventory value by the moved
      quantity at cost: down for a sale, up for a purchase. */
  lemma RecordInventoryValue(l: Ledger, mode: Movement.Mode, req: Movement.Request, txnId: string)
    requires Movement.Resolves(l, req) && Store.UniqueKeys(l.inventory, ItemId)
    ensures var item := Store.FindFirst(l.inventory, ItemId, req.itemId).value;
      InventoryValue(Movement.Record(l, mode, req, txnId).inventory)
        == InventoryValue(l.inventory) + AtPrice(Movement.StockDelta(mode, req.quantity), item.costPrice)
  {
    var item := Store.FindFirst(l.inventory, ItemId, req.itemId).value;
    var k :| 0 <= k < |l.inventory| && l.inventory[k] == item && ItemId(l.inventory[k]) == req.itemId;
    var r := Movement.Record(l, mode, req, txnId);
    var delta := Movement.StockDelta(mode, req.quantity);
    assert Movement.StockMoved(l.inventory, r.inventory, l.inventory[k].id, req.location, delta);
    StockMovedValue(l.inventory, r.inventory, k, req.location, delta);
  }
}

=== FILE: domain.dfy ===
/** The records of the bookkeeping application: accounts, transactions, inventory items and
    users, with the enumerations that type their fields.

    Money (balances, amounts, prices) is `real` and stock quantities are `int`. A transaction's
    date stays the text the application stores; the operations that compare dates take the
    host's date parser as a parameter. The field the application calls `type` is `kind` here,
    since `type` is a Dafny keyword. */
module Domain {
  import opened Wrappers

  datatype AccountType = Asset | Liability {
    /** The enumeration's string value, as written to CSV. */
    function Text(): string {
      match this
      case Asset => "Asset"
      case Liability => "Liability"
    }
  }

  datatype TxnType = Income | Expense {
    /** The enumeration's string value, as written to CSV. */
    function Text(): string {
      match this
      case Income => "Income"
      case Expense => "Expense"
    }
  }

  /** The five stock locations; each names one numeric field of an inventory item. */
  datatype Location = Capital | WorldTyre | Universal | Store1 | Store2 {
    /** The name of the item field holding the stock at this location. */
    function Key(): string {
      match this
      case Capital => "locationCapital"
      case WorldTyre => "locationWorldTyre"
      case Universal => "locationUniversal"
      case Store1 => "locationStore1"
      case Store2 => "locationStore2"
    }

    /** The human label the reports and forms show for this location. */
    function Label(): string {
      match this
      case Capital => "Capital"
      case WorldTyre => "World Tyre"
      case Universal => "Universal"
      case Store1 => "Store-1"
      case Store2 => "Store-2"
    }
  }

  /** The location whose field name is `key`, if any. */
  function LocationFromKey(key: string): (r: Option<Location>)
    ensures r.Some? ==> r.value.Key() == key
    ensures forall l: Location :: l.Key() == key ==> r == Some(l)
  {
    if key == "locationCapital" then Some(Capital)
    else if key == "locationWorldTyre" then Some(WorldTyre)
    else if key == "locationUniversal" then Some(Universal)
    else if key == "locationStore1" then Some(Store1)
    else if key == "locationStore2" then Some(Store2)
    else None
  }

  datatype Role = Admin | LocationUser

  datatype Account = Account(id: string, name: string, kind: AccountType, balance: real, isBank: bool)

  /** A money movement. `location` holds the raw field-name text (normally a `Location.Key()`),
      because an imported row may carry any text there. */
  datatype Transaction = Transaction(
    id: string,
    date: string,
    description: string,
    amount: real,
    kind: TxnType,
    category: string,
    accountId: string,
    isCleared: bool,
    inventoryItemId: Option<string>,
    location: Option<string>)

  datatype InventoryItem = InventoryItem(
    id: string,
    name: string,
    size: string,
    locationCapital: int,
    locationWorldTyre: int,
    locationUniversal: int,
    locationStore1: int,
    locationStore2: int,
    costPrice: real,
    salePrice: real)

  /** A login. A location user is normally bound to one location. */
  datatype User = User(id: string, username: string, password: string, role: Role, location: Option<Location>)

  /** `item[loc]`: the stock of `item` at `loc`. */
  function Stock(item: InventoryItem, loc: Location): int {
    match loc
    case Capital => item.locationCapital
    case WorldTyre => item.locationWorldTyre
    case Universal => item.locationUniversal
    case Store1 => item.locationStore1
    case Store2 => item.locationStore2
  }

  /** `{ ...item, [loc]: q }`: the item with the stock at `loc` replaced. */
  function WithStock(item: InventoryItem, loc: Location, q: int): (r: InventoryItem)
    ensures Stock(r, loc) == q
    ensures forall other: Location :: other != loc ==> Stock(r, other) == Stock(item, other)
    ensures r.id == item.id && r.name == item.name && r.size == item.size
    ensures r.costPrice == item.costPrice && r.salePrice == item.salePrice
  {
    match loc
    case Capital => item.(locationCapital := q)
    case WorldTyre => item.(locationWorldTyre := q)
    case Universal => item.(locationUniversal := q)
    case Store1 => item.(locationStore1 := q)
    case Store2 => item.(locationStore2 := q)
  }

  /** The on-hand quantity of an item: the sum of its five location quantities. */
  function TotalQuantity(item: InventoryItem): int {
    item.locationCapital + item.locationWorldTyre + item.locationUniversal
      + item.locationStore1 + item.locationStore2
  }

  /** Replacing one location's stock moves the total by the difference and nothing else. */
  lemma TotalAfterRestock(item: InventoryItem, loc: Location, q: int)
    ensures TotalQuantity(WithStock(item, loc, q)) == TotalQuantity(item) - Stock(item, loc) + q
  {
  }

  /** The location field names are pairwise distinct and each reads back as its location. */
  lemma LocationKeysDistinct(a: Location, b: Location)
    ensures a.Key() == b.Key() <==> a == b
    ensures LocationFromKey(a.Key()) == Some(a)
  {
  }

  /** No location of the item holds a negative quantity. */
  predicate StockNonNegative(item: InventoryItem) {
    forall loc: Location :: Stock(item, loc) >= 0
  }

  /** A transaction's effect on cash: income adds its amount, expense subtracts it. */
  function CashEffect(t: Transaction): (r: real)
    ensures t.kind == Income ==> r == t.amount
    ensures t.kind == Expense ==> r == -t.amount
  {
    if t.kind == Income then t.amount else -t.amount
  }

  // Key projections, passed to the generic store operations.

  function AccountId(a: Account): string { a.id }
  function TxnId(t: Transaction): string { t.id }
  function TxnAccountId(t: Transaction): string { t.accountId }
  function ItemId(i: InventoryItem): string { i.id }
}

=== FILE: grouping.dfy ===
/** The report's accumulation into a `Map` keyed by group: entries are added one at a time, an
    entry whose key is already present is added into that group in place, and a new key is
    appended, so the groups come out in the order their keys were first seen. A key is
    `None` when the application's key is `undefined`. */
module Grouping {
  import opened Wrappers
  import Seqs

  /** One accumulated row: the key, the recovered quantity, the money total (revenue or cost)
      and the cost of goods sold. */
  datatype Entry = Entry(key: Option<string>, quantity: real, amount: real, cogs: real)

  function Quantity(e: Entry): real { e.quantity }
  function Amount(e: Entry): real { e.amount }
  function Cogs(e: Entry): real { e.cogs }

  /** `existing.quantity += …; existing.revenue += …; existing.cogs += …` */
  function Combine(g: Entry, e: Entry): Entry {
    Entry(g.key, g.quantity + e.quantity, g.amount + e.amount, g.cogs + e.cogs)
  }

  /** A projection that adds up under `Combine`. */
  ghost predicate Additive(f: Entry -> real) {
    forall g: Entry, e: Entry :: f(Combine(g, e)) == f(g) + f(e)
  }

  lemma ProjectionsAdditive()
    ensures Additive(Quantity) && Additive(Amount) && Additive(Cogs)
  {
  }

  /** The keys of the entries, in order. */
  function KeysOf(es: seq<Entry>): (ks: seq<Option<string>>)
    ensures |ks| == |es|
    ensures forall i | 0 <= i < |es| :: ks[i] == es[i].key
  {
    seq(|es|, i requires 0 <= i < |es| => es[i].key)
  }

  /** No two groups share a key. */
  ghost predicate DistinctKeys(gs: seq<Entry>) {
    forall i, j | 0 <= i < j < |gs| :: gs[i].key != gs[j].key
  }

  /** The position of the group with key `k`. */
  function IndexOf(gs: seq<Entry>, k: Option<string>): (r: Option<nat>)
    ensures r.None? <==> k !in KeysOf(gs)
    ensures r.Some? ==> r.value < |gs| && gs[r.value].key == k
  {
    if |gs| == 0 then None
    else if gs[|gs| - 1].key == k then Some(|gs| - 1)
    else
      var r := IndexOf(gs[..|gs| - 1], k);
      assert KeysOf(gs) == KeysOf(gs[..|gs| - 1]) + [gs[|gs| - 1].key];
      r
  }

  /** `groupedData.set(key, existing)` after adding the entry into the group for its key. */
  function AddEntry(gs: seq<Entry>, e: Entry): (r: seq<Entry>)
    requires DistinctKeys(gs)
    ensures DistinctKeys(r)
    ensures e.key !in KeysOf(gs) ==> r == gs + [e]
    ensures e.key in KeysOf(gs) ==> |r| == |gs|
    ensures e.key in KeysOf(gs) ==> forall i | 0 <= i < |gs| ::
      r[i] == if gs[i].key == e.key then Combine(gs[i], e) else gs[i]
  {
    match IndexOf(gs, e.key)
    case Some(i) => gs[i := Combine(gs[i], e)]
    case None => gs + [e]
  }

  /** The groups built from the entries in order. */
  function Group(es: seq<Entry>): (gs: seq<Entry>)
    ensures DistinctKeys(gs)
    ensures forall k :: k in KeysOf(gs) <==> k in KeysOf(es)
  {
    if |es| == 0 then []
    else
      var p := es[..|es| - 1];
      var e := es[|es| - 1];
      var gs := Group(p);
      assert KeysOf(es) == KeysOf(p) + [e.key];
      var r := AddEntry(gs, e);
      assert e.key !in KeysOf(gs) ==> KeysOf(r) == KeysOf(gs) + [e.key];
      assert e.key in KeysOf(gs) ==> KeysOf(r) == KeysOf(gs);
      r
  }

  /** The keys in first-seen order, each once. */
  function Dedup(ks: seq<Option<string>>): (r: seq<Option<string>>)
    ensures forall i, j | 0 <= i < j < |r| :: r[i] != r[j]
    ensures forall k :: k in r <==> k in ks
  {
    if |ks| == 0 then []
    else
      var d := Dedup(ks[..|ks| - 1]);
      assert ks == ks[..|ks| - 1] + [ks[|ks| - 1]];
      if ks[|ks| - 1] in d then d else d + [ks[|ks| - 1]]
  }

  /** The groups come out in the order their keys were first seen. */
  lemma {:induction false} GroupOrder(es: seq<Entry>)
    ensures KeysOf(Group(es)) == Dedup(KeysOf(es))
  {
    if |es| > 0 {
      var p := es[..|es| - 1];
      var e := es[|es| - 1];
      GroupOrder(p);
      assert KeysOf(es)[..|es| - 1] == KeysOf(p);
      var gs := Group(p);
      if e.key in KeysOf(gs) {
        assert KeysOf(AddEntry(gs, e)) == KeysOf(gs);
      } else {
        assert KeysOf(AddEntry(gs, e)) == KeysOf(gs) + [e.key];
      }
    }
  }

  /** The projection `f` added up over the entries with key `k`. */
  function SumKey(es: seq<Entry>, k: Option<string>, f: Entry -> real): real {
    if |es| == 0 then 0.0
    else SumKey(es[..|es| - 1], k, f) + (if es[|es| - 1].key == k then f(es[|es| - 1]) else 0.0)
  }

  lemma {:induction false} SumKeyAbsent(es: seq<Entry>, k: Option<string>, f: Entry -> real)
    requires k !in KeysOf(es)
    ensures SumKey(es, k, f) == 0.0
  {
    if |es| > 0 {
      assert KeysOf(es) == KeysOf(es[..|es| - 1]) + [es[|es| - 1].key];
      SumKeyAbsent(es[..|es| - 1], k, f);
    }
  }

  /** Every group holds the total of its own entries, for any additive projection (quantity,
      revenue or cost, cost of goods). */
  lemma {:induction false} GroupTotals(es: seq<Entry>, f: Entry -> real)
    requires Additive(f)
    ensures forall i | 0 <= i < |Group(es)| :: f(Group(es)[i]) == SumKey(es, Group(es)[i].key, f)
  {
    if |es| > 0 {
      var p := es[..|es| - 1];
      var e := es[|es| - 1];
      GroupTotals(p, f);
      var gs := Group(p);
      var r := Group(es);
      assert r == AddEntry(gs, e);
      assert KeysOf(es) == KeysOf(p) + [e.key];
      forall i | 0 <= i < |r| ensures f(r[i]) == SumKey(es, r[i].key, f) {
        if i == |gs| {
          SumKeyAbsent(p, e.key, f);
        } else if gs[i].key == e.key {
          assert f(Combine(gs[i], e)) == f(gs[i]) + f(e);
        }
      }
    }
  }

  lemma {:induction false} SumUpdate(s: seq<Entry>, i: nat, x: Entry, f: Entry -> real)
    requires i < |s|
    ensures Seqs.Sum(s[i := x], f) == Seqs.Sum(s, f) - f(s[i]) + f(x)
  {
    Seqs.SumRemoveAt(s, i, f);
    Seqs.SumRemoveAt(s[i := x], i, f);
    assert s[i := x][..i] + s[i := x][i + 1..] == s[..i] + s[i + 1..];
  }

  /** Grouping neither loses nor invents anything: the groups add up to the entries, for any
      additive projection. */
  lemma {:induction false} GroupPreservesSum(es: seq<Entry>, f: Entry -> real)
    requires Additive(f)
    ensures Seqs.Sum(Group(es), f) == Seqs.Sum(es, f)
  {
    if |es| > 0 {
      var p := es[..|es| - 1];
      var e := es[|es| - 1];
      GroupPreservesSum(p, f);
      assert es == p + [e];
      Seqs.SumAppend(p, [e], f);
      var gs := Group(p);
      Seqs.SumAppend(gs, [e], f);
      assert [e][1..] == [];
      match IndexOf(gs, e.key)
      case Some(i) =>
        SumUpdate(gs, i, Combine(gs[i], e), f);
      case None =>
    }
  }
}

=== FILE: host.dfy ===
/** What the model takes from the JavaScript host rather than defining: number parsing and
    printing, and date parsing. Each is a parameter of the operations that use it. */
module Host {
  import opened Wrappers
  import Text

  /** The host's number and date primitives.
      - `parseFloat`: JavaScript's `parseFloat`; `None` stands for NaN.
      - `numberText`: `String(x)` for a number.
      - `isoDate`: `new Date(s).toISOString()`; `None` stands for the RangeError an invalid
        date raises. */
  datatype Host = Host(
    parseFloat: string -> Option<real>,
    numberText: real -> string,
    isoDate: string -> Option<string>)

  /** What an import needs from outside the text: the host, and the id generator for rows
      without one (`imported-<current ISO time>-<row position>` in the application). */
  datatype Importer = Importer(host: Host, freshId: nat -> string)

  /** `parseFloat` of a cell that may be undefined (`parseFloat(undefined)` is NaN). */
  function ParseNumber(h: Host, cell: Option<string>): (r: Option<real>)
    ensures cell.None? ==> r.None?
    ensures cell.Some? ==> r == h.parseFloat(cell.value)
  {
    match cell
    case None => None
    case Some(s) => h.parseFloat(s)
  }

  /** What a round trip needs of the host for one number `x`: `parseFloat` reads back as `x`
      the text `String` prints for it, and that text holds no double quote or line break. A
      JavaScript host meets this for the numbers whose shortest printed form is exact, such as
      the whole numbers; it does not for a value like 1/3, which no decimal text denotes. */
  predicate PrintsBack(h: Host, x: real) {
    && h.parseFloat(h.numberText(x)) == Some(x)
    && '"' !in h.numberText(x) && '\n' !in h.numberText(x)
  }

  /** `parseFloat("")` is NaN. */
  predicate EmptyNotNumber(h: Host) {
    h.parseFloat("") == None
  }

  /** A host for whole numbers: `String` prints the decimal digits of a whole number (and
      "NaN" for any other value) and `parseFloat` reads radix-10 integers. */
  function WholeHost(): Host {
    Host(
      (s: string) => match Text.ParseInt10(s) case Some(n) => Some(n as real) case None => None,
      (x: real) => if x == x.Floor as real then Text.IntToString(x.Floor) else "NaN",
      (s: string) => Some(s))
  }

  /** The whole-number host prints back every whole number and does not read the empty text,
      so the round-trip hypotheses are met by a host. */
  lemma WholeHostPrintsBack(n: int)
    ensures PrintsBack(WholeHost(), n as real)
    ensures EmptyNotNumber(WholeHost())
  {
    assert (n as real).Floor == n;
    Text.ParseIntToString(n, false);
    Text.IntTextPlain(n);
    Text.ParseIntEmpty(false);
  }
}

=== FILE: inventory.dfy ===
/** The inventory page: the search filter, the per-item total quantity, and the CSV export
    and import of items. */
module Inventory {
  import opened Wrappers
  import opened Domain
  import opened Host
  import Text
  import Store
  import Csv

  /** The search test: the lower-cased name or size contains the lower-cased term. */
  predicate Matches(item: InventoryItem, term: string) {
    Text.Contains(Text.ToLower(item.name), Text.ToLower(term))
    || Text.Contains(Text.ToLower(item.size), Text.ToLower(term))
  }

  /** `filteredItems`: the items matching the search term, in collection order. */
  function Search(items: seq<InventoryItem>, term: string): (r: seq<InventoryItem>)
    ensures |r| <= |items|
    ensures forall i | 0 <= i < |r| :: r[i] in items && Matches(r[i], term)
    ensures forall i | 0 <= i < |items| && Matches(items[i], term) :: items[i] in r
  {
    if |items| == 0 then []
    else
      assert items == [items[0]] + items[1..];
      (if Matches(items[0], term) then [items[0]] else []) + Search(items[1..], term)
  }

  /** Searching keeps collection order: the matches of a concatenation are the matches of
      each part, in turn. */
  lemma {:induction false} SearchAppend(a: seq<InventoryItem>, b: seq<InventoryItem>, term: string)
    ensures Search(a + b, term) == Search(a, term) + Search(b, term)
  {
    if |a| == 0 {
      assert a + b == b;
    } else {
      assert (a + b)[0] == a[0];
      assert (a + b)[1..] == a[1..] + b;
      SearchAppend(a[1..], b, term);
    }
  }

  /** A single item is kept exactly when it matches. */
  lemma SearchOne(x: InventoryItem, term: string)
    ensures Search([x], term) == if Matches(x, term) then [x] else []
  {
    assert [x][1..] == [];
  }

  /** The empty search term keeps every item, in order. */
  lemma {:induction false} SearchEmpty(items: seq<InventoryItem>)
    ensures Search(items, "") == items
  {
    if |items| > 0 {
      assert Text.ToLower("") == "";
      Text.ContainsEmpty(Text.ToLower(items[0].name));
      assert Matches(items[0], "");
      SearchEmpty(items[1..]);
      assert items == [items[0]] + items[1..];
    }
  }

  /** The total-quantity column: the five location quantities added up. */
  lemma TotalColumn(item: InventoryItem)
    ensures TotalQuantity(item) == Stock(item, Capital) + Stock(item, WorldTyre) + Stock(item, Universal)
      + Stock(item, Store1) + Stock(item, Store2)
  {
  }

  // ---------------------------------------------------------------------------
  // CSV

  const headers := ["id", "name", "size", Capital.Key(), WorldTyre.Key(), Universal.Key(),
                    Store1.Key(), Store2.Key(), "costPrice", "salePrice"]

  /** The exported texts of one item, in header order. */
  function Fields(h: Host, i: InventoryItem): (fs: seq<string>)
    ensures |fs| == |headers|
  {
    [i.id, i.name, i.size,
     Text.IntToString(i.locationCapital), Text.IntToString(i.locationWorldTyre),
     Text.IntToString(i.locationUniversal), Text.IntToString(i.locationStore1),
     Text.IntToString(i.locationStore2),
     h.numberText(i.costPrice), h.numberText(i.salePrice)]
  }

  /** `handleExport` */
  function Export(h: Host, items: seq<InventoryItem>): string {
    Csv.Export(headers, Fields, h, items)
  }

  /** `parseInt(cell) || 0`: the quantity a location cell imports as; a missing or unparseable
      cell is 0. */
  function StockCell(cell: Option<string>): (q: int)
    ensures cell.None? ==> q == 0
    ensures cell.Some? && Text.ParseInt(cell.value).None? ==> q == 0
    ensures cell.Some? && Text.ParseInt(cell.value).Some? ==> q == Text.ParseInt(cell.value).value
  {
    match cell
    case None => 0
    case Some(s) => Text.ParseInt(s).GetOr(0)
  }

  /** The quantity a row's cell for `loc` imports as. */
  function LocationCell(row: Csv.Row, loc: Location): int {
    StockCell(Csv.Field(row, loc.Key()))
  }

  /** One import row: kept iff the name is non-empty and both prices parse. */
  function Decode(env: Importer, row: Csv.Row): (r: Option<InventoryItem>)
    ensures r.Some? <==>
      && Csv.Field(row, "name").Some? && Csv.Field(row, "name").value != ""
      && ParseNumber(env.host, Csv.Field(row, "costPrice")).Some?
      && ParseNumber(env.host, Csv.Field(row, "salePrice")).Some?
    ensures r.Some? ==>
      && r.value.name == Csv.Field(row, "name").value
      && r.value.costPrice == ParseNumber(env.host, Csv.Field(row, "costPrice")).value
      && r.value.salePrice == ParseNumber(env.host, Csv.Field(row, "salePrice")).value
      && r.value.locationCapital == LocationCell(row, Capital)
      && r.value.locationWorldTyre == LocationCell(row, WorldTyre)
      && r.value.locationUniversal == LocationCell(row, Universal)
      && r.value.locationStore1 == LocationCell(row, Store1)
      && r.value.locationStore2 == LocationCell(row, Store2)
    ensures r.Some? ==>
      && r.value.size == Csv.Field(row, "size").GetOr("")
      && r.value.id == (if Csv.Field(row, "id").Some? && Csv.Field(row, "id").value != ""
                        then Csv.Field(row, "id").value else env.freshId(row.number))
  {
    var id := Csv.Field(row, "id");
    var name := Csv.Field(row, "name");
    var cost := ParseNumber(env.host, Csv.Field(row, "costPrice"));
    var sale := ParseNumber(env.host, Csv.Field(row, "salePrice"));
    if name.None? || name.value == "" || cost.None? || sale.None? then None
    else
      Some(InventoryItem(
        id := if id.Some? && id.value != "" then id.value else env.freshId(row.number),
        name := name.value,
        size := Csv.Field(row, "size").GetOr(""),
        locationCapital := LocationCell(row, Capital),
        locationWorldTyre := LocationCell(row, WorldTyre),
        locationUniversal := LocationCell(row, Universal),
        locationStore1 := LocationCell(row, Store1),
        locationStore2 := LocationCell(row, Store2),
        costPrice := cost.value,
        salePrice := sale.value))
  }

  /** `handleFileImport`: the accepted rows appended after the existing items, skipping any
      whose id is already taken. */
  function Import(existing: seq<InventoryItem>, text: string, env: Importer): (r: seq<InventoryItem>)
    ensures |Csv.Lines(text)| <= 1 ==> r == existing
    ensures |r| >= |existing| && r[..|existing|] == existing
    ensures forall i | |existing| <= i < |r| :: !Store.HasKey(existing, ItemId, r[i].id)
    ensures forall i | |existing| <= i < |r| :: r[i] in Csv.Decode(text, Decode, env)
    ensures forall x | x in Csv.Decode(text, Decode, env) && !Store.HasKey(existing, ItemId, x.id) :: x in r[|existing|..]
  {
    Store.Merge(existing, Csv.Decode(text, Decode, env), ItemId)
  }

  /** What an item needs to survive export and import unchanged: a non-empty id and name, no
      double quote or line break in its texts, and prices the host prints back. */
  predicate Portable(h: Host, i: InventoryItem) {
    && i.id != "" && i.name != ""
    && '"' !in i.id && '\n' !in i.id && '"' !in i.name && '\n' !in i.name
    && '"' !in i.size && '\n' !in i.size
    && PrintsBack(h, i.costPrice) && PrintsBack(h, i.salePrice)
  }

  /** A location cell written by the export reads back as the quantity. */
  lemma StockCellText(n: int)
    ensures StockCell(Some(Text.IntToString(n))) == n
  {
    Text.ParseIntToString(n, true);
  }

  lemma LocationCellText(row: Csv.Row, loc: Location, n: int)
    requires Csv.Field(row, loc.Key()) == Some(Text.IntToString(n))
    ensures LocationCell(row, loc) == n
  {
    StockCellText(n);
  }

  lemma HeadersGood()
    ensures Csv.GoodHeaders(headers)
  {
    HeadersDistinct();
    HeadersPlain();
  }

  lemma HeadersDistinct()
    ensures forall i, j | 0 <= i < j < |headers| :: headers[i] != headers[j]
  {
  }

  lemma HeadersPlain()
    ensures forall i | 0 <= i < |headers| ::
      |headers[i]| > 0 && ',' !in headers[i] && '\n' !in headers[i]
      && !Text.IsSpace(headers[i][0]) && !Text.IsSpace(headers[i][|headers[i]| - 1])
  {
  }

  lemma GoodFieldsOf(h: Host, i: InventoryItem)
    requires Portable(h, i)
    ensures Csv.GoodFields(headers, Fields(h, i))
  {
    Text.IntTextPlain(i.locationCapital);
    Text.IntTextPlain(i.locationWorldTyre);
    Text.IntTextPlain(i.locationUniversal);
    Text.IntTextPlain(i.locationStore1);
    Text.IntTextPlain(i.locationStore2);
    assert '"' !in h.numberText(i.costPrice) && '\n' !in h.numberText(i.costPrice);
    assert '"' !in h.numberText(i.salePrice) && '\n' !in h.numberText(i.salePrice);
  }

  /** The values an exported item's line holds under each header. */
  lemma RowFields(h: Host, i: InventoryItem, n: nat)
    requires Portable(h, i)
    ensures var row := Csv.Row(headers, Csv.EscapeAll(Fields(h, i)), n);
      && Csv.Field(row, "id") == Some(i.id)
      && Csv.Field(row, "name") == Some(i.name)
      && Csv.Field(row, "size") == Some(i.size)
      && Csv.Field(row, Capital.Key()) == Some(Text.IntToString(i.locationCapital))
      && Csv.Field(row, WorldTyre.Key()) == Some(Text.IntToString(i.locationWorldTyre))
      && Csv.Field(row, Universal.Key()) == Some(Text.IntToString(i.locationUniversal))
      && Csv.Field(row, Store1.Key()) == Some(Text.IntToString(i.locationStore1))
      && Csv.Field(row, Store2.Key()) == Some(Text.IntToString(i.locationStore2))
      && Csv.Field(row, "costPrice") == Some(h.numberText(i.costPrice))
      && Csv.Field(row, "salePrice") == Some(h.numberText(i.salePrice))
  {
    var fs := Fields(h, i);
    HeadersGood();
    GoodFieldsOf(h, i);
    Csv.FieldRoundTrip(headers, fs, n, 0);
    Csv.FieldRoundTrip(headers, fs, n, 1);
    Csv.FieldRoundTrip(headers, fs, n, 2);
    Csv.FieldRoundTrip(headers, fs, n, 3);
    Csv.FieldRoundTrip(headers, fs, n, 4);
    Csv.FieldRoundTrip(headers, fs, n, 5);
    Csv.FieldRoundTrip(headers, fs, n, 6);
    Csv.FieldRoundTrip(headers, fs, n, 7);
    Csv.FieldRoundTrip(headers, fs, n, 8);
    Csv.FieldRoundTrip(headers, fs, n, 9);
  }

  lemma DecodeOf(env: Importer, row: Csv.Row, i: InventoryItem)
    requires Portable(env.host, i)
    requires Csv.Field(row, "id") == Some(i.id)
    requires Csv.Field(row, "name") == Some(i.name)
    requires Csv.Field(row, "size") == Some(i.size)
    requires Csv.Field(row, Capital.Key()) == Some(Text.IntToString(i.locationCapital))
    requires Csv.Field(row, WorldTyre.Key()) == Some(Text.IntToString(i.locationWorldTyre))
    requires Csv.Field(row, Universal.Key()) == Some(Text.IntToString(i.locationUniversal))
    requires Csv.Field(row, Store1.Key()) == Some(Text.IntToString(i.locationStore1))
    requires Csv.Field(row, Store2.Key()) == Some(Text.IntToString(i.locationStore2))
    requires Csv.Field(row, "costPrice") == Some(env.host.numberText(i.costPrice))
    requires Csv.Field(row, "salePrice") == Some(env.host.numberText(i.salePrice))
    ensures Decode(env, row) == Some(i)
  {
    assert ParseNumber(env.host, Csv.Field(row, "costPrice")) == Some(i.costPrice);
    assert ParseNumber(env.host, Csv.Field(row, "salePrice")) == Some(i.salePrice);
    LocationCellText(row, Capital, i.locationCapital);
    LocationCellText(row, WorldTyre, i.locationWorldTyre);
    LocationCellText(row, Universal, i.locationUniversal);
    LocationCellText(row, Store1, i.locationStore1);
    LocationCellText(row, Store2, i.locationStore2);
    var r := Decode(env, row);
    assert r.Some?;
    var b := r.value;
    assert b.id == i.id && b.name == i.name && b.size == i.size;
    assert b.costPrice == i.costPrice && b.salePrice == i.salePrice;
    assert b.locationCapital == i.locationCapital && b.locationWorldTyre == i.locationWorldTyre;
    assert b.locationUniversal == i.locationUniversal;
    assert b.locationStore1 == i.locationStore1 && b.locationStore2 == i.locationStore2;
  }

  /** An exported item's line decodes back to the item. */
  lemma DecodeFields(env: Importer, i: InventoryItem, n: nat)
    requires Portable(env.host, i)
    ensures Decode(env, Csv.Row(headers, Csv.EscapeAll(Fields(env.host, i)), n)) == Some(i)
  {
    RowFields(env.host, i, n);
    DecodeOf(env, Csv.Row(headers, Csv.EscapeAll(Fields(env.host, i)), n), i);
  }

  /** Decoding an export gives back exactly the exported items. */
  lemma DecodeExport(env: Importer, items: seq<InventoryItem>)
    requires forall i | 0 <= i < |items| :: Portable(env.host, items[i])
    ensures Csv.Decode(Export(env.host, items), Decode, env) == items
  {
    HeadersGood();
    AllGoodFields(env.host, items);
    AllDecode(env, items);
    Csv.ExportDecode(headers, Fields, env.host, items, Decode, env);
  }

  lemma AllGoodFields(h: Host, items: seq<InventoryItem>)
    requires forall i | 0 <= i < |items| :: Portable(h, items[i])
    ensures forall i | 0 <= i < |items| :: Csv.GoodFields(headers, Fields(h, items[i]))
  {
    forall i | 0 <= i < |items| ensures Csv.GoodFields(headers, Fields(h, items[i])) {
      GoodFieldsOf(h, items[i]);
    }
  }

  lemma AllDecode(env: Importer, items: seq<InventoryItem>)
    requires forall i | 0 <= i < |items| :: Portable(env.host, items[i])
    ensures forall i | 0 <= i < |items| ::
      Decode(env, Csv.Row(headers, Csv.EscapeAll(Fields(env.host, items[i])), i + 1)) == Some(items[i])
  {
    forall i | 0 <= i < |items|
      ensures Decode(env, Csv.Row(headers, Csv.EscapeAll(Fields(env.host, items[i])), i + 1)) == Some(items[i])
    {
      DecodeAt(env, items, i);
    }
  }

  lemma DecodeAt(env: Importer, items: seq<InventoryItem>, i: nat)
    requires i < |items| && Portable(env.host, items[i])
    ensures Decode(env, Csv.Row(headers, Csv.EscapeAll(Fields(env.host, items[i])), i + 1)) == Some(items[i])
  {
    DecodeFields(env, items[i], i + 1);
  }

  /** Exporting items and importing the file into a collection that holds none of their ids
      appends exactly those items, stock quantities included. */
  lemma ExportImport(existing: seq<InventoryItem>, items: seq<InventoryItem>, env: Importer)
    requires forall i | 0 <= i < |items| :: Portable(env.host, items[i])
    requires forall i | 0 <= i < |items| :: !Store.HasKey(existing, ItemId, items[i].id)
    ensures Import(existing, Export(env.host, items), env) == existing + items
  {
    DecodeExport(env, items);
    Store.MergeDisjoint(existing, items, ItemId);
  }
}

=== FILE: movement.dfy ===
/** Recording a sale or a purchase (`handleSaveSalePurchase`): one new transaction, one
    location quantity of the chosen item moved, one account balance moved by the
    Asset/Liability sign table. The handler performs no stock check of its own; that check
    lives in the submitting form (module SaleForm). */
module Movement {
  import opened Wrappers
  import opened Domain
  import opened App
  import Store
  import Text

  datatype Mode = Sale | Purchase

  /** What the form hands to the handler. The transaction id, generated from the clock in the
      application, is a separate parameter of `Record`. */
  datatype Request = Request(itemId: string, location: Location, quantity: int, accountId: string, date: string)

  /** The price a movement is valued at: the sale price for a sale, the cost price otherwise. */
  function UnitPrice(item: InventoryItem, mode: Mode): real {
    if mode == Sale then item.salePrice else item.costPrice
  }

  /** The value of a movement: the quantity at the mode's unit price. */
  function Total(item: InventoryItem, mode: Mode, quantity: int): real {
    quantity as real * UnitPrice(item, mode)
  }

  /** The signed change of the chosen location's quantity. */
  function StockDelta(mode: Mode, quantity: int): int {
    if mode == Sale then -quantity else quantity
  }

  /** The sign table: a sale adds to an Asset and subtracts from a Liability; a purchase does
      the reverse. */
  function BalanceEffect(kind: AccountType, mode: Mode, total: real): real {
    match (kind, mode)
    case (Asset, Sale) => total
    case (Asset, Purchase) => -total
    case (Liability, Sale) => -total
    case (Liability, Purchase) => total
  }

  /** `Sale of 3 x Wireless Mouse (HW-M-001)`. */
  function Describe(mode: Mode, quantity: int, item: InventoryItem): string {
    (if mode == Sale then "Sale" else "Purchase") + " of " + Text.IntToString(quantity)
      + " x " + item.name + " (" + item.size + ")"
  }

  /** The stock of every item whose id is `itemId` moved by `delta` at `loc`; every other
      location, every other field and every other item unchanged. */
  ghost predicate StockMoved(before: seq<InventoryItem>, after: seq<InventoryItem>, itemId: string, loc: Location, delta: int) {
    && |after| == |before|
    && (forall k | 0 <= k < |before| && before[k].id != itemId :: after[k] == before[k])
    && (forall k | 0 <= k < |before| && before[k].id == itemId ::
          && after[k].id == before[k].id && after[k].name == before[k].name && after[k].size == before[k].size
          && after[k].costPrice == before[k].costPrice && after[k].salePrice == before[k].salePrice
          && Stock(after[k], loc) == Stock(before[k], loc) + delta
          && forall other: Location | other != loc :: Stock(after[k], other) == Stock(before[k], other))
  }

  /** The balance of every account whose id is `accountId` moved by the sign table for its own
      type; every other field and every other account unchanged. */
  ghost predicate BalanceMoved(before: seq<Account>, after: seq<Account>, accountId: string, mode: Mode, total: real) {
    && |after| == |before|
    && (forall k | 0 <= k < |before| && before[k].id != accountId :: after[k] == before[k])
    && (forall k | 0 <= k < |before| && before[k].id == accountId ::
          after[k] == before[k].(balance := before[k].balance + BalanceEffect(before[k].kind, mode, total)))
  }

  function MoveStock(inventory: seq<InventoryItem>, itemId: string, loc: Location, delta: int): (r: seq<InventoryItem>)
    ensures StockMoved(inventory, r, itemId, loc, delta)
  {
    seq(|inventory|, k requires 0 <= k < |inventory| =>
      var i := inventory[k];
      if i.id == itemId then WithStock(i, loc, Stock(i, loc) + delta) else i)
  }

  function MoveBalance(accounts: seq<Account>, accountId: string, mode: Mode, total: real): (r: seq<Account>)
    ensures BalanceMoved(accounts, r, accountId, mode, total)
  {
    seq(|accounts|, k requires 0 <= k < |accounts| =>
      var a := accounts[k];
      if a.id == accountId then a.(balance := a.balance + BalanceEffect(a.kind, mode, total)) else a)
  }

  /** Both the item and the account of the request exist. */
  predicate Resolves(l: Ledger, req: Request) {
    Store.HasKey(l.inventory, ItemId, req.itemId) && Store.HasKey(l.accounts, AccountId, req.accountId)
  }

  /** The transaction a movement appends; `item` and `account` are the first records with the
      requested ids. */
  function MovementTransaction(item: InventoryItem, account: Account, mode: Mode, req: Request, txnId: string): (t: Transaction)
    ensures t.id == txnId && t.date == req.date && t.accountId == req.accountId
    ensures t.amount == req.quantity as real * (if mode == Sale then item.salePrice else item.costPrice)
    ensures mode == Sale ==> t.kind == Income && t.category == "Sales"
    ensures mode == Purchase ==> t.kind == Expense && t.category == "Purchases"
    ensures t.isCleared <==> !account.isBank
    ensures t.inventoryItemId == Some(req.itemId) && t.location == Some(req.location.Key())
  {
    Transaction(
      id := txnId,
      date := req.date,
      description := Describe(mode, req.quantity, item),
      amount := Total(item, mode, req.quantity),
      kind := if mode == Sale then Income else Expense,
      category := if mode == Sale then "Sales" else "Purchases",
      accountId := req.accountId,
      isCleared := !account.isBank,
      inventoryItemId := Some(req.itemId),
      location := Some(req.location.Key()))
  }

  /** `handleSaveSalePurchase`. An unresolved item or account changes nothing; otherwise one
      transaction is appended, the chosen location of the item moves by the quantity (down for
      a sale, up for a purchase) and the account's balance by the total, with no stock check. */
  function Record(l: Ledger, mode: Mode, req: Request, txnId: string): (r: Ledger)
    ensures !Resolves(l, req) ==> r == l
    ensures Resolves(l, req) ==>
      var item := Store.FindFirst(l.inventory, ItemId, req.itemId).value;
      var account := Store.FindFirst(l.accounts, AccountId, req.accountId).value;
      && |r.transactions| == |l.transactions| + 1
      && r.transactions[..|l.transactions|] == l.transactions
      && r.transactions[|l.transactions|] == MovementTransaction(item, account, mode, req, txnId)
      && BalanceMoved(l.accounts, r.accounts, req.accountId, mode, Total(item, mode, req.quantity))
    ensures Resolves(l, req) ==> StockMoved(l.inventory, r.inventory, req.itemId, req.location, StockDelta(mode, req.quantity))
  {
    var found := Store.FindFirst(l.inventory, ItemId, req.itemId);
    var holder := Store.FindFirst(l.accounts, AccountId, req.accountId);
    if found.None? || holder.None? then
      assert !Resolves(l, req);
      l
    else
      assert Resolves(l, req);
      Apply(l, mode, req, txnId, found.value, holder.value)
  }

  /** The three coordinated updates of a resolved movement. */
  function Apply(l: Ledger, mode: Mode, req: Request, txnId: string, item: InventoryItem, account: Account): (r: Ledger)
    ensures |r.transactions| == |l.transactions| + 1
    ensures r.transactions[..|l.transactions|] == l.transactions
    ensures r.transactions[|l.transactions|] == MovementTransaction(item, account, mode, req, txnId)
    ensures StockMoved(l.inventory, r.inventory, req.itemId, req.location, StockDelta(mode, req.quantity))
    ensures BalanceMoved(l.accounts, r.accounts, req.accountId, mode, Total(item, mode, req.quantity))
  {
    Ledger(MoveBalance(l.accounts, req.accountId, mode, Total(item, mode, req.quantity)),
           l.transactions + [MovementTransaction(item, account, mode, req, txnId)],
           MoveStock(l.inventory, req.itemId, req.location, StockDelta(mode, req.quantity)))
  }

  /** A movement's net-worth direction is independent of the account's type: a sale's effect
      counted with its type's sign is `+total`, a purchase's is `-total`. */
  lemma SignedEffect(kind: AccountType, mode: Mode, total: real)
    ensures (if kind == Asset then 1.0 else -1.0) * BalanceEffect(kind, mode, total)
      == (if mode == Sale then total else -total)
  {
  }
}

=== FILE: ordering.dfy ===
/** `Array.prototype.sort` with a numeric comparator, which ECMAScript requires to be stable:
    the list ordered by a key, ascending, with equal keys kept in their original order. A
    comparator `(a, b) => k(b) - k(a)` (descending) is the ascending sort by `-k`. */
module Ordering {

  /** `s` ordered by `key`, ascending and stable. */
  function SortBy<T>(s: seq<T>, key: T -> int): (r: seq<T>)
    ensures |r| == |s|
    ensures multiset(r) == multiset(s)
    ensures Sorted(r, key)
  {
    if |s| == 0 then []
    else
      assert s == [s[0]] + s[1..];
      var rest := SortBy(s[1..], key);
      InsertSorted(s[0], rest, key);
      Insert(s[0], rest, key)
  }

  /** Every element's key is at most the next one's. */
  ghost predicate Sorted<T>(s: seq<T>, key: T -> int) {
    forall i, j | 0 <= i < j < |s| :: key(s[i]) <= key(s[j])
  }

  /** `x` placed before the first element whose key is not smaller. */
  function Insert<T>(x: T, s: seq<T>, key: T -> int): (r: seq<T>)
    ensures |r| == |s| + 1
    ensures multiset(r) == multiset{x} + multiset(s)
  {
    if |s| == 0 || key(x) <= key(s[0]) then [x] + s
    else
      assert s == [s[0]] + s[1..];
      [s[0]] + Insert(x, s[1..], key)
  }

  /** Inserting into a sorted list keeps it sorted. */
  lemma {:induction false} InsertSorted<T>(x: T, s: seq<T>, key: T -> int)
    requires Sorted(s, key)
    ensures Sorted(Insert(x, s, key), key)
  {
    if |s| > 0 && key(x) > key(s[0]) {
      var rest := Insert(x, s[1..], key);
      InsertSorted(x, s[1..], key);
      forall i | 0 <= i < |rest|
        ensures key(s[0]) <= key(rest[i])
      {
        assert rest[i] in multiset(rest);
        if rest[i] != x {
          assert rest[i] in multiset(s[1..]);
          var j :| 0 <= j < |s[1..]| && s[1..][j] == rest[i];
          assert s[j + 1] == rest[i];
        }
      }
      assert Insert(x, s, key) == [s[0]] + rest;
    }
  }

  /** The elements of `s` whose key is `k`, in order. */
  function KeyClass<T>(s: seq<T>, key: T -> int, k: int): seq<T> {
    if |s| == 0 then [] else (if key(s[0]) == k then [s[0]] else []) + KeyClass(s[1..], key, k)
  }

  /** `x` joins its key class in front: the elements it is inserted after have smaller keys. */
  lemma {:induction false} InsertKeyClass<T>(x: T, s: seq<T>, key: T -> int, k: int)
    ensures KeyClass(Insert(x, s, key), key, k) == (if key(x) == k then [x] else []) + KeyClass(s, key, k)
  {
    if |s| == 0 || key(x) <= key(s[0]) {
      assert ([x] + s)[1..] == s;
    } else {
      InsertKeyClass(x, s[1..], key, k);
      var rest := Insert(x, s[1..], key);
      assert Insert(x, s, key) == [s[0]] + rest;
      assert ([s[0]] + rest)[1..] == rest;
      assert KeyClass(s, key, k) == (if key(s[0]) == k then [s[0]] else []) + KeyClass(s[1..], key, k);
      if key(s[0]) == k {
        assert key(x) != k;
      }
    }
  }

  /** Stability: sorting keeps the relative order of the elements that share a key. */
  lemma {:induction false} SortStable<T>(s: seq<T>, key: T -> int, k: int)
    ensures KeyClass(SortBy(s, key), key, k) == KeyClass(s, key, k)
  {
    if |s| > 0 {
      SortStable(s[1..], key, k);
      InsertKeyClass(s[0], SortBy(s[1..], key), key, k);
    }
  }

  /** A list already in order is its own sort. */
  lemma {:induction false} SortSorted<T>(s: seq<T>, key: T -> int)
    requires Sorted(s, key)
    ensures SortBy(s, key) == s
  {
    if |s| > 0 {
      SortSorted(s[1..], key);
    }
  }
}

=== FILE: reconciliation.dfy ===
/** Bank reconciliation: the bank-account picker, the selected account's transactions in date
    order, the cleared-flag toggle, and the cleared balance compared with a statement. */
module Reconciliation {
  import opened Wrappers
  import opened Domain
  import Seqs
  import Store
  import Ordering
  import App

  predicate IsBankAccount(a: Account) { a.isBank }

  /** `bankAccounts`: the accounts the page lets the user pick. */
  function BankAccounts(accounts: seq<Account>): (r: seq<Account>)
    ensures forall a :: a in r <==> a in accounts && a.isBank
  {
    Seqs.Filter(accounts, IsBankAccount)
  }

  /** The account selected when the page opens: the first bank account, or none. */
  function InitialSelection(accounts: seq<Account>): (r: Option<string>)
    ensures r.None? <==> forall i | 0 <= i < |accounts| :: !accounts[i].isBank
    ensures r.Some? ==> exists i | 0 <= i < |accounts| :: accounts[i].isBank && accounts[i].id == r.value
                          && forall j | 0 <= j < i :: !accounts[j].isBank
  {
    if |accounts| == 0 then None
    else if accounts[0].isBank then Some(accounts[0].id)
    else
      var r := InitialSelection(accounts[1..]);
      assert r.Some? ==> exists i | 1 <= i < |accounts| :: accounts[i].isBank && accounts[i].id == r.value
                           && forall j | 0 <= j < i :: !accounts[j].isBank;
      r
  }

  /** The transactions posted to the selected account, in collection order. No transaction
      matches when nothing is selected. */
  function Posted(ts: seq<Transaction>, selected: Option<string>): (r: seq<Transaction>)
    ensures |r| <= |ts|
    ensures forall t :: t in r <==> t in ts && selected == Some(t.accountId)
  {
    if |ts| == 0 then []
    else
      assert ts == [ts[0]] + ts[1..];
      (if selected == Some(ts[0].accountId) then [ts[0]] else []) + Posted(ts[1..], selected)
  }

  /** The sort key of the page: an earlier date sorts first. `time` is the host's
      `new Date(s).getTime()`. */
  function Oldest(time: string -> int): Transaction -> int {
    (t: Transaction) => time(t.date)
  }

  /** `accountTransactions`: the selected account's transactions, earliest date first. */
  function AccountTransactions(ts: seq<Transaction>, selected: Option<string>, time: string -> int)
    : (r: seq<Transaction>)
    ensures multiset(r) == multiset(Posted(ts, selected))
    ensures forall t :: t in r <==> t in ts && selected == Some(t.accountId)
    ensures forall i, j | 0 <= i < j < |r| :: time(r[i].date) <= time(r[j].date)
  {
    var r := Ordering.SortBy(Posted(ts, selected), Oldest(time));
    assert forall i, j | 0 <= i < j < |r| :: Oldest(time)(r[i]) <= Oldest(time)(r[j]);
    assert forall t :: t in r <==> t in multiset(r);
    r
  }

  /** A transaction with its cleared flag flipped. */
  function Flip(t: Transaction): (r: Transaction)
    ensures r.isCleared != t.isCleared
  {
    t.(isCleared := !t.isCleared)
  }

  /** `handleToggleCleared`: every transaction with the id has its cleared flag flipped. */
  function Toggle(ts: seq<Transaction>, id: string): (r: seq<Transaction>)
    ensures |r| == |ts|
    ensures forall i | 0 <= i < |ts| :: r[i].id == ts[i].id && r[i].accountId == ts[i].accountId
                                        && r[i].amount == ts[i].amount && r[i].kind == ts[i].kind
    ensures forall i | 0 <= i < |ts| :: (r[i].isCleared != ts[i].isCleared <==> ts[i].id == id)
    ensures forall i | 0 <= i < |ts| && ts[i].id != id :: r[i] == ts[i]
    ensures forall i | 0 <= i < |ts| && ts[i].id == id :: r[i] == ts[i].(isCleared := !ts[i].isCleared)
  {
    seq(|ts|, i requires 0 <= i < |ts| => if ts[i].id == id then Flip(ts[i]) else ts[i])
  }

  /** The toggle as the page applies it: only the transactions are written; accounts and
      inventory, balances included, are untouched. */
  function ToggleCleared(l: App.Ledger, id: string): (r: App.Ledger)
    ensures r.accounts == l.accounts && r.inventory == l.inventory
    ensures |r.transactions| == |l.transactions|
    ensures forall i | 0 <= i < |l.transactions| ::
      (r.transactions[i].isCleared != l.transactions[i].isCleared <==> l.transactions[i].id == id)
  {
    l.(transactions := Toggle(l.transactions, id))
  }

  /** Toggling twice restores the collection. */
  lemma ToggleTwice(ts: seq<Transaction>, id: string)
    ensures Toggle(Toggle(ts, id), id) == ts
  {
    var twice := Toggle(Toggle(ts, id), id);
    assert forall i | 0 <= i < |ts| :: twice[i] == ts[i];
  }

  /** Toggling an id nobody carries changes nothing. */
  lemma ToggleAbsent(ts: seq<Transaction>, id: string)
    requires forall i | 0 <= i < |ts| :: ts[i].id != id
    ensures Toggle(ts, id) == ts
  {
  }

  /** The toggle works record by record: the first record's fate and the toggle of the rest. */
  lemma ToggleTail(ts: seq<Transaction>, id: string)
    requires |ts| > 0
    ensures Toggle(ts, id)[0] == if ts[0].id == id then Flip(ts[0]) else ts[0]
    ensures Toggle(ts, id)[1..] == Toggle(ts[1..], id)
  {
  }

  /** What a transaction adds to the cleared balance: its cash effect once cleared. */
  function ClearedEffect(t: Transaction): (r: real)
    ensures !t.isCleared ==> r == 0.0
    ensures t.isCleared && t.kind == Income ==> r == t.amount
    ensures t.isCleared && t.kind == Expense ==> r == -t.amount
  {
    if t.isCleared then CashEffect(t) else 0.0
  }

  /** `clearedBalance`: the cleared effects of the shown transactions added up. */
  function ClearedBalance(shown: seq<Transaction>): real {
    Seqs.Sum(shown, ClearedEffect)
  }

  predicate ClearedIncome(t: Transaction) { t.isCleared && t.kind == Income }
  predicate ClearedExpense(t: Transaction) { t.isCleared && t.kind == Expense }
  function Amount(t: Transaction): real { t.amount }

  /** The cleared balance is the cleared income less the cleared expenses; uncleared
      transactions count for nothing. */
  lemma {:induction false} ClearedBalanceSplit(shown: seq<Transaction>)
    ensures ClearedBalance(shown)
         == Seqs.Sum(Seqs.Filter(shown, ClearedIncome), Amount) - Seqs.Sum(Seqs.Filter(shown, ClearedExpense), Amount)
  {
    if |shown| > 0 {
      ClearedBalanceSplit(shown[1..]);
      Seqs.SumFilterHead(shown, ClearedIncome, Amount);
      Seqs.SumFilterHead(shown, ClearedExpense, Amount);
    }
  }

  /** The cleared balance does not depend on the order of the transactions. */
  lemma ClearedBalancePermutation(a: seq<Transaction>, b: seq<Transaction>)
    requires multiset(a) == multiset(b)
    ensures ClearedBalance(a) == ClearedBalance(b)
  {
    Seqs.SumPermutation(a, b, ClearedEffect);
  }

  /** The reference total: the cleared effect of every transaction posted to the selected
      account, accumulated over the whole collection. */
  function ClearedTotal(ts: seq<Transaction>, selected: Option<string>): real {
    if |ts| == 0 then 0.0
    else (if selected == Some(ts[0].accountId) then ClearedEffect(ts[0]) else 0.0)
         + ClearedTotal(ts[1..], selected)
  }

  lemma {:induction false} ClearedTotalPosted(ts: seq<Transaction>, selected: Option<string>)
    ensures ClearedBalance(Posted(ts, selected)) == ClearedTotal(ts, selected)
  {
    if |ts| > 0 {
      ClearedTotalPosted(ts[1..], selected);
      var head := if selected == Some(ts[0].accountId) then [ts[0]] else [];
      Seqs.SumAppend(head, Posted(ts[1..], selected), ClearedEffect);
      assert [ts[0]][1..] == [];
    }
  }

  /** The cleared balance the page shows is the reference total: the date ordering does not
      change it. */
  lemma ClearedBalanceShown(ts: seq<Transaction>, selected: Option<string>, time: string -> int)
    ensures ClearedBalance(AccountTransactions(ts, selected, time)) == ClearedTotal(ts, selected)
  {
    Seqs.SumPermutation(AccountTransactions(ts, selected, time), Posted(ts, selected), ClearedEffect);
    ClearedTotalPosted(ts, selected);
  }

  /** Toggling the transaction at `k` (ids unique) moves the selected account's cleared total by
      its cash effect: up when it becomes cleared, down when it stops being cleared, not at all
      when it belongs to another account. */
  lemma {:induction false} ToggleMovesCleared(ts: seq<Transaction>, k: nat, selected: Option<string>)
    requires k < |ts| && Store.UniqueKeys(ts, TxnId)
    ensures ClearedTotal(Toggle(ts, ts[k].id), selected)
         == ClearedTotal(ts, selected)
            + (if selected != Some(ts[k].accountId) then 0.0
               else if ts[k].isCleared then -CashEffect(ts[k]) else CashEffect(ts[k]))
  {
    if k == 0 {
      ToggleFirstMovesCleared(ts, selected);
    } else {
      var id := ts[k].id;
      assert ts[0].id != id by {
        assert TxnId(ts[0]) != TxnId(ts[k]);
      }
      assert ts[1..][k - 1] == ts[k];
      Store.UniqueKeysTail(ts, TxnId);
      ToggleMovesCleared(ts[1..], k - 1, selected);
      ToggleTail(ts, id);
    }
  }

  /** The case of the first transaction: the rest carry other ids and stay as they are. */
  lemma ToggleFirstMovesCleared(ts: seq<Transaction>, selected: Option<string>)
    requires |ts| > 0 && Store.UniqueKeys(ts, TxnId)
    ensures ClearedTotal(Toggle(ts, ts[0].id), selected)
         == ClearedTotal(ts, selected)
            + (if selected != Some(ts[0].accountId) then 0.0
               else if ts[0].isCleared then -CashEffect(ts[0]) else CashEffect(ts[0]))
  {
    var id := ts[0].id;
    assert forall i | 0 <= i < |ts[1..]| :: ts[1..][i].id != id by {
      forall i | 0 <= i < |ts[1..]| ensures ts[1..][i].id != id {
        assert TxnId(ts[0]) != TxnId(ts[i + 1]);
      }
    }
    ToggleAbsent(ts[1..], id);
    ToggleTail(ts, id);
  }

  /** `parseFloat(statementBalance) || 0`: the statement value, 0 when it does not parse. */
  function StatementValue(statement: string, parseFloat: string -> Option<real>): (v: real)
    ensures parseFloat(statement).None? ==> v == 0.0
    ensures parseFloat(statement).Some? ==> v == parseFloat(statement).value
  {
    parseFloat(statement).GetOr(0.0)
  }

  /** `difference`: the statement value minus the cleared balance. */
  function Difference(statement: string, parseFloat: string -> Option<real>, cleared: real): real {
    StatementValue(statement, parseFloat) - cleared
  }

  /** The `difference === 0` test: the statement value (0 for a statement that does not parse)
      equals the cleared balance, with no tolerance. While an account is selected it colours
      the difference green and shows the "Successfully Reconciled!" banner; with no account
      selected the whole summary panel, banner included, is not rendered. */
  function Reconciled(statement: string, parseFloat: string -> Option<real>, cleared: real): (r: bool)
    ensures r <==> (if parseFloat(statement).Some? then parseFloat(statement).value else 0.0) == cleared
  {
    Difference(statement, parseFloat, cleared) == 0.0
  }
}

=== FILE: reports.dfy ===
/** The reports page: which transactions enter a report, the group key of each, the quantity
    recovered from an amount at the item's current price, the per-group totals and the derived
    averages, profit and margin. */
module Reports {
  import opened Wrappers
  import opened Domain
  import Store
  import Seqs
  import Grouping

  datatype ReportType = SalesReport | PurchasesReport | ProfitabilityReport
  datatype GroupBy = ByItem | BySize | ByLocation | ByDay | ByMonth

  /** The chosen window, as host times: the start of the first day and the end of the last. */
  datatype Window = Window(start: int, end: int)

  /** What a report takes from the host: `new Date(s).getTime()` of a stored date, and the
      locale's day and month labels of a date. */
  datatype Clock = Clock(time: string -> int, dayLabel: string -> string, monthLabel: string -> string)

  /** The transaction carries an item link (a truthy `inventoryItemId`). */
  predicate Linked(t: Transaction) {
    t.inventoryItemId.Some? && t.inventoryItemId.value != ""
  }

  /** The window filter: dated inside the window and linked to an item. */
  predicate InWindow(t: Transaction, w: Window, c: Clock) {
    w.start <= c.time(t.date) <= w.end && Linked(t)
  }

  /** Report-type selection: sales and profitability read sales; purchases read purchases. */
  predicate Selects(rt: ReportType, t: Transaction) {
    if rt == PurchasesReport then t.kind == Expense && t.category == "Purchases"
    else t.kind == Income && t.category == "Sales"
  }

  /** `inventoryMap.get(id)`: the map is built from the inventory in order, so the last item
      with the id wins. */
  function ItemFor(inventory: seq<InventoryItem>, id: string): (r: Option<InventoryItem>)
    ensures r.None? <==> !Store.HasKey(inventory, ItemId, id)
    ensures r.Some? ==> r.value in inventory && r.value.id == id
    ensures r.Some? ==> exists k | 0 <= k < |inventory| :: inventory[k] == r.value
                          && forall j | k < j < |inventory| :: inventory[j].id != id
  {
    Store.FindLast(inventory, ItemId, id)
  }

  /** `locationNameMap[t.location]`, or "Unknown Location" when the transaction has none. Any
      other text is `None`: an unknown text like `bogus` reads `undefined` from the object
      literal, while a name it inherits from `Object.prototype` (`toString`, `constructor`,
      `__proto__`, ...) reads the inherited value; the model folds both into the one `None`
      key. */
  function LocationGroup(location: Option<string>): (r: Option<string>)
    ensures location.None? || location.value == "" ==> r == Some("Unknown Location")
    ensures forall l: Location :: location == Some(l.Key()) ==> r == Some(l.Label())
  {
    if location.None? || location.value == "" then Some("Unknown Location")
    else
      match LocationFromKey(location.value)
      case Some(l) => Some(l.Label())
      case None => None
  }

  /** `getGroupKey` */
  function GroupKey(t: Transaction, item: Option<InventoryItem>, groupBy: GroupBy, c: Clock): (r: Option<string>)
    ensures groupBy == ByItem ==> r == Some(if item.Some? && item.value.name != "" then item.value.name else "Unknown Item")
    ensures groupBy == BySize ==> r == Some(if item.Some? && item.value.size != "" then item.value.size else "Unknown Size")
    ensures groupBy == ByLocation ==> r == LocationGroup(t.location)
  {
    match groupBy
    case ByItem => Some(if item.Some? && item.value.name != "" then item.value.name else "Unknown Item")
    case BySize => Some(if item.Some? && item.value.size != "" then item.value.size else "Unknown Size")
    case ByLocation => LocationGroup(t.location)
    case ByDay => Some(c.dayLabel(t.date))
    case ByMonth => Some(c.monthLabel(t.date))
  }

  /** The price an amount is divided by: the current sale price, or the current cost price for
      the purchases report. */
  function Price(item: InventoryItem, rt: ReportType): real {
    if rt == PurchasesReport then item.costPrice else item.salePrice
  }

  /** `t.amount / price` */
  function Recovered(amount: real, price: real): (q: real)
    requires price != 0.0
    ensures q * price == amount
  {
    amount / price
  }

  /** A movement's amount is its quantity at the price of the day; the quantity recovered at the
      current price is the movement's quantity exactly when the price has not changed. */
  lemma RecoveryExact(quantity: int, then_: real, now: real)
    requires now > 0.0 && quantity != 0
    ensures Recovered(quantity as real * then_, now) == quantity as real <==> now == then_
  {
    var q := Recovered(quantity as real * then_, now);
    assert q * now == quantity as real * then_;
    if q == quantity as real {
      assert quantity as real * now == quantity as real * then_;
    }
  }

  /** A transaction counts in a report iff it is in the window, of the report's type, and its
      item still exists. */
  predicate Contributes(t: Transaction, inventory: seq<InventoryItem>, rt: ReportType, w: Window, c: Clock) {
    && InWindow(t, w, c)
    && Selects(rt, t)
    && ItemFor(inventory, t.inventoryItemId.value).Some?
  }

  /** The transactions a report reads, in collection order. */
  function Selected(ts: seq<Transaction>, inventory: seq<InventoryItem>, rt: ReportType, w: Window, c: Clock)
    : (r: seq<Transaction>)
    ensures |r| <= |ts|
    ensures forall t :: t in r <==> t in ts && Contributes(t, inventory, rt, w, c)
    ensures forall i | 0 <= i < |r| :: Contributes(r[i], inventory, rt, w, c)
  {
    if |ts| == 0 then []
    else
      assert ts == [ts[0]] + ts[1..];
      (if Contributes(ts[0], inventory, rt, w, c) then [ts[0]] else []) + Selected(ts[1..], inventory, rt, w, c)
  }

  /** Selection keeps collection order and multiplicity: selecting from a concatenation
      selects from each part, in turn. */
  lemma {:induction false} SelectedAppend(a: seq<Transaction>, b: seq<Transaction>, inventory: seq<InventoryItem>,
                                          rt: ReportType, w: Window, c: Clock)
    ensures Selected(a + b, inventory, rt, w, c) == Selected(a, inventory, rt, w, c) + Selected(b, inventory, rt, w, c)
  {
    if |a| == 0 {
      assert a + b == b;
    } else {
      assert (a + b)[0] == a[0];
      assert (a + b)[1..] == a[1..] + b;
      SelectedAppend(a[1..], b, inventory, rt, w, c);
    }
  }

  /** A single transaction is selected exactly when it contributes. */
  lemma SelectedOne(t: Transaction, inventory: seq<InventoryItem>, rt: ReportType, w: Window, c: Clock)
    ensures Selected([t], inventory, rt, w, c) == if Contributes(t, inventory, rt, w, c) then [t] else []
  {
    assert [t][1..] == [];
  }

  /** What one contributing transaction adds to its group: the recovered quantity, its amount,
      and (profitability only) the recovered quantity at the current cost price. */
  function EntryFor(t: Transaction, item: InventoryItem, rt: ReportType, groupBy: GroupBy, c: Clock): (e: Grouping.Entry)
    ensures e.key == GroupKey(t, Some(item), groupBy, c)
    ensures e.amount == t.amount
    ensures Price(item, rt) != 0.0 ==> e.quantity * Price(item, rt) == t.amount
    ensures Price(item, rt) == 0.0 ==> e.quantity == 0.0
    ensures rt == ProfitabilityReport ==> e.cogs == e.quantity * item.costPrice
    ensures rt != ProfitabilityReport ==> e.cogs == 0.0
  {
    var q := if Price(item, rt) == 0.0 then 0.0 else Recovered(t.amount, Price(item, rt));
    Grouping.Entry(GroupKey(t, Some(item), groupBy, c), q, t.amount,
                   if rt == ProfitabilityReport then q * item.costPrice else 0.0)
  }

  /** The entries of a report, one per selected transaction, in order. */
  function Entries(ts: seq<Transaction>, inventory: seq<InventoryItem>, rt: ReportType, groupBy: GroupBy, w: Window, c: Clock)
    : (es: seq<Grouping.Entry>)
    ensures |es| == |Selected(ts, inventory, rt, w, c)|
    ensures forall i | 0 <= i < |es| ::
      var t := Selected(ts, inventory, rt, w, c)[i];
      es[i] == EntryFor(t, ItemFor(inventory, t.inventoryItemId.value).value, rt, groupBy, c)
  {
    var sel := Selected(ts, inventory, rt, w, c);
    seq(|sel|, i requires 0 <= i < |sel| =>
      var item := ItemFor(inventory, sel[i].inventoryItemId.value).value;
      EntryFor(sel[i], item, rt, groupBy, c))
  }

  /** `generateReport`: the groups of the report, in first-seen order of their keys. */
  function Report(ts: seq<Transaction>, inventory: seq<InventoryItem>, rt: ReportType, groupBy: GroupBy, w: Window, c: Clock)
    : (gs: seq<Grouping.Entry>)
    ensures Grouping.DistinctKeys(gs)
  {
    Grouping.Group(Entries(ts, inventory, rt, groupBy, w, c))
  }

  lemma EntriesAmount(ts: seq<Transaction>, inventory: seq<InventoryItem>, rt: ReportType, groupBy: GroupBy, w: Window, c: Clock)
    ensures Seqs.Sum(Entries(ts, inventory, rt, groupBy, w, c), Grouping.Amount)
         == Seqs.Sum(Selected(ts, inventory, rt, w, c), TxnAmount)
  {
    SumMatch(Entries(ts, inventory, rt, groupBy, w, c), Selected(ts, inventory, rt, w, c));
  }

  function TxnAmount(t: Transaction): real { t.amount }

  lemma {:induction false} SumMatch(es: seq<Grouping.Entry>, ts: seq<Transaction>)
    requires |es| == |ts|
    requires forall i | 0 <= i < |es| :: es[i].amount == ts[i].amount
    ensures Seqs.Sum(es, Grouping.Amount) == Seqs.Sum(ts, TxnAmount)
  {
    if |es| > 0 {
      SumMatch(es[1..], ts[1..]);
    }
  }

  /** The report's rows add up to the selected transactions: the total revenue (or cost) over
      all groups is the sum of the amounts of the transactions that count. */
  lemma ReportTotal(ts: seq<Transaction>, inventory: seq<InventoryItem>, rt: ReportType, groupBy: GroupBy, w: Window, c: Clock)
    ensures Seqs.Sum(Report(ts, inventory, rt, groupBy, w, c), Grouping.Amount)
         == Seqs.Sum(Selected(ts, inventory, rt, w, c), TxnAmount)
  {
    Grouping.ProjectionsAdditive();
    Grouping.GroupPreservesSum(Entries(ts, inventory, rt, groupBy, w, c), Grouping.Amount);
    EntriesAmount(ts, inventory, rt, groupBy, w, c);
  }

  /** Each group's quantity, revenue (or cost) and cost of goods is the total over the entries
      with its key, and the groups appear in the order their keys were first seen. */
  lemma ReportGroups(ts: seq<Transaction>, inventory: seq<InventoryItem>, rt: ReportType, groupBy: GroupBy, w: Window, c: Clock)
    ensures var es := Entries(ts, inventory, rt, groupBy, w, c);
      var gs := Report(ts, inventory, rt, groupBy, w, c);
      && Grouping.KeysOf(gs) == Grouping.Dedup(Grouping.KeysOf(es))
      && forall i | 0 <= i < |gs| ::
           && gs[i].quantity == Grouping.SumKey(es, gs[i].key, Grouping.Quantity)
           && gs[i].amount == Grouping.SumKey(es, gs[i].key, Grouping.Amount)
           && gs[i].cogs == Grouping.SumKey(es, gs[i].key, Grouping.Cogs)
  {
    var es := Entries(ts, inventory, rt, groupBy, w, c);
    Grouping.GroupOrder(es);
    Grouping.ProjectionsAdditive();
    Grouping.GroupTotals(es, Grouping.Quantity);
    Grouping.GroupTotals(es, Grouping.Amount);
    Grouping.GroupTotals(es, Grouping.Cogs);
  }

  /** The average column: total over quantity, undefined (NaN or infinite in the application)
      for a zero quantity, since the division is not guarded. */
  function Average(g: Grouping.Entry): (r: Option<real>)
    ensures r.None? <==> g.quantity == 0.0
    ensures r.Some? ==> r.value * g.quantity == g.amount
  {
    if g.quantity == 0.0 then None else Some(g.amount / g.quantity)
  }

  /** Gross profit: revenue less cost of goods. */
  function Profit(g: Grouping.Entry): real {
    g.amount - g.cogs
  }

  /** The margin column, in percent: 0 unless revenue is positive. */
  function Margin(g: Grouping.Entry): (m: real)
    ensures g.amount <= 0.0 ==> m == 0.0
    ensures g.amount > 0.0 ==> m * g.amount == 100.0 * Profit(g)
    ensures g.amount > 0.0 && g.cogs >= 0.0 ==> m <= 100.0
  {
    if g.amount > 0.0 then Profit(g) / g.amount * 100.0 else 0.0
  }
}

=== FILE: sale_form.dfy ===
/** The sale/purchase form: its initial state, the location lock for location users, the
    total preview, and the submit validation that stands between the user and
    `Movement.Record`. The stock check that keeps location quantities non-negative lives here,
    not in the handler. */
module SaleForm {
  import opened Wrappers
  import opened Domain
  import opened App
  import opened Movement
  import Store
  import Text

  /** The form's fields as the user left them; the quantity is the raw input text. */
  datatype Form = Form(itemId: string, quantityText: string, location: Location, accountId: string, date: string)

  datatype SubmitError =
    | Incomplete                        // "Please select an item and fill all fields correctly."
    | InsufficientStock(available: int) // "Not enough stock at this location. Available: …"

  /** The location the form opens with: a location user's own binding, Capital otherwise. */
  function InitialLocation(user: User): (loc: Location)
    ensures user.role == LocationUser && user.location.Some? ==> loc == user.location.value
    ensures user.role == Admin || user.location.None? ==> loc == Capital
  {
    if user.role == LocationUser && user.location.Some? then user.location.value else Capital
  }

  /** The form as it opens: nothing selected, the first account preselected when there is one. */
  function InitialForm(user: User, accounts: seq<Account>, today: string): (f: Form)
    ensures f.itemId == "" && f.quantityText == "" && f.date == today
    ensures f.location == InitialLocation(user)
    ensures |accounts| > 0 ==> f.accountId == accounts[0].id
    ensures |accounts| == 0 ==> f.accountId == ""
  {
    Form("", "", InitialLocation(user), if |accounts| > 0 then accounts[0].id else "", today)
  }

  /** Picking a location in the selector: the selector is disabled for location users. */
  function PickLocation(user: User, f: Form, picked: Location): (r: Form)
    ensures user.role == LocationUser ==> r == f
    ensures user.role == Admin ==> r == f.(location := picked)
  {
    if user.role == LocationUser then f else f.(location := picked)
  }

  /** A location user with a bound location submits only movements at that location, whatever
      they pick. */
  lemma LocationLocked(user: User, accounts: seq<Account>, today: string, picks: seq<Location>)
    requires user.role == LocationUser && user.location.Some?
    ensures PickAll(user, InitialForm(user, accounts, today), picks).location == user.location.value
  {
    var f := InitialForm(user, accounts, today);
    var i := 0;
    while i < |picks|
      invariant 0 <= i <= |picks|
      invariant PickAll(user, f, picks[..i]) == f
    {
      PickAllStep(user, f, picks[..i], picks[i]);
      assert picks[..i + 1] == picks[..i] + [picks[i]];
      i := i + 1;
    }
    assert picks[..|picks|] == picks;
  }

  /** A sequence of picks applied in order. */
  function PickAll(user: User, f: Form, picks: seq<Location>): Form {
    if |picks| == 0 then f else PickLocation(user, PickAll(user, f, picks[..|picks| - 1]), picks[|picks| - 1])
  }

  lemma PickAllStep(user: User, f: Form, picks: seq<Location>, p: Location)
    ensures PickAll(user, f, picks + [p]) == PickLocation(user, PickAll(user, f, picks), p)
  {
    assert (picks + [p])[..|picks|] == picks;
  }

  /** The stock at the form's location of the FIRST item with the selected id, or 0 when no
      item has it (`selectedItem?.[location] ?? 0`). */
  function AvailableStock(inventory: seq<InventoryItem>, f: Form): (n: int)
    ensures Store.FindFirst(inventory, ItemId, f.itemId).None? ==> n == 0
    ensures Store.FindFirst(inventory, ItemId, f.itemId).Some? ==>
      n == Stock(Store.FindFirst(inventory, ItemId, f.itemId).value, f.location)
  {
    match Store.FindFirst(inventory, ItemId, f.itemId)
    case Some(item) => Stock(item, f.location)
    case None => 0
  }

  /** `handleSubmit`. Rejected when no item is selected, the quantity is empty, unparseable
      (`parseInt(…, 10)`) or not positive, or no account is selected; in Sale mode also when
      the quantity exceeds the stock at the location. Otherwise the handler receives the parsed
      quantity with the form's item, location, account and date. */
  function Submit(f: Form, mode: Mode, inventory: seq<InventoryItem>): (r: Result<Request, SubmitError>)
    ensures (f.itemId == "" || f.quantityText == "" || Text.ParseInt10(f.quantityText).None?
             || Text.ParseInt10(f.quantityText).value <= 0 || f.accountId == "") ==> r == Err(Incomplete)
    ensures r.Ok? ==>
      && f.itemId != "" && f.accountId != ""
      && Text.ParseInt10(f.quantityText) == Some(r.value.quantity) && r.value.quantity > 0
      && r.value == Request(f.itemId, f.location, r.value.quantity, f.accountId, f.date)
    ensures mode == Sale && r.Ok? ==> r.value.quantity <= AvailableStock(inventory, f)
    ensures r.Err? && r.error.InsufficientStock? ==>
      && mode == Sale && r.error.available == AvailableStock(inventory, f)
      && Text.ParseInt10(f.quantityText).Some? && Text.ParseInt10(f.quantityText).value > AvailableStock(inventory, f)
    ensures mode == Purchase ==> (r.Ok? <==> r != Err(Incomplete))
  {
    var parsed := Text.ParseInt10(f.quantityText);
    if f.itemId == "" || f.quantityText == "" || parsed.None? || parsed.value <= 0 || f.accountId == "" then
      Err(Incomplete)
    else if mode == Sale && parsed.value > AvailableStock(inventory, f) then
      Err(InsufficientStock(AvailableStock(inventory, f)))
    else
      Ok(Request(f.itemId, f.location, parsed.value, f.accountId, f.date))
  }

  /** With a complete form, a sale is rejected for stock exactly when the quantity exceeds the
      stock at the location; a selected id that names no item counts as zero stock, so every
      sale of it is rejected. */
  lemma SaleStockCheck(f: Form, inventory: seq<InventoryItem>, q: int)
    requires f.itemId != "" && f.quantityText != "" && f.accountId != ""
    requires Text.ParseInt10(f.quantityText) == Some(q) && q > 0
    ensures Submit(f, Sale, inventory).Err? <==> q > AvailableStock(inventory, f)
    ensures !Store.HasKey(inventory, ItemId, f.itemId) ==> Submit(f, Sale, inventory) == Err(InsufficientStock(0))
  {
  }

  /** The text the preview parses: the quantity, or "0" when it is empty. */
  function PreviewText(f: Form): string {
    if f.quantityText == "" then "0" else f.quantityText
  }

  /** The preview under the quantity field: the mode's price times `parseFloat(quantity || "0")`
      for the first item with the selected id, and 0 with no such item. `parseFloat` is the
      host's, `None` standing for NaN. */
  function Preview(f: Form, mode: Mode, inventory: seq<InventoryItem>, parseFloat: string -> Option<real>): (r: Option<real>)
    ensures Store.FindFirst(inventory, ItemId, f.itemId).None? ==> r == Some(0.0)
    ensures Store.FindFirst(inventory, ItemId, f.itemId).Some? && parseFloat(PreviewText(f)).Some? ==>
      r.Some? && r.value == UnitPrice(Store.FindFirst(inventory, ItemId, f.itemId).value, mode) * parseFloat(PreviewText(f)).value
    ensures Store.FindFirst(inventory, ItemId, f.itemId).Some? && parseFloat(PreviewText(f)).None? ==> r.None?
  {
    var found := Store.FindFirst(inventory, ItemId, f.itemId);
    var q := parseFloat(PreviewText(f));
    if found.None? then Some(0.0)
    else if q.Some? then Some(UnitPrice(found.value, mode) * q.value)
    else None
  }

  /** The preview shows what gets recorded: for an accepted form whose item and account exist,
      when `parseFloat` reads the quantity text as the same whole number `parseInt` reads, the
      preview is the amount of the transaction the movement appends. */
  lemma PreviewMatchesRecorded(l: Ledger, f: Form, mode: Mode, parseFloat: string -> Option<real>, req: Request, txnId: string)
    requires Submit(f, mode, l.inventory) == Ok(req) && Resolves(l, req)
    requires parseFloat(f.quantityText) == Some(req.quantity as real)
    ensures Preview(f, mode, l.inventory, parseFloat) == Some(Record(l, mode, req, txnId).transactions[|l.transactions|].amount)
  {
    assert req.itemId == f.itemId && f.quantityText != "";
    assert parseFloat(PreviewText(f)) == Some(req.quantity as real);
    var item := Store.FindFirst(l.inventory, ItemId, f.itemId).value;
    PreviewOfItem(f, mode, l.inventory, parseFloat, item, req.quantity);
    RecordedAmount(l, mode, req, txnId);
  }

  /** The amount a resolved movement records is its total at the first matching item. */
  lemma RecordedAmount(l: Ledger, mode: Mode, req: Request, txnId: string)
    requires Resolves(l, req)
    ensures Record(l, mode, req, txnId).transactions[|l.transactions|].amount
         == Total(Store.FindFirst(l.inventory, ItemId, req.itemId).value, mode, req.quantity)
  {
  }

  lemma PreviewOfItem(f: Form, mode: Mode, inventory: seq<InventoryItem>, parseFloat: string -> Option<real>,
                      item: InventoryItem, q: int)
    requires Store.FindFirst(inventory, ItemId, f.itemId) == Some(item)
    requires parseFloat(PreviewText(f)) == Some(q as real)
    ensures Preview(f, mode, inventory, parseFloat) == Some(Total(item, mode, q))
  {
    var r := Preview(f, mode, inventory, parseFloat);
    assert r.Some?;
    assert r.value == UnitPrice(item, mode) * (q as real);
    PriceTimesQuantity(item, mode, q);
  }

  lemma PriceTimesQuantity(item: InventoryItem, mode: Mode, q: int)
    ensures UnitPrice(item, mode) * (q as real) == Total(item, mode, q)
  {
  }

  // A form whose quantity text has a fractional part.
  const fracItem := InventoryItem("i", "Tyre", "R15", 5, 0, 0, 0, 0, 10.0, 20.0)
  const fracLedger := Ledger([Account("acc", "Till", Asset, 0.0, false)], [], [fracItem])
  const fracForm := Form("i", "3.5", Capital, "acc", "2024-01-01")

  /** The whole-number hypothesis above is needed: `parseInt("3.5", 10)` is 3 while
      `parseFloat("3.5")` is 3.5, so the preview shows 70 for a sale the handler records at 60.
      In a browser the number input's default step of 1 stops such a text at submission; the
      handler itself does not. */
  lemma FractionPreviewDiffers(parseFloat: string -> Option<real>)
    requires parseFloat("3.5") == Some(3.5)
    ensures Submit(fracForm, Sale, fracLedger.inventory) == Ok(Request("i", Capital, 3, "acc", "2024-01-01"))
    ensures Preview(fracForm, Sale, fracLedger.inventory, parseFloat) == Some(70.0)
    ensures Record(fracLedger, Sale, Request("i", Capital, 3, "acc", "2024-01-01"), "t").transactions[0].amount == 60.0
  {
    ParseFraction();
    assert Store.FindFirst(fracLedger.inventory, ItemId, "i") == Some(fracItem);
    assert Store.FindFirst(fracLedger.accounts, AccountId, "acc").Some?;
  }

  /** `parseInt("3.5", 10)` stops at the point. */
  lemma ParseFraction()
    ensures Text.ParseInt10(fracForm.quantityText) == Some(3)
  {
    var text := fracForm.quantityText;
    assert text == ['3'] + ".5";
    assert !Text.IsSpace('3') && Text.TrimStart(text) == text;
    assert Text.DigitRun(".5", 10) == "";
    assert Text.DigitRun(text, 10) == "3";
    assert Text.DigitsValue("3", 10) == 3 by { assert "3"[..0] == ""; }
  }

  /** An accepted sale never drives a location negative, provided item ids are unique: the
      form checks the stock of the first item with the id, and the handler moves every item
      with that id. */
  lemma {:induction false} AcceptedSaleKeepsStock(l: Ledger, f: Form, txnId: string)
    requires Store.UniqueKeys(l.inventory, ItemId)
    requires forall k | 0 <= k < |l.inventory| :: StockNonNegative(l.inventory[k])
    requires Submit(f, Sale, l.inventory).Ok?
    ensures var r := Record(l, Sale, Submit(f, Sale, l.inventory).value, txnId);
      forall k | 0 <= k < |r.inventory| :: StockNonNegative(r.inventory[k])
  {
    var req := Submit(f, Sale, l.inventory).value;
    var r := Record(l, Sale, req, txnId);
    if Resolves(l, req) {
      assert StockMoved(l.inventory, r.inventory, req.itemId, req.location, -req.quantity);
      forall k | 0 <= k < |r.inventory| ensures StockNonNegative(r.inventory[k]) {
        if l.inventory[k].id == req.itemId {
          Store.FindFirstAt(l.inventory, ItemId, k);
        }
        SaleKeepsItem(l.inventory, r.inventory, req.itemId, req.location, req.quantity, k);
      }
    }
  }

  /** One item after a stock move of `-q`: unchanged when its id differs, and still
      non-negative when it has the id and held at least `q` at the location. */
  lemma SaleKeepsItem(before: seq<InventoryItem>, after: seq<InventoryItem>, itemId: string, loc: Location, q: int, k: nat)
    requires StockMoved(before, after, itemId, loc, -q)
    requires k < |before| && StockNonNegative(before[k])
    requires before[k].id == itemId ==> q <= Stock(before[k], loc)
    ensures StockNonNegative(after[k])
  {
    if before[k].id == itemId {
      forall other: Location ensures Stock(after[k], other) >= 0 {
        assert Stock(before[k], other) >= 0;
      }
    }
  }

  // Two items sharing one id, as a CSV import of a file with a repeated id can produce.
  const dupFirst := InventoryItem("dup", "Tyre", "R15", 5, 0, 0, 0, 0, 10.0, 20.0)
  const dupSecond := InventoryItem("dup", "Tyre", "R16", 1, 0, 0, 0, 0, 10.0, 20.0)
  const dupLedger := Ledger([Account("acc", "Till", Asset, 0.0, false)], [], [dupFirst, dupSecond])
  const dupForm := Form("dup", Text.IntToString(3), Capital, "acc", "2024-01-01")

  const dupRequest := Request("dup", Capital, 3, "acc", "2024-01-01")

  /** Without unique ids the check is defeated: the form checks the first item (5 at Capital),
      the handler also moves the second (1 at Capital), so a sale of 3 leaves it at -2. */
  lemma DuplicateIdsDefeatStockCheck()
    ensures Submit(dupForm, Sale, dupLedger.inventory) == Ok(dupRequest)
    ensures Stock(Record(dupLedger, Sale, dupRequest, "t").inventory[1], Capital) == -2
  {
    DuplicateAccepted();
    DuplicateMoved();
  }

  lemma DuplicateMoved()
    ensures Stock(Record(dupLedger, Sale, dupRequest, "t").inventory[1], Capital) == -2
  {
    var l := dupLedger;
    var req := dupRequest;
    assert Resolves(l, req) by {
      assert ItemId(l.inventory[0]) == "dup";
      assert AccountId(l.accounts[0]) == "acc";
    }
    var r := Record(l, Sale, req, "t");
    assert StockMoved(l.inventory, r.inventory, "dup", Capital, -3);
    assert l.inventory[1].id == "dup";
  }

  lemma DuplicateAccepted()
    ensures Submit(dupForm, Sale, dupLedger.inventory) == Ok(dupRequest)
  {
    ParseThree();
    DuplicateFirstFound();
    SubmitAccepts(dupForm, Sale, dupLedger.inventory, 3);
  }

  /** A complete form with a positive quantity (within stock, for a sale) is accepted. */
  lemma SubmitAccepts(f: Form, mode: Mode, inventory: seq<InventoryItem>, q: int)
    requires f.itemId != "" && f.accountId != "" && f.quantityText != ""
    requires Text.ParseInt10(f.quantityText) == Some(q) && q > 0
    requires mode == Sale ==> q <= AvailableStock(inventory, f)
    ensures Submit(f, mode, inventory) == Ok(Request(f.itemId, f.location, q, f.accountId, f.date))
  {
  }

  lemma DuplicateFirstFound()
    ensures Store.FindFirst(dupLedger.inventory, ItemId, "dup") == Some(dupFirst)
  {
    assert ItemId(dupLedger.inventory[0]) == "dup";
  }

  lemma ParseThree()
    ensures Text.ParseInt10(saleOfThree.quantityText) == Some(3)
  {
    Text.ParseIntToString(3, false);
  }

  // The first mock account and the first mock inventory item the application ships with.
  const acc1 := Account("acc1", "Checking Account", Asset, 15000.0, true)
  const inv1 := InventoryItem("inv1", "Wireless Mouse", "HW-M-001", 10, 15, 5, 10, 10, 15.0, 30.0)
  const mockLedger := Ledger([acc1], [], [inv1])

  const saleOfThree := Form("inv1", Text.IntToString(3), Capital, "acc1", "2024-05-01")
  const saleOfFifteen := Form("inv1", Text.IntToString(15), Capital, "acc1", "2024-05-01")
  const requestOfThree := Request("inv1", Capital, 3, "acc1", "2024-05-01")

  /** A sale of 3 Wireless Mice at Capital against the checking account is accepted and records
      90 of uncleared income, leaves 7 at Capital and raises the balance to 15090. */
  lemma MockSaleOfThree()
    ensures Submit(saleOfThree, Sale, mockLedger.inventory) == Ok(requestOfThree)
    ensures var r := Record(mockLedger, Sale, requestOfThree, "txn-1");
      && |r.transactions| == 1
      && r.transactions[0].amount == 90.0 && r.transactions[0].kind == Income && !r.transactions[0].isCleared
      && r.inventory[0].locationCapital == 7
      && r.accounts[0].balance == 15090.0
  {
    MockThreeAccepted();
    MockThreeRecorded();
  }

  lemma MockThreeAccepted()
    ensures Submit(saleOfThree, Sale, mockLedger.inventory) == Ok(requestOfThree)
  {
    ParseThree();
    assert ItemId(mockLedger.inventory[0]) == "inv1";
    assert Store.FindFirst(mockLedger.inventory, ItemId, "inv1") == Some(inv1);
    assert AvailableStock(mockLedger.inventory, saleOfThree) == 10;
    SubmitAccepts(saleOfThree, Sale, mockLedger.inventory, 3);
  }

  lemma MockThreeRecorded()
    ensures var r := Record(mockLedger, Sale, requestOfThree, "txn-1");
      && |r.transactions| == 1
      && r.transactions[0].amount == 90.0 && r.transactions[0].kind == Income && !r.transactions[0].isCleared
      && r.inventory[0].locationCapital == 7
      && r.accounts[0].balance == 15090.0
  {
    var l := mockLedger;
    var req := requestOfThree;
    assert ItemId(l.inventory[0]) == "inv1";
    assert AccountId(l.accounts[0]) == "acc1";
    assert Resolves(l, req);
    assert Store.FindFirst(l.inventory, ItemId, "inv1") == Some(inv1);
    assert Store.FindFirst(l.accounts, AccountId, "acc1") == Some(acc1);
    var r := Record(l, Sale, req, "txn-1");
    assert StockMoved(l.inventory, r.inventory, "inv1", Capital, -3);
    assert BalanceMoved(l.accounts, r.accounts, "acc1", Sale, Total(inv1, Sale, 3));
  }

  /** A sale of 15 at Capital, where 10 are on hand, is rejected and reports 10 available. */
  lemma MockSaleOfFifteen()
    ensures Submit(saleOfFifteen, Sale, mockLedger.inventory) == Err(InsufficientStock(10))
  {
    ParseFifteen();
    assert ItemId(mockLedger.inventory[0]) == "inv1";
    SubmitRejectsForStock(saleOfFifteen, mockLedger.inventory, 15);
  }

  /** A complete sale form asking for more than the stock is rejected with the stock. */
  lemma SubmitRejectsForStock(f: Form, inventory: seq<InventoryItem>, q: int)
    requires f.itemId != "" && f.accountId != "" && f.quantityText != ""
    requires Text.ParseInt10(f.quantityText) == Some(q) && q > 0
    requires q > AvailableStock(inventory, f)
    ensures Submit(f, Sale, inventory) == Err(InsufficientStock(AvailableStock(inventory, f)))
  {
  }

  lemma ParseFifteen()
    ensures Text.ParseInt10(saleOfFifteen.quantityText) == Some(15)
  {
    Text.ParseIntToString(15, false);
  }
}

=== FILE: seqs.dfy ===
/** Order-preserving filtering and summation over sequences, the two array idioms
    (`Array.prototype.filter` and a `reduce` that adds) the ledger code is built from. */
module Seqs {

  /** The elements of `s` that satisfy `p`, in their original order. */
  function Filter<T>(s: seq<T>, p: T -> bool): (r: seq<T>)
    ensures |r| <= |s|
    ensures forall i | 0 <= i < |r| :: r[i] in s && p(r[i])
    ensures forall i | 0 <= i < |s| && p(s[i]) :: s[i] in r
    ensures multiset(r) <= multiset(s)
  {
    if |s| == 0 then []
    else
      assert s == [s[0]] + s[1..];
      (if p(s[0]) then [s[0]] else []) + Filter(s[1..], p)
  }

  /** `reduce((acc, x) => acc + f(x), 0)` over `s`, with exact arithmetic. */
  function Sum<T>(s: seq<T>, f: T -> real): real
  {
    if |s| == 0 then 0.0 else f(s[0]) + Sum(s[1..], f)
  }

  lemma {:induction false} FilterAppend<T>(a: seq<T>, b: seq<T>, p: T -> bool)
    ensures Filter(a + b, p) == Filter(a, p) + Filter(b, p)
  {
    if |a| == 0 {
      assert a + b == b;
    } else {
      assert (a + b)[1..] == a[1..] + b;
      FilterAppend(a[1..], b, p);
    }
  }

  lemma {:induction false} SumAppend<T>(a: seq<T>, b: seq<T>, f: T -> real)
    ensures Sum(a + b, f) == Sum(a, f) + Sum(b, f)
  {
    if |a| == 0 {
      assert a + b == b;
    } else {
      assert (a + b)[1..] == a[1..] + b;
      SumAppend(a[1..], b, f);
    }
  }

  /** Summing an element out of the middle of a sequence. */
  lemma {:induction false} SumRemoveAt<T>(s: seq<T>, i: nat, f: T -> real)
    requires i < |s|
    ensures Sum(s, f) == f(s[i]) + Sum(s[..i] + s[i + 1..], f)
  {
    assert s == s[..i] + [s[i]] + s[i + 1..];
    SumAppend(s[..i] + [s[i]], s[i + 1..], f);
    SumAppend(s[..i], [s[i]], f);
    SumAppend(s[..i], s[i + 1..], f);
  }

  /** A sum does not depend on the order of its terms. */
  lemma {:induction false} SumPermutation<T>(a: seq<T>, b: seq<T>, f: T -> real)
    requires multiset(a) == multiset(b)
    ensures Sum(a, f) == Sum(b, f)
  {
    if |a| == 0 {
      assert |multiset(b)| == 0;
    } else {
      assert a[0] in multiset(b);
      var i :| 0 <= i < |b| && b[i] == a[0];
      var rest := b[..i] + b[i + 1..];
      assert a == [a[0]] + a[1..];
      assert multiset(a[1..]) == multiset(a) - multiset{a[0]};
      RemoveAtMultiset(b, i);
      SumPermutation(a[1..], rest, f);
      SumRemoveAt(b, i, f);
    }
  }

  /** Removing the element at `i` removes one occurrence of it from the multiset. */
  lemma RemoveAtMultiset<T>(s: seq<T>, i: nat)
    requires i < |s|
    ensures multiset(s[..i] + s[i + 1..]) == multiset(s) - multiset{s[i]}
  {
    assert s == s[..i] + [s[i]] + s[i + 1..];
  }

  /** Splitting a sum along a predicate and its complement. */
  lemma {:induction false} SumPartition<T>(s: seq<T>, p: T -> bool, q: T -> bool, f: T -> real)
    requires forall x :: q(x) == !p(x)
    ensures Sum(Filter(s, p), f) + Sum(Filter(s, q), f) == Sum(s, f)
  {
    if |s| > 0 {
      SumPartition(s[1..], p, q, f);
      if p(s[0]) {
        SumAppend([s[0]], Filter(s[1..], p), f);
        SumAppend([], Filter(s[1..], q), f);
      } else {
        SumAppend([], Filter(s[1..], p), f);
        SumAppend([s[0]], Filter(s[1..], q), f);
      }
    }
  }

  /** A filter and its complement share the input between them, element by element. */
  lemma {:induction false} FilterPartitionCount<T>(s: seq<T>, p: T -> bool, q: T -> bool)
    requires forall x :: q(x) == !p(x)
    ensures |Filter(s, p)| + |Filter(s, q)| == |s|
    ensures multiset(Filter(s, p)) + multiset(Filter(s, q)) == multiset(s)
  {
    if |s| > 0 {
      FilterPartitionCount(s[1..], p, q);
      assert s == [s[0]] + s[1..];
      assert multiset(s) == multiset{s[0]} + multiset(s[1..]);
    }
  }

  /** The first step of a filtered sum: the head counts when it passes the filter. */
  lemma SumFilterHead<T>(s: seq<T>, p: T -> bool, f: T -> real)
    requires |s| > 0
    ensures Sum(Filter(s, p), f) == (if p(s[0]) then f(s[0]) else 0.0) + Sum(Filter(s[1..], p), f)
  {
    var head := if p(s[0]) then [s[0]] else [];
    assert Filter(s, p) == head + Filter(s[1..], p);
    SumAppend(head, Filter(s[1..], p), f);
    assert [s[0]][1..] == [];
  }

  /** A filter every element passes keeps the whole sequence. */
  lemma {:induction false} FilterAll<T>(s: seq<T>, p: T -> bool)
    requires forall i | 0 <= i < |s| :: p(s[i])
    ensures Filter(s, p) == s
  {
    if |s| > 0 {
      FilterAll(s[1..], p);
      assert s == [s[0]] + s[1..];
    }
  }
}

=== FILE: store.dfy ===
/** The entity store's generic collection operations: lookup by id (`Array.prototype.find`
    and the last-wins `Map` built from a list), the upsert of the save handlers, removal by a
    key (the delete handlers' `filter`), and the first-write-wins merge of the CSV importers.
    Each takes the projection (`key`) that reads the identifying field of a record. */
module Store {
  import opened Wrappers

  /** `s.find(x => key(x) === k)`: the first record whose key is `k`. */
  function FindFirst<T>(s: seq<T>, key: T -> string, k: string): (r: Option<T>)
    ensures r.None? <==> forall i | 0 <= i < |s| :: key(s[i]) != k
    ensures r.Some? ==> exists i | 0 <= i < |s| :: s[i] == r.value && key(s[i]) == k
                          && forall j | 0 <= j < i :: key(s[j]) != k
  {
    if |s| == 0 then None
    else if key(s[0]) == k then Some(s[0])
    else
      var r := FindFirst(s[1..], key, k);
      assert r.Some? ==> exists i | 1 <= i < |s| :: s[i] == r.value && key(s[i]) == k
                           && forall j | 0 <= j < i :: key(s[j]) != k;
      r
  }

  /** `new Map(s.map(x => [key(x), x])).get(k)`: the LAST record whose key is `k`. */
  function FindLast<T>(s: seq<T>, key: T -> string, k: string): (r: Option<T>)
    ensures r.None? <==> forall i | 0 <= i < |s| :: key(s[i]) != k
    ensures r.Some? ==> exists i | 0 <= i < |s| :: s[i] == r.value && key(s[i]) == k
                          && forall j | i < j < |s| :: key(s[j]) != k
  {
    if |s| == 0 then None
    else if key(s[|s| - 1]) == k then Some(s[|s| - 1])
    else FindLast(s[..|s| - 1], key, k)
  }

  /** A key occurs in the collection. */
  predicate HasKey<T>(s: seq<T>, key: T -> string, k: string) {
    exists i | 0 <= i < |s| :: key(s[i]) == k
  }

  /** No two records of the collection share a key. */
  predicate UniqueKeys<T>(s: seq<T>, key: T -> string) {
    forall i, j | 0 <= i < j < |s| :: key(s[i]) != key(s[j])
  }

  /** The save handlers: when editing, `s.map(y => key(y) === key(x) ? x : y)`; otherwise
      `[...s, x]`. */
  function Save<T>(s: seq<T>, key: T -> string, x: T, editing: bool): (r: seq<T>)
    ensures editing ==> |r| == |s|
    ensures !editing ==> |r| == |s| + 1 && r[..|s|] == s && r[|s|] == x
  {
    if editing then seq(|s|, i requires 0 <= i < |s| => if key(s[i]) == key(x) then x else s[i])
    else s + [x]
  }

  /** Saving an edit puts the record in place of every record with its id, keeps every
      position, and leaves records with other ids where they were. */
  lemma SaveEditInPlace<T>(s: seq<T>, key: T -> string, x: T)
    ensures var r := Save(s, key, x, true);
      && |r| == |s|
      && (forall i | 0 <= i < |s| && key(s[i]) == key(x) :: r[i] == x)
      && (forall i | 0 <= i < |s| && key(s[i]) != key(x) :: r[i] == s[i])
      && (HasKey(s, key, key(x)) ==> FindFirst(r, key, key(x)) == Some(x))
      && (forall k | k != key(x) :: FindFirst(r, key, k) == FindFirst(s, key, k))
  {
    var r := Save(s, key, x, true);
    forall k | k != key(x) ensures FindFirst(r, key, k) == FindFirst(s, key, k) {
      FindFirstAgree(r, s, key, k, key(x));
    }
    if HasKey(s, key, key(x)) {
      var i :| 0 <= i < |s| && key(s[i]) == key(x);
      var f := FindFirst(r, key, key(x));
      assert key(r[i]) == key(x);
      var j :| 0 <= j < |r| && r[j] == f.value && key(r[j]) == key(x);
    }
  }

  /** Two equally long collections that agree on every record whose key is not `other` give
      the same first match for any key `k` other than `other`. */
  lemma {:induction false} FindFirstAgree<T>(a: seq<T>, b: seq<T>, key: T -> string, k: string, other: string)
    requires |a| == |b| && k != other
    requires forall i | 0 <= i < |a| :: key(a[i]) == other <==> key(b[i]) == other
    requires forall i | 0 <= i < |a| && key(a[i]) != other :: a[i] == b[i]
    ensures FindFirst(a, key, k) == FindFirst(b, key, k)
  {
    if |a| > 0 {
      FindFirstAgree(a[1..], b[1..], key, k, other);
    }
  }

  /** Adding (not editing) a record appends it; it is found by its id only if that id was new. */
  lemma SaveNewAppends<T>(s: seq<T>, key: T -> string, x: T)
    ensures var r := Save(s, key, x, false);
      && (!HasKey(s, key, key(x)) ==> FindFirst(r, key, key(x)) == Some(x))
      && (HasKey(s, key, key(x)) ==> FindFirst(r, key, key(x)) == FindFirst(s, key, key(x)))
  {
    var r := Save(s, key, x, false);
    FindFirstAppend(s, [x], key, key(x));
  }

  lemma {:induction false} FindFirstAppend<T>(a: seq<T>, b: seq<T>, key: T -> string, k: string)
    ensures FindFirst(a + b, key, k) == if HasKey(a, key, k) then FindFirst(a, key, k) else FindFirst(b, key, k)
  {
    if |a| > 0 {
      assert (a + b)[1..] == a[1..] + b;
      FindFirstAppend(a[1..], b, key, k);
      if key(a[0]) != k {
        assert HasKey(a, key, k) <==> HasKey(a[1..], key, k) by {
          if HasKey(a, key, k) {
            var i :| 0 <= i < |a| && key(a[i]) == k;
            assert key(a[1..][i - 1]) == k;
          }
          if HasKey(a[1..], key, k) {
            var i :| 0 <= i < |a| - 1 && key(a[1..][i]) == k;
            assert key(a[i + 1]) == k;
          }
        }
      }
    } else {
      assert a + b == b;
    }
  }

  /** `s.filter(x => key(x) !== k)`: the delete handlers. */
  function RemoveKey<T>(s: seq<T>, key: T -> string, k: string): (r: seq<T>)
    ensures forall i | 0 <= i < |r| :: key(r[i]) != k && r[i] in s
    ensures forall i | 0 <= i < |s| && key(s[i]) != k :: s[i] in r
    ensures |r| == |s| - CountKey(s, key, k)
  {
    if |s| == 0 then []
    else
      assert s == [s[0]] + s[1..];
      (if key(s[0]) == k then [] else [s[0]]) + RemoveKey(s[1..], key, k)
  }

  /** Deleting keeps the surviving records in their order: removing from a concatenation
      removes from each part. */
  lemma {:induction false} RemoveKeyAppend<T>(a: seq<T>, b: seq<T>, key: T -> string, k: string)
    ensures RemoveKey(a + b, key, k) == RemoveKey(a, key, k) + RemoveKey(b, key, k)
  {
    if |a| == 0 {
      assert a + b == b;
    } else {
      assert (a + b)[0] == a[0];
      assert (a + b)[1..] == a[1..] + b;
      RemoveKeyAppend(a[1..], b, key, k);
    }
  }

  /** A single record survives a delete exactly when its key differs. */
  lemma RemoveKeyOne<T>(x: T, key: T -> string, k: string)
    ensures RemoveKey([x], key, k) == if key(x) == k then [] else [x]
  {
    assert [x][1..] == [];
  }

  /** How many records carry the key `k`. */
  function CountKey<T>(s: seq<T>, key: T -> string, k: string): (n: nat)
    ensures n <= |s|
  {
    if |s| == 0 then 0 else (if key(s[0]) == k then 1 else 0) + CountKey(s[1..], key, k)
  }

  /** Unique keys stay unique once the first record is dropped. */
  lemma UniqueKeysTail<T>(s: seq<T>, key: T -> string)
    requires |s| > 0 && UniqueKeys(s, key)
    ensures UniqueKeys(s[1..], key)
  {
    forall i, j | 0 <= i < j < |s| - 1 ensures key(s[1..][i]) != key(s[1..][j]) {
      assert key(s[i + 1]) != key(s[j + 1]);
    }
  }

  /** With unique keys, the first record carrying a record's key is that record itself. */
  lemma FindFirstAt<T>(s: seq<T>, key: T -> string, i: nat)
    requires UniqueKeys(s, key) && i < |s|
    ensures FindFirst(s, key, key(s[i])) == Some(s[i])
  {
    var j :| 0 <= j < |s| && s[j] == FindFirst(s, key, key(s[i])).value && key(s[j]) == key(s[i])
             && forall m | 0 <= m < j :: key(s[m]) != key(s[i]);
    assert j == i;
  }

  /** With unique keys, a present key is carried by exactly one record and an absent one by none. */
  lemma {:induction false} CountKeyUnique<T>(s: seq<T>, key: T -> string, k: string)
    requires UniqueKeys(s, key)
    ensures CountKey(s, key, k) == if HasKey(s, key, k) then 1 else 0
  {
    if |s| > 0 {
      UniqueKeysTail(s, key);
      CountKeyUnique(s[1..], key, k);
      if key(s[0]) == k {
        assert !HasKey(s[1..], key, k) by {
          forall i | 0 <= i < |s| - 1 ensures key(s[1..][i]) != k {
            assert key(s[0]) != key(s[i + 1]);
          }
        }
      } else {
        assert HasKey(s, key, k) <==> HasKey(s[1..], key, k) by {
          if HasKey(s, key, k) {
            var i :| 0 <= i < |s| && key(s[i]) == k;
            assert key(s[1..][i - 1]) == k;
          }
          if HasKey(s[1..], key, k) {
            var i :| 0 <= i < |s| - 1 && key(s[1..][i]) == k;
            assert key(s[i + 1]) == k;
          }
        }
      }
    }
  }

  /** After removal no record carries the key, and lookups of every other key are unchanged. */
  lemma {:induction false} RemoveKeyLookups<T>(s: seq<T>, key: T -> string, k: string, k': string)
    ensures FindFirst(RemoveKey(s, key, k), key, k) == None
    ensures k' != k ==> FindFirst(RemoveKey(s, key, k), key, k') == FindFirst(s, key, k')
  {
    if |s| > 0 {
      RemoveKeyLookups(s[1..], key, k, k');
      var rest := RemoveKey(s[1..], key, k);
      if key(s[0]) == k {
        assert RemoveKey(s, key, k) == rest;
      } else {
        assert RemoveKey(s, key, k) == [s[0]] + rest;
        assert ([s[0]] + rest)[1..] == rest;
      }
    }
  }

  /** The keys present in a collection. */
  function Keys<T>(s: seq<T>, key: T -> string): (ks: set<string>)
    ensures forall k :: k in ks <==> HasKey(s, key, k)
  {
    if |s| == 0 then {}
    else
      var rest := Keys(s[1..], key);
      assert forall k :: HasKey(s, key, k) <==> key(s[0]) == k || HasKey(s[1..], key, k) by {
        forall k ensures HasKey(s, key, k) <==> key(s[0]) == k || HasKey(s[1..], key, k) {
          if HasKey(s[1..], key, k) {
            var i :| 0 <= i < |s| - 1 && key(s[1..][i]) == k;
            assert key(s[i + 1]) == k;
          }
          if HasKey(s, key, k) && key(s[0]) != k {
            var i :| 0 <= i < |s| && key(s[i]) == k;
            assert key(s[1..][i - 1]) == k;
          }
        }
      }
      {key(s[0])} + rest
  }

  /** The incoming records whose key is not in `taken`, in their order. */
  function Fresh<T>(incoming: seq<T>, key: T -> string, taken: set<string>): (r: seq<T>)
    ensures forall i | 0 <= i < |r| :: key(r[i]) !in taken && r[i] in incoming
    ensures forall i | 0 <= i < |incoming| && key(incoming[i]) !in taken :: incoming[i] in r
  {
    if |incoming| == 0 then []
    else
      assert incoming == [incoming[0]] + incoming[1..];
      (if key(incoming[0]) in taken then [] else [incoming[0]]) + Fresh(incoming[1..], key, taken)
  }

  /** The importers' merge: the existing records, unchanged and first, then the imported records
      whose id is not already present, in file order. Duplicates within the import are kept. */
  function Merge<T>(existing: seq<T>, incoming: seq<T>, key: T -> string): (r: seq<T>)
    ensures |r| >= |existing| && r[..|existing|] == existing
    ensures forall i | |existing| <= i < |r| :: !HasKey(existing, key, key(r[i]))
    ensures forall i | |existing| <= i < |r| :: r[i] in incoming
    ensures forall i | 0 <= i < |incoming| && !HasKey(existing, key, key(incoming[i])) :: incoming[i] in r[|existing|..]
  {
    existing + Fresh(incoming, key, Keys(existing, key))
  }

  /** An import never overwrites: the first record found for any id that already existed is
      the existing one. */
  lemma MergeFirstWriteWins<T>(existing: seq<T>, incoming: seq<T>, key: T -> string, k: string)
    requires HasKey(existing, key, k)
    ensures FindFirst(Merge(existing, incoming, key), key, k) == FindFirst(existing, key, k)
  {
    FindFirstAppend(existing, Fresh(incoming, key, Keys(existing, key)), key, k);
  }

  /** The merge goes through the import in file order: merging `a + b` appends what merging
      `a` appends, then what merging `b` appends. */
  lemma MergeAppend<T>(existing: seq<T>, a: seq<T>, b: seq<T>, key: T -> string)
    ensures Merge(existing, a + b, key) == Merge(existing, a, key) + Merge(existing, b, key)[|existing|..]
  {
    FreshAppend(a, b, key, Keys(existing, key));
    var m := Merge(existing, b, key);
    assert m[|existing|..] == Fresh(b, key, Keys(existing, key));
  }

  /** A single imported record is appended exactly when its key is not already present. */
  lemma MergeOne<T>(existing: seq<T>, x: T, key: T -> string)
    ensures Merge(existing, [x], key) == existing + (if HasKey(existing, key, key(x)) then [] else [x])
  {
    var taken := Keys(existing, key);
    assert [x][1..] == [];
    assert Fresh([x], key, taken) == (if key(x) in taken then [] else [x]) + Fresh([], key, taken);
  }

  lemma {:induction false} FreshAppend<T>(a: seq<T>, b: seq<T>, key: T -> string, taken: set<string>)
    ensures Fresh(a + b, key, taken) == Fresh(a, key, taken) + Fresh(b, key, taken)
  {
    if |a| == 0 {
      assert a + b == b;
    } else {
      assert (a + b)[0] == a[0];
      assert (a + b)[1..] == a[1..] + b;
      FreshAppend(a[1..], b, key, taken);
    }
  }

  /** When no imported id collides with an existing one, the merge appends the whole import. */
  lemma {:induction false} MergeDisjoint<T>(existing: seq<T>, incoming: seq<T>, key: T -> string)
    requires forall i | 0 <= i < |incoming| :: !HasKey(existing, key, key(incoming[i]))
    ensures Merge(existing, incoming, key) == existing + incoming
  {
    FreshAll(incoming, key, Keys(existing, key));
  }

  lemma {:induction false} FreshAll<T>(incoming: seq<T>, key: T -> string, taken: set<string>)
    requires forall i | 0 <= i < |incoming| :: key(incoming[i]) !in taken
    ensures Fresh(incoming, key, taken) == incoming
  {
    if |incoming| > 0 {
      FreshAll(incoming[1..], key, taken);
      assert incoming == [incoming[0]] + incoming[1..];
    }
  }
}

=== FILE: text.dfy ===
/** The string primitives the ledger's handlers rely on, with JavaScript's semantics:
    `trim`, `includes`, `toLowerCase`, `split` on one character, `join`, `String(n)` for
    integers, and `parseInt` with and without an explicit radix. */
module Text {
  import opened Wrappers

  /** JavaScript's white-space and line-terminator characters: the set `String.prototype.trim`
      removes and `parseInt` skips (ECMAScript's StrWhiteSpaceChar). */
  predicate IsSpace(c: char) {
    || c == '\t' || c == '\n' || c == '\U{000B}' || c == '\U{000C}' || c == '\r' || c == ' '
    || c == '\U{00A0}' || c == '\U{1680}' || ('\U{2000}' <= c <= '\U{200A}')
    || c == '\U{2028}' || c == '\U{2029}' || c == '\U{202F}' || c == '\U{205F}'
    || c == '\U{3000}' || c == '\U{FEFF}'
  }

  /** `s` without its leading white space. */
  function TrimStart(s: string): (r: string)
    ensures |r| <= |s| && r == s[|s| - |r|..]
    ensures forall i | 0 <= i < |s| - |r| :: IsSpace(s[i])
    ensures r == "" || !IsSpace(r[0])
  {
    if |s| > 0 && IsSpace(s[0]) then TrimStart(s[1..]) else s
  }

  /** `s` without its trailing white space. */
  function TrimEnd(s: string): (r: string)
    ensures |r| <= |s| && r == s[..|r|]
    ensures forall i | |r| <= i < |s| :: IsSpace(s[i])
    ensures r == "" || !IsSpace(r[|r| - 1])
  {
    if |s| > 0 && IsSpace(s[|s| - 1]) then TrimEnd(s[..|s| - 1]) else s
  }

  /** `s.trim()` */
  function Trim(s: string): string {
    TrimEnd(TrimStart(s))
  }

  /** `s.trim() === ''` */
  predicate IsBlank(s: string) {
    Trim(s) == ""
  }

  /** A line is blank exactly when every character of it is white space. */
  lemma BlankIff(s: string)
    ensures IsBlank(s) <==> forall i | 0 <= i < |s| :: IsSpace(s[i])
  {
    var t := TrimStart(s);
    if IsBlank(s) {
      assert TrimEnd(t) == "";
      assert |t| == 0;
    }
  }

  /** Trimming leaves alone a string that neither starts nor ends with white space. */
  lemma TrimNoop(s: string)
    requires |s| > 0 && !IsSpace(s[0]) && !IsSpace(s[|s| - 1])
    ensures Trim(s) == s
  {
  }

  /** `s.includes(sub)` */
  predicate Contains(s: string, sub: string) {
    exists i: nat | i <= |s| - |sub| :: OccursAt(s, sub, i)
  }

  /** `sub` occurs in `s` starting at position `i`. */
  predicate OccursAt(s: string, sub: string, i: nat) {
    i + |sub| <= |s| && s[i..i + |sub|] == sub
  }

  /** Every string includes the empty string. */
  lemma ContainsEmpty(s: string)
    ensures Contains(s, "")
  {
    assert OccursAt(s, "", 0);
  }

  /** Lower-casing of one character (ASCII letters). */
  function LowerChar(c: char): char {
    if 'A' <= c <= 'Z' then (c as int + 32) as char else c
  }

  /** `s.toLowerCase()` restricted to ASCII letters. */
  function ToLower(s: string): (r: string)
    ensures |r| == |s|
  {
    seq(|s|, i requires 0 <= i < |s| => LowerChar(s[i]))
  }

  // ---------------------------------------------------------------------------
  // split and join on one separator character

  /** `s.split(sep)` for a one-character separator: never empty, no piece holds `sep`. */
  function SplitOn(s: string, sep: char): (r: seq<string>)
    ensures |r| >= 1
    ensures forall i | 0 <= i < |r| :: sep !in r[i]
  {
    if |s| == 0 then [""]
    else
      var rest := SplitOn(s[1..], sep);
      if s[0] == sep then [""] + rest else [[s[0]] + rest[0]] + rest[1..]
  }

  /** `parts.join(sep)` */
  function Join(parts: seq<string>, sep: char): string {
    if |parts| == 0 then ""
    else if |parts| == 1 then parts[0]
    else parts[0] + [sep] + Join(parts[1..], sep)
  }

  /** Splitting a text whose first piece holds no separator. */
  lemma {:induction false} SplitPrefix(a: string, t: string, sep: char)
    requires sep !in a
    ensures SplitOn(a + t, sep) == [a + SplitOn(t, sep)[0]] + SplitOn(t, sep)[1..]
  {
    if |a| > 0 {
      assert (a + t)[0] == a[0];
      assert (a + t)[1..] == a[1..] + t;
      SplitPrefix(a[1..], t, sep);
      assert [a[0]] + (a[1..] + SplitOn(t, sep)[0]) == a + SplitOn(t, sep)[0];
    } else {
      assert a + t == t;
      assert a + SplitOn(t, sep)[0] == SplitOn(t, sep)[0];
      assert SplitOn(t, sep) == [SplitOn(t, sep)[0]] + SplitOn(t, sep)[1..];
    }
  }

  /** Splitting at a separator between two texts splits each text on its own. */
  lemma {:induction false} SplitAppend(a: string, b: string, sep: char)
    ensures SplitOn(a + [sep] + b, sep) == SplitOn(a, sep) + SplitOn(b, sep)
  {
    if |a| == 0 {
      assert a + [sep] + b == [sep] + b;
      SplitCons(sep, b, sep);
      assert SplitOn(a, sep) == [""];
    } else {
      SplitAppend(a[1..], b, sep);
      SplitAppendStep(a, b, sep);
    }
  }

  /** The inductive step of `SplitAppend`: the first character of `a` goes where it went in
      the split of `a` alone. */
  lemma SplitAppendStep(a: string, b: string, sep: char)
    requires |a| > 0
    requires SplitOn(a[1..] + [sep] + b, sep) == SplitOn(a[1..], sep) + SplitOn(b, sep)
    ensures SplitOn(a + [sep] + b, sep) == SplitOn(a, sep) + SplitOn(b, sep)
  {
    var s := a + [sep] + b;
    assert s[0] == a[0];
    assert s[1..] == a[1..] + [sep] + b;
    SplitHead(SplitOn(a[1..], sep), SplitOn(b, sep), a[0], sep);
  }

  /** The sequence algebra behind `SplitAppendStep`. */
  lemma SplitHead(head: seq<string>, tail: seq<string>, c: char, sep: char)
    requires |head| >= 1
    ensures c == sep ==> [""] + (head + tail) == ([""] + head) + tail
    ensures c != sep ==> [[c] + (head + tail)[0]] + (head + tail)[1..] == ([[c] + head[0]] + head[1..]) + tail
  {
    assert (head + tail)[1..] == head[1..] + tail;
  }

  /** One step of the split: a separator starts a new piece, any other character extends the
      first piece. */
  lemma SplitCons(c: char, t: string, sep: char)
    ensures SplitOn([c] + t, sep) == if c == sep then [""] + SplitOn(t, sep)
                                     else [[c] + SplitOn(t, sep)[0]] + SplitOn(t, sep)[1..]
  {
    assert ([c] + t)[0] == c;
    assert ([c] + t)[1..] == t;
  }

  /** Joining then splitting gives back the pieces, provided no piece holds the separator. */
  lemma {:induction false} SplitJoin(parts: seq<string>, sep: char)
    requires |parts| >= 1
    requires forall i | 0 <= i < |parts| :: sep !in parts[i]
    ensures SplitOn(Join(parts, sep), sep) == parts
  {
    if |parts| == 1 {
      SplitPrefix(parts[0], "", sep);
      assert SplitOn("", sep) == [""];
      assert SplitOn("", sep)[1..] == [];
      assert parts[0] + "" == parts[0];
      assert parts == [parts[0]];
    } else {
      var tail := Join(parts[1..], sep);
      SplitJoin(parts[1..], sep);
      SplitPrefix(parts[0], [sep] + tail, sep);
      assert ([sep] + tail)[0] == sep;
      assert SplitOn([sep] + tail, sep) == [""] + SplitOn(tail, sep);
      assert parts[0] + "" == parts[0];
      assert parts[0] + [sep] + tail == parts[0] + ([sep] + tail);
      assert ([sep] + tail)[1..] == tail;
      assert parts == [parts[0]] + parts[1..];
    }
  }

  /** Splitting then joining gives back the text. */
  lemma {:induction false} JoinSplit(s: string, sep: char)
    ensures Join(SplitOn(s, sep), sep) == s
  {
    if |s| > 0 {
      var rest := SplitOn(s[1..], sep);
      JoinSplit(s[1..], sep);
      if s[0] == sep {
        assert ([""] + rest)[1..] == rest;
      } else {
        var r := [[s[0]] + rest[0]] + rest[1..];
        assert r[1..] == rest[1..];
        if |rest| == 1 {
          assert rest[0] == s[1..];
        } else {
          assert Join(rest, sep) == rest[0] + [sep] + Join(rest[1..], sep);
        }
      }
      assert s == [s[0]] + s[1..];
    }
  }

  // ---------------------------------------------------------------------------
  // integers as text

  function DigitChar(d: nat): char
    requires d < 10
  {
    ('0' as int + d) as char
  }

  /** `String(n)` for a non-negative integer: its decimal digits, most significant first. */
  function NatToString(n: nat): (s: string)
    ensures |s| >= 1
    ensures forall i | 0 <= i < |s| :: '0' <= s[i] <= '9'
    decreases n
  {
    if n < 10 then [DigitChar(n)] else NatToString(n / 10) + [DigitChar(n % 10)]
  }

  /** `String(n)` for an integer. */
  function IntToString(n: int): string {
    if n < 0 then "-" + NatToString(-n) else NatToString(n)
  }

  /** The value of `c` as a digit of radix up to 36 (`0-9`, `a-z`, `A-Z`); 36 for anything else. */
  function DigitValue(c: char): (d: nat)
    ensures d <= 36
  {
    if '0' <= c <= '9' then c as int - '0' as int
    else if 'a' <= c <= 'z' then c as int - 'a' as int + 10
    else if 'A' <= c <= 'Z' then c as int - 'A' as int + 10
    else 36
  }

  /** The longest prefix of `s` made of digits of `radix`. */
  function DigitRun(s: string, radix: nat): (r: string)
    ensures |r| <= |s| && r == s[..|r|]
    ensures forall i | 0 <= i < |r| :: DigitValue(r[i]) < radix
    ensures |r| < |s| ==> DigitValue(s[|r|]) >= radix
  {
    if |s| > 0 && DigitValue(s[0]) < radix then [s[0]] + DigitRun(s[1..], radix) else ""
  }

  /** The number a run of digits denotes in `radix`. */
  function DigitsValue(s: string, radix: nat): nat
    requires forall i | 0 <= i < |s| :: DigitValue(s[i]) < radix
  {
    if |s| == 0 then 0
    else DigitsValue(s[..|s| - 1], radix) * radix + DigitValue(s[|s| - 1])
  }

  /** ECMAScript's `parseInt`: skip leading white space, read an optional sign, then (only when
      no radix was given) a `0x`/`0X` prefix selecting radix 16, then the longest run of digits;
      no digits at all is NaN (`None`). Text after the digits is ignored. */
  function ParseIntWith(s: string, detectHex: bool): Option<int> {
    ParseSigned(TrimStart(s), detectHex)
  }

  /** `parseInt` after leading white space: an optional sign, then the digits. */
  function ParseSigned(t: string, detectHex: bool): Option<int> {
    if |t| > 0 && t[0] == '-' then
      match ParseUnsigned(t[1..], detectHex)
      case None => None
      case Some(v) => Some(-(v as int))
    else
      match ParseUnsigned(if |t| > 0 && t[0] == '+' then t[1..] else t, detectHex)
      case None => None
      case Some(v) => Some(v as int)
  }

  /** The digits part of `parseInt`, after white space and sign. */
  function ParseUnsigned(u: string, detectHex: bool): Option<nat> {
    var hex := detectHex && |u| >= 2 && u[0] == '0' && (u[1] == 'x' || u[1] == 'X');
    var radix := if hex then 16 else 10;
    var z := DigitRun(if hex then u[2..] else u, radix);
    if z == "" then None else Some(DigitsValue(z, radix))
  }

  /** `parseInt(s, 10)` */
  function ParseInt10(s: string): Option<int> {
    ParseIntWith(s, false)
  }

  /** `parseInt(s)` (no radix) */
  function ParseInt(s: string): Option<int> {
    ParseIntWith(s, true)
  }

  lemma {:induction false} DigitRunAll(s: string, radix: nat)
    requires forall i | 0 <= i < |s| :: DigitValue(s[i]) < radix
    ensures DigitRun(s, radix) == s
  {
    if |s| > 0 {
      DigitRunAll(s[1..], radix);
      assert s == [s[0]] + s[1..];
    }
  }

  lemma {:induction false} NatToStringValue(n: nat)
    ensures DigitsValue(NatToString(n), 10) == n
    decreases n
  {
    if n >= 10 {
      var s := NatToString(n);
      NatToStringValue(n / 10);
      assert s[..|s| - 1] == NatToString(n / 10);
    }
  }

  lemma UnsignedDigits(d: string, detectHex: bool)
    requires |d| >= 1 && forall i | 0 <= i < |d| :: '0' <= d[i] <= '9'
    ensures forall i | 0 <= i < |d| :: DigitValue(d[i]) < 10
    ensures ParseUnsigned(d, detectHex) == Some(DigitsValue(d, 10))
  {
    assert forall i | 0 <= i < |d| :: DigitValue(d[i]) < 10;
    DigitRunAll(d, 10);
    assert !(|d| >= 2 && d[0] == '0' && (d[1] == 'x' || d[1] == 'X'));
  }

  /** Text that starts with a digit parses to what its digits part parses to. */
  lemma PlainDigits(d: string, detectHex: bool, v: nat)
    requires |d| >= 1 && ('0' <= d[0] <= '9')
    requires ParseUnsigned(d, detectHex) == Some(v)
    ensures ParseIntWith(d, detectHex) == Some(v as int)
  {
    TrimStartNoop(d);
  }

  /** A minus sign followed by digits parses to the negated value. */
  lemma NegatedDigits(d: string, detectHex: bool, v: nat)
    requires |d| >= 1 && ('0' <= d[0] <= '9')
    requires ParseUnsigned(d, detectHex) == Some(v)
    ensures ParseIntWith("-" + d, detectHex) == Some(-(v as int))
  {
    var s := "-" + d;
    TrimStartNoop(s);
    assert s[1..] == d;
  }

  lemma TrimStartNoop(s: string)
    requires |s| > 0 && !IsSpace(s[0])
    ensures TrimStart(s) == s
  {
  }

  /** `parseInt` reads back what `String` wrote, with or without a radix. */
  lemma ParseIntToString(n: int, detectHex: bool)
    ensures ParseIntWith(IntToString(n), detectHex) == Some(n)
  {
    var m: nat := if n < 0 then -n else n;
    NatToStringValue(m);
    UnsignedDigits(NatToString(m), detectHex);
    if n < 0 {
      NegatedDigits(NatToString(m), detectHex, m);
    } else {
      PlainDigits(NatToString(m), detectHex, m);
    }
  }

  /** `parseInt` of the empty text is NaN. */
  lemma ParseIntEmpty(detectHex: bool)
    ensures ParseIntWith("", detectHex) == None
  {
  }

  /** `String(n)` of an integer holds only digits and a sign. */
  lemma IntTextPlain(n: int)
    ensures '"' !in IntToString(n) && '\n' !in IntToString(n) && ',' !in IntToString(n)
  {
    var m: nat := if n < 0 then -n else n;
    var d := NatToString(m);
    assert forall k | 0 <= k < |d| :: '0' <= d[k] <= '9';
  }
}

=== FILE: transaction_form.dfy ===
/** The add/edit transaction form: the record its submit builds, and what saving that record
    does to a transaction that came from a sale or purchase. */
module TransactionForm {
  import opened Wrappers
  import opened Domain
  import opened App
  import Store
  import Reports

  /** The form's fields as entered. */
  datatype Form = Form(description: string, amountText: string, dateText: string, kind: TxnType,
                       category: string, accountId: string)

  /** `handleSubmit`: the record built from the form. When editing, the original id and cleared
      flag are kept (an empty id is replaced by `freshId`); a new record gets `freshId` and
      starts uncleared. The item link and location are never set. `None` when the amount does
      not parse or the date is invalid. */
  function Build(editing: Option<Transaction>, f: Form, freshId: string,
                 parseFloat: string -> Option<real>, isoDate: string -> Option<string>): (r: Option<Transaction>)
    ensures r.Some? <==> parseFloat(f.amountText).Some? && isoDate(f.dateText).Some?
    ensures r.Some? ==>
      && r.value.id == (if editing.Some? && editing.value.id != "" then editing.value.id else freshId)
      && r.value.isCleared == (editing.Some? && editing.value.isCleared)
      && r.value.amount == parseFloat(f.amountText).value
      && r.value.date == isoDate(f.dateText).value
      && r.value.description == f.description && r.value.kind == f.kind
      && r.value.category == f.category && r.value.accountId == f.accountId
      && r.value.inventoryItemId.None? && r.value.location.None?
  {
    var amount := parseFloat(f.amountText);
    var date := isoDate(f.dateText);
    if amount.None? || date.None? then None
    else
      Some(Transaction(
        id := if editing.Some? && editing.value.id != "" then editing.value.id else freshId,
        date := date.value,
        description := f.description,
        amount := amount.value,
        kind := f.kind,
        category := f.category,
        accountId := f.accountId,
        isCleared := editing.Some? && editing.value.isCleared,
        inventoryItemId := None,
        location := None))
  }

  /** Editing a transaction that a sale or purchase recorded and saving it drops it from every
      report: afterwards no transaction with its id is linked to an item, so none is selected by
      any report, whatever the window, type or inventory. */
  lemma EditDropsFromReports(l: Ledger, t: Transaction, f: Form, freshId: string,
                             parseFloat: string -> Option<real>, isoDate: string -> Option<string>,
                             inventory: seq<InventoryItem>, rt: Reports.ReportType, w: Reports.Window, c: Reports.Clock)
    requires t in l.transactions && t.id != ""
    requires Build(Some(t), f, freshId, parseFloat, isoDate).Some?
    ensures var r := SaveTransaction(l, Build(Some(t), f, freshId, parseFloat, isoDate).value, true);
      && |r.transactions| == |l.transactions|
      && (forall i | 0 <= i < |r.transactions| && r.transactions[i].id == t.id :: !Reports.Linked(r.transactions[i]))
      && (forall u | u in Reports.Selected(r.transactions, inventory, rt, w, c) :: u.id != t.id)
  {
    var b := Build(Some(t), f, freshId, parseFloat, isoDate).value;
    Store.SaveEditInPlace(l.transactions, TxnId, b);
    var r := SaveTransaction(l, b, true);
    forall u | u in Reports.Selected(r.transactions, inventory, rt, w, c) ensures u.id != t.id {
      var i :| 0 <= i < |r.transactions| && r.transactions[i] == u;
    }
  }
}

=== FILE: transactions.dfy ===
/** The transactions page: the newest-first listing and the CSV export and import of
    transactions. */
module Transactions {
  import opened Wrappers
  import opened Domain
  import opened Host
  import Store
  import Csv
  import Ordering
  import Text

  // ---------------------------------------------------------------------------
  // Listing

  /** The sort key of the listing: a later date sorts first. `time` is the host's
      `new Date(s).getTime()`. */
  function Newest(time: string -> int): Transaction -> int {
    (t: Transaction) => -time(t.date)
  }

  /** `sortedTransactions`: every transaction, latest date first; ties keep collection order. */
  function DisplayOrder(ts: seq<Transaction>, time: string -> int): (r: seq<Transaction>)
    ensures |r| == |ts| && multiset(r) == multiset(ts)
    ensures forall i, j | 0 <= i < j < |r| :: time(r[i].date) >= time(r[j].date)
  {
    var r := Ordering.SortBy(ts, Newest(time));
    assert forall i, j | 0 <= i < j < |r| :: Newest(time)(r[i]) <= Newest(time)(r[j]);
    r
  }

  /** Transactions on the same date keep their relative order in the listing. */
  lemma DisplayStable(ts: seq<Transaction>, time: string -> int, k: int)
    ensures Ordering.KeyClass(DisplayOrder(ts, time), Newest(time), k) == Ordering.KeyClass(ts, Newest(time), k)
  {
    Ordering.SortStable(ts, Newest(time), k);
  }

  // ---------------------------------------------------------------------------
  // CSV

  const headers := ["id", "date", "description", "amount", "type", "category", "accountId",
                    "isCleared", "inventoryItemId", "location"]

  /** The exported texts of one transaction in header order, with `amount` the given text. A
      false flag and an absent link are written as the empty text. */
  function Cells(t: Transaction, amount: string): (fs: seq<string>)
    ensures |fs| == |headers|
  {
    [t.id, t.date, t.description, amount, t.kind.Text(), t.category, t.accountId,
     if t.isCleared then "true" else "", t.inventoryItemId.GetOr(""), t.location.GetOr("")]
  }

  /** The export as written: a falsy value becomes the empty text, so an amount of 0 is written
      as an empty cell. */
  function FieldsAsWritten(h: Host, t: Transaction): (fs: seq<string>)
    ensures |fs| == |headers|
  {
    Cells(t, if t.amount == 0.0 then "" else h.numberText(t.amount))
  }

  /** The export with every amount written out, 0 included. */
  function Fields(h: Host, t: Transaction): (fs: seq<string>)
    ensures |fs| == |headers|
  {
    Cells(t, h.numberText(t.amount))
  }

  /** `handleExport` as written. */
  function ExportAsWritten(h: Host, ts: seq<Transaction>): string {
    Csv.Export(headers, FieldsAsWritten, h, ts)
  }

  /** `handleExport` with the amount always written. */
  function Export(h: Host, ts: seq<Transaction>): string {
    Csv.Export(headers, Fields, h, ts)
  }

  /** `new Date(cell).toISOString()`: an undefined cell is an invalid date, and an invalid date
      throws, which skips the row. */
  function DateCell(h: Host, cell: Option<string>): (r: Option<string>)
    ensures cell.None? ==> r.None?
    ensures cell.Some? ==> r == h.isoDate(cell.value)
  {
    match cell
    case None => None
    case Some(s) => h.isoDate(s)
  }

  /** `cell || undefined`: an optional link, absent when the cell is missing or empty. */
  function Link(cell: Option<string>): (r: Option<string>)
    ensures r.Some? <==> cell.Some? && cell.value != ""
    ensures r.Some? ==> r.value == cell.value
  {
    if cell.Some? && cell.value != "" then cell else None
  }

  /** A cell that is present and not empty (a truthy string). */
  predicate Filled(cell: Option<string>) {
    cell.Some? && cell.value != ""
  }

  /** One import row: kept iff the date is valid, the description and account id are non-empty
      and the amount parses. */
  function Decode(env: Importer, row: Csv.Row): (r: Option<Transaction>)
    ensures r.Some? <==>
      && DateCell(env.host, Csv.Field(row, "date")).Some?
      && Filled(Csv.Field(row, "description"))
      && ParseNumber(env.host, Csv.Field(row, "amount")).Some?
      && Filled(Csv.Field(row, "accountId"))
    ensures r.Some? ==>
      && r.value.date == DateCell(env.host, Csv.Field(row, "date")).value
      && r.value.description == Csv.Field(row, "description").value
      && r.value.amount == ParseNumber(env.host, Csv.Field(row, "amount")).value
      && r.value.accountId == Csv.Field(row, "accountId").value
      && (r.value.kind == Income <==> Csv.Field(row, "type") == Some("Income"))
      && (r.value.isCleared <==> Csv.Field(row, "isCleared") == Some("true"))
      && r.value.inventoryItemId == Link(Csv.Field(row, "inventoryItemId"))
      && r.value.location == Link(Csv.Field(row, "location"))
      && r.value.id == (if Filled(Csv.Field(row, "id")) then Csv.Field(row, "id").value
                        else env.freshId(row.number))
  {
    var id := Csv.Field(row, "id");
    var date := DateCell(env.host, Csv.Field(row, "date"));
    var description := Csv.Field(row, "description");
    var amount := ParseNumber(env.host, Csv.Field(row, "amount"));
    var accountId := Csv.Field(row, "accountId");
    if date.None? || !Filled(description) || amount.None? || !Filled(accountId) then None
    else
      Some(Transaction(
        id := if Filled(id) then id.value else env.freshId(row.number),
        date := date.value,
        description := description.value,
        amount := amount.value,
        kind := if Csv.Field(row, "type") == Some("Income") then Income else Expense,
        category := Csv.Field(row, "category").GetOr(""),
        accountId := accountId.value,
        isCleared := Csv.Field(row, "isCleared") == Some("true"),
        inventoryItemId := Link(Csv.Field(row, "inventoryItemId")),
        location := Link(Csv.Field(row, "location"))))
  }

  /** `handleFileImport`: the accepted rows appended after the existing transactions, skipping
      any whose id is already taken. */
  function Import(existing: seq<Transaction>, text: string, env: Importer): (r: seq<Transaction>)
    ensures |Csv.Lines(text)| <= 1 ==> r == existing
    ensures |r| >= |existing| && r[..|existing|] == existing
    ensures forall i | |existing| <= i < |r| :: !Store.HasKey(existing, TxnId, r[i].id)
    ensures forall i | |existing| <= i < |r| :: r[i] in Csv.Decode(text, Decode, env)
    ensures forall x | x in Csv.Decode(text, Decode, env) && !Store.HasKey(existing, TxnId, x.id) :: x in r[|existing|..]
  {
    Store.Merge(existing, Csv.Decode(text, Decode, env), TxnId)
  }

  // ---------------------------------------------------------------------------
  // export then import

  /** A text free of the characters the CSV format cannot carry. */
  predicate Plain(s: string) {
    '"' !in s && '\n' !in s
  }

  /** The texts of a transaction the CSV format can carry: none holds a double quote or a line
      break. */
  predicate PlainTexts(t: Transaction) {
    && Plain(t.id) && Plain(t.date) && Plain(t.description) && Plain(t.category) && Plain(t.accountId)
    && (t.inventoryItemId.Some? ==> Plain(t.inventoryItemId.value))
    && (t.location.Some? ==> Plain(t.location.value))
  }

  /** What a transaction needs to survive export and import unchanged: a non-empty id,
      description and account id, plain texts, a date the host reads back as itself, an amount
      the host prints back, and links that are either absent or non-empty. */
  predicate Portable(h: Host, t: Transaction) {
    && t.id != "" && t.description != "" && t.accountId != ""
    && PlainTexts(t)
    && h.isoDate(t.date) == Some(t.date)
    && PrintsBack(h, t.amount)
    && (t.inventoryItemId.Some? ==> t.inventoryItemId.value != "")
    && (t.location.Some? ==> t.location.value != "")
  }

  lemma HeadersDistinct()
    ensures forall i, j | 0 <= i < j < |headers| :: headers[i] != headers[j]
  {
  }

  lemma HeadersPlain()
    ensures forall i | 0 <= i < |headers| ::
      |headers[i]| > 0 && ',' !in headers[i] && '\n' !in headers[i]
      && !Text.IsSpace(headers[i][0]) && !Text.IsSpace(headers[i][|headers[i]| - 1])
  {
  }

  lemma HeadersGood()
    ensures Csv.GoodHeaders(headers)
  {
    HeadersDistinct();
    HeadersPlain();
  }

  lemma CellsGood(t: Transaction, amount: string)
    requires PlainTexts(t) && Plain(amount)
    ensures Csv.GoodFields(headers, Cells(t, amount))
  {
  }

  /** The values a transaction's exported line holds under each header. */
  lemma RowCells(t: Transaction, amount: string, n: nat)
    requires PlainTexts(t) && Plain(amount)
    ensures var row := Csv.Row(headers, Csv.EscapeAll(Cells(t, amount)), n);
      && Csv.Field(row, "id") == Some(t.id)
      && Csv.Field(row, "date") == Some(t.date)
      && Csv.Field(row, "description") == Some(t.description)
      && Csv.Field(row, "amount") == Some(amount)
      && Csv.Field(row, "type") == Some(t.kind.Text())
      && Csv.Field(row, "category") == Some(t.category)
      && Csv.Field(row, "accountId") == Some(t.accountId)
      && Csv.Field(row, "isCleared") == Some(if t.isCleared then "true" else "")
      && Csv.Field(row, "inventoryItemId") == Some(t.inventoryItemId.GetOr(""))
      && Csv.Field(row, "location") == Some(t.location.GetOr(""))
  {
    var fs := Cells(t, amount);
    HeadersGood();
    CellsGood(t, amount);
    Csv.FieldRoundTrip(headers, fs, n, 0);
    Csv.FieldRoundTrip(headers, fs, n, 1);
    Csv.FieldRoundTrip(headers, fs, n, 2);
    Csv.FieldRoundTrip(headers, fs, n, 3);
    Csv.FieldRoundTrip(headers, fs, n, 4);
    Csv.FieldRoundTrip(headers, fs, n, 5);
    Csv.FieldRoundTrip(headers, fs, n, 6);
    Csv.FieldRoundTrip(headers, fs, n, 7);
    Csv.FieldRoundTrip(headers, fs, n, 8);
    Csv.FieldRoundTrip(headers, fs, n, 9);
  }

  /** An optional link written as its text (or empty) reads back as itself. */
  lemma LinkText(link: Option<string>)
    requires link.Some? ==> link.value != ""
    ensures Link(Some(link.GetOr(""))) == link
  {
  }

  lemma DecodeOf(env: Importer, row: Csv.Row, t: Transaction)
    requires Portable(env.host, t)
    requires Csv.Field(row, "id") == Some(t.id)
    requires Csv.Field(row, "date") == Some(t.date)
    requires Csv.Field(row, "description") == Some(t.description)
    requires Csv.Field(row, "amount") == Some(env.host.numberText(t.amount))
    requires Csv.Field(row, "type") == Some(t.kind.Text())
    requires Csv.Field(row, "category") == Some(t.category)
    requires Csv.Field(row, "accountId") == Some(t.accountId)
    requires Csv.Field(row, "isCleared") == Some(if t.isCleared then "true" else "")
    requires Csv.Field(row, "inventoryItemId") == Some(t.inventoryItemId.GetOr(""))
    requires Csv.Field(row, "location") == Some(t.location.GetOr(""))
    ensures Decode(env, row) == Some(t)
  {
    DecodeKept(env, row, t);
    var b := Decode(env, row).value;
    DecodeFlags(env, row, t, b);
    assert b.id == t.id && b.date == t.date && b.description == t.description;
    assert b.amount == t.amount && b.accountId == t.accountId;
  }

  /** The row of a transaction with a valid date, an amount the host prints back and a non-empty
      id, description and account id is kept, with its id, date, description, amount and account id. */
  lemma DecodeKept(env: Importer, row: Csv.Row, t: Transaction)
    requires PrintsBack(env.host, t.amount)
    requires t.id != "" && t.description != "" && t.accountId != "" && env.host.isoDate(t.date) == Some(t.date)
    requires Csv.Field(row, "id") == Some(t.id)
    requires Csv.Field(row, "date") == Some(t.date)
    requires Csv.Field(row, "description") == Some(t.description)
    requires Csv.Field(row, "amount") == Some(env.host.numberText(t.amount))
    requires Csv.Field(row, "accountId") == Some(t.accountId)
    ensures Decode(env, row).Some?
    ensures var b := Decode(env, row).value;
      b.id == t.id && b.date == t.date && b.description == t.description
      && b.amount == t.amount && b.accountId == t.accountId
  {
    assert ParseNumber(env.host, Csv.Field(row, "amount")) == Some(t.amount);
    assert DateCell(env.host, Csv.Field(row, "date")) == Some(t.date);
  }

  /** A kept row's type, category, flag and links come back as exported. */
  lemma DecodeFlags(env: Importer, row: Csv.Row, t: Transaction, b: Transaction)
    requires Decode(env, row) == Some(b)
    requires t.inventoryItemId.Some? ==> t.inventoryItemId.value != ""
    requires t.location.Some? ==> t.location.value != ""
    requires Csv.Field(row, "type") == Some(t.kind.Text())
    requires Csv.Field(row, "category") == Some(t.category)
    requires Csv.Field(row, "isCleared") == Some(if t.isCleared then "true" else "")
    requires Csv.Field(row, "inventoryItemId") == Some(t.inventoryItemId.GetOr(""))
    requires Csv.Field(row, "location") == Some(t.location.GetOr(""))
    ensures b.kind == t.kind && b.category == t.category && b.isCleared == t.isCleared
    ensures b.inventoryItemId == t.inventoryItemId && b.location == t.location
  {
    LinkText(t.inventoryItemId);
    LinkText(t.location);
  }

  /** An exported transaction's line decodes back to the transaction. */
  lemma DecodeFields(env: Importer, t: Transaction, n: nat)
    requires Portable(env.host, t)
    ensures Decode(env, Csv.Row(headers, Csv.EscapeAll(Fields(env.host, t)), n)) == Some(t)
  {
    RowCells(t, env.host.numberText(t.amount), n);
    DecodeOf(env, Csv.Row(headers, Csv.EscapeAll(Fields(env.host, t)), n), t);
  }

  lemma AllGoodFields(h: Host, ts: seq<Transaction>)
    requires forall i | 0 <= i < |ts| :: Portable(h, ts[i])
    ensures forall i | 0 <= i < |ts| :: Csv.GoodFields(headers, Fields(h, ts[i]))
  {
    forall i | 0 <= i < |ts| ensures Csv.GoodFields(headers, Fields(h, ts[i])) {
      CellsGood(ts[i], h.numberText(ts[i].amount));
    }
  }

  lemma AllDecode(env: Importer, ts: seq<Transaction>)
    requires forall i | 0 <= i < |ts| :: Portable(env.host, ts[i])
    ensures forall i | 0 <= i < |ts| ::
      Decode(env, Csv.Row(headers, Csv.EscapeAll(Fields(env.host, ts[i])), i + 1)) == Some(ts[i])
  {
    forall i | 0 <= i < |ts|
      ensures Decode(env, Csv.Row(headers, Csv.EscapeAll(Fields(env.host, ts[i])), i + 1)) == Some(ts[i])
    {
      DecodeAt(env, ts, i);
    }
  }

  lemma DecodeAt(env: Importer, ts: seq<Transaction>, i: nat)
    requires i < |ts| && Portable(env.host, ts[i])
    ensures Decode(env, Csv.Row(headers, Csv.EscapeAll(Fields(env.host, ts[i])), i + 1)) == Some(ts[i])
  {
    DecodeFields(env, ts[i], i + 1);
  }

  /** Decoding an export gives back exactly the exported transactions. */
  lemma DecodeExport(env: Importer, ts: seq<Transaction>)
    requires forall i | 0 <= i < |ts| :: Portable(env.host, ts[i])
    ensures Csv.Decode(Export(env.host, ts), Decode, env) == ts
  {
    HeadersGood();
    AllGoodFields(env.host, ts);
    AllDecode(env, ts);
    Csv.ExportDecode(headers, Fields, env.host, ts, Decode, env);
  }

  /** Exporting transactions (amounts always written) and importing the file into a collection
      that holds none of their ids appends exactly those transactions. */
  lemma ExportImport(existing: seq<Transaction>, ts: seq<Transaction>, env: Importer)
    requires forall i | 0 <= i < |ts| :: Portable(env.host, ts[i])
    requires forall i | 0 <= i < |ts| :: !Store.HasKey(existing, TxnId, ts[i].id)
    ensures Import(existing, Export(env.host, ts), env) == existing + ts
  {
    DecodeExport(env, ts);
    Store.MergeDisjoint(existing, ts, TxnId);
  }

  /** The export as written agrees with the corrected one as long as no amount is 0. */
  lemma ExportAgrees(h: Host, ts: seq<Transaction>)
    requires forall i | 0 <= i < |ts| :: ts[i].amount != 0.0
    ensures ExportAsWritten(h, ts) == Export(h, ts)
  {
    assert Csv.RowLines(FieldsAsWritten, h, ts) == Csv.RowLines(Fields, h, ts);
  }

  /** The export as written loses a transaction whose amount is 0: its line carries an empty
      amount, which does not parse, so importing the file adds nothing. */
  lemma ZeroAmountLost(existing: seq<Transaction>, t: Transaction, env: Importer)
    requires EmptyNotNumber(env.host) && PlainTexts(t)
    requires t.amount == 0.0
    ensures Import(existing, ExportAsWritten(env.host, [t]), env) == existing
  {
    var h := env.host;
    HeadersGood();
    CellsGood(t, "");
    Csv.ExportRows(headers, FieldsAsWritten, h, [t]);
    var rows := Csv.Rows(ExportAsWritten(h, [t]));
    assert rows[0] == Csv.Row(headers, Csv.EscapeAll(Cells(t, "")), 1);
    RowCells(t, "", 1);
    assert ParseNumber(h, Csv.Field(rows[0], "amount")).None?;
    assert Decode(env, rows[0]).None?;
    assert Csv.Decode(ExportAsWritten(h, [t]), Decode, env) == [];
    Store.MergeDisjoint(existing, [], TxnId);
  }
}

=== FILE: wrappers.dfy ===
/** Optional values and success/failure results shared by every module of the model. */
module Wrappers {

  /** A value that may be absent; `None` stands for JavaScript's `undefined` (or NaN where noted). */
  datatype Option<+T> = None | Some(value: T) {

    /** The carried value, or `default` when absent (JavaScript's `x ?? default`). */
    function GetOr(default: T): T {
      match this
      case Some(v) => v
      case None => default
    }
  }

  /** The outcome of an operation that can be rejected with a typed error. */
  datatype Result<+T, +E> = Ok(value: T) | Err(error: E)
}
